=== FILE: README.md ===
# hiicart payment gateways in Dafny

A model of the bookkeeping at the centre of hiicart's payment gateways, in
Dafny 4.11, with proofs of what the gateways promise. hiicart is a Django
shopping cart. The model covers these gateways:

- **Authorize.net.** The payment form and its field table. The transaction
  `start_transaction` posts. The relay-response notification: the MD5 check,
  the upsert of the payment record, the address merge, and the view that
  orders check, accept and store. The stored responses `confirm_payment` reads.
- **Braintree.** The form builder `make_form` and its error remapping. The
  payment upsert and `new_order`. `confirm_payment`'s mapping from the SDK
  result to errors. The celery task that retries every four hours and voids
  after 18 tries.
- **Google Checkout.** The notification view: cart lookup order, the
  credential gate, dispatch on the notification type, and the
  acknowledgement that echoes the serial number.
- **PayPal Website Payments Standard.** The form `_get_form_data` builds.
  Submit, cancel and refund.
- **PayPal Express Checkout.** The SetExpressCheckout parameters, the
  recurring-profile parameters, the redirect, `get_details` and the
  activation decision of `finalize`.
- **`validate_gateway`.** The six-entry registry and how it translates
  errors.

## Conventions

- Every Python exception the code can raise is a `Base.Error` inside a
  `Result`: KeyError for a missing dict key, GatewayError,
  AttributeError/NameError/TypeError for the latent bugs below, and
  IndexError.
- A handler that saves a cart and then raises returns an `Effect`: the cart
  as saved together with the outcome. What was saved before the exception
  stays saved.
- Amounts are whole numbers of cents.
- `quantize(Decimal('.01'))`, and `str()` of a Decimal held with two
  places, are `Money.FormatCents`, which always writes two fraction
  digits. Amount text that becomes a Decimal is read with
  `Money.ParseCents`, which accepts what `Decimal()` accepts for amounts of
  at most two places: surrounding whitespace, a '+' or '-' sign, and a
  point with digits on either side or both (".50", "12.", "+1.00").
- `strip()` on request values removes Python 2's unicode whitespace
  (`Text.IsSpace`), since Django hands request values over as unicode.
- Settings are records of `Option<string>`. None stands for a setting that
  is absent, and Python truthiness is `Base.Truthy`.
- Several things are parameters:
  - dict iteration order;
  - the clock (`now`, `timestamp`, `isoformat`);
  - the hash functions (`md5`, `hmac`) and `_encrypt_data`;
  - Google's payment lookup and the basic-auth string;
  - what a gateway's `_is_valid` gives;
  - PayPal's NVP reply.

  Each NVP call is modelled as the request record it would send plus the
  reply map that comes back.
- Latent bugs in the source are modelled as the code behaves, not as its
  authors intended:
  - `self.car` (paypal_express/gateway.py:76) raises AttributeError whenever
    the bill street is set;
  - the undefined `pre` (paypal_express/gateway.py:181) raises NameError;
  - the undefined `recur` (paypal/gateway.py:202) raises NameError for every
    trial subscription;
  - `'discount_amount_' + ix` (paypal/gateway.py:230) raises TypeError;
  - `new_order` returns None, so Braintree's success branch never fires;
  - `validate_gateway` calls the constructor without a cart;
  - braintree/gateway.py:6 imports `PaymentForm` from braintree/forms.py,
    which only creates that class inside `make_form` (forms.py:116-117).
    Importing the gateway module therefore raises ImportError, and none of
    its methods can run as the module stands. The `BraintreeGateway`
    members model the methods as they would run with that import working;
    the import itself is not modelled;
  - without IPN_AUTH_VALS, google/views.py:56 tests the presented
    credential with `in` against the string `get_basic_auth()` returns, a
    substring test: any fragment of the merchant's credential, the empty
    one that the header "Basic " presents among them, is accepted
    (`GoogleViews.Accepts`).

## Model

| member | source | states |
|---|---|---|
| AuthorizeNetForms.PaymentFieldsShape | hiicart/gateway/authorizenet/forms.py:5-23 | PAYMENT_FIELDS is not injective: exp_date and expiration_month both map to x_exp_date. Every target is a field the form declares. |
| AuthorizeNetForms.GetAttr | hiicart/gateway/authorizenet/forms.py:69-75 | A key in PAYMENT_FIELDS is rewritten to its target. Any other key is looked up as given and is found iff the form declares it. |
| AuthorizeNetForms.CopyFieldsContents | hiicart/gateway/authorizenet/forms.py:79-84 | The copy loop fails iff the form is unbound and a copied key is not a declared field. On success it holds exactly the copied keys, with the transaction's values. |
| AuthorizeNetForms.SetTransaction | hiicart/gateway/authorizenet/forms.py:77-84 | A missing submit_url raises KeyError. The values set are exactly the keys starting "x_" plus return_url and cart_id, with their values. |
| AuthorizeNetForms.SetTransactionFits | hiicart/gateway/authorizenet/forms.py:77-84 | When every key except submit_url is a copied, declared field, an unbound form accepts the transaction and sets every key except submit_url. |
| AuthorizeNetForms.ReasonField | hiicart/gateway/authorizenet/forms.py:96-107 | Code 6 maps to x_card_num; 7 and 8 to x_exp_date; 65 and 78 to x_card_code; any other code to the non-field errors. Each mapping holds in both directions. |
| AuthorizeNetForms.SetResult | hiicart/gateway/authorizenet/forms.py:86-108 | Success leaves no errors. Failure leaves exactly one error, carrying the message, on the field the reason code points at. |
| AuthorizeNetForms.HiddenFieldsShape | hiicart/gateway/authorizenet/forms.py:110-127 | There are 14 hidden fields. All are distinct declared fields, and none is a target of PAYMENT_FIELDS. |
| AuthorizeNetForms.ExpirationMonthChoices | hiicart/gateway/authorizenet/forms.py:25 | There are twelve choices, numbered 1 to 12, each with a two-character label. |
| AuthorizeNetForms.MonthChoicesReadBack | hiicart/gateway/authorizenet/forms.py:25 | Each `%02d` label parses back to its month number. |
| AuthorizeNetGateway.SubmitUrl | hiicart/gateway/authorizenet/gateway.py:35-40 | The URL is the production URL iff LIVE, and the test URL iff not. |
| AuthorizeNetGateway.Submit | hiicart/gateway/authorizenet/gateway.py:42-46 | Submitting always gives a "direct" result. |
| AuthorizeNetGateway.HashMessageParts | hiicart/gateway/authorizenet/gateway.py:56-57 | The fingerprint message splits at '^' into the merchant id, the timestamp twice, the total and an empty tail. |
| AuthorizeNetGateway.TransactionMap | hiicart/gateway/authorizenet/gateway.py:59-72 | Each of the given fields carries its given value, x_relay_url the relay URL among them. invoice_num, fp_sequence and fp_timestamp all carry the timestamp. |
| AuthorizeNetGateway.TransactionMapConstants | hiicart/gateway/authorizenet/gateway.py:69-72 | The constant fields are x_relay_response "TRUE", x_method "CC", x_type "AUTH_CAPTURE" and x_version "3.1". |
| AuthorizeNetGateway.TransactionMapKeys | hiicart/gateway/authorizenet/gateway.py:59-72 | The transaction holds exactly the fourteen keys. |
| AuthorizeNetGateway.TestFlag | hiicart/gateway/authorizenet/gateway.py:73-74 | x_test_request is present iff not LIVE. |
| AuthorizeNetGateway.StartTransaction | hiicart/gateway/authorizenet/gateway.py:53-75 | The keys are the fourteen transaction keys plus x_test_request iff not LIVE. Off LIVE, the flag is "TRUE". |
| AuthorizeNetGateway.StartTransactionTimestamps | hiicart/gateway/authorizenet/gateway.py:62-65 | x_invoice_num, x_fp_sequence and x_fp_timestamp are all the timestamp. |
| AuthorizeNetGateway.StartTransactionFingerprint | hiicart/gateway/authorizenet/gateway.py:56-58 | x_fp_hash is the HMAC, under MERCHANT_KEY, of "id^ts^ts^total^". x_login is the merchant id. |
| AuthorizeNetGateway.StartTransactionRouting | hiicart/gateway/authorizenet/gateway.py:59-61 | submit_url is the endpoint LIVE selects and cart_id is the cart's uuid. return_url is RETURN_URL, or else the requesting page. |
| AuthorizeNetGateway.StartTransactionConstants | hiicart/gateway/authorizenet/gateway.py:68-72 | x_relay_url is IPN_URL. Every transaction is relayed ("TRUE") as a credit-card ("CC") AUTH_CAPTURE under version "3.1". |
| AuthorizeNetGateway.StartTransactionAmountReadsBack | hiicart/gateway/authorizenet/gateway.py:66 | The posted x_amount parses back to the cart total. |
| AuthorizeNetGateway.TransactionKeysFitForm | hiicart/gateway/authorizenet/gateway.py:59-74 | Every transaction key except submit_url is copied by set_transaction and is a field of the form. |
| AuthorizeNetGateway.StartTransactionFitsForm | hiicart/gateway/authorizenet/gateway.py:53-75 | Copying a started transaction into an unbound payment form succeeds. It keeps the submit URL and sets every field except submit_url. |
| AuthorizeNetGateway.GetResponse | hiicart/gateway/authorizenet/gateway.py:77-82 | The result is the first stored response, or None iff none is stored. |
| AuthorizeNetGateway.HasPaymentResult | hiicart/gateway/authorizenet/gateway.py:28-32 | True iff a response is stored for the cart. |
| AuthorizeNetGateway.SetResponse | hiicart/gateway/authorizenet/gateway.py:84-90 | Succeeds iff both reason fields are present and the code is a number. It appends exactly one response carrying them. |
| AuthorizeNetGateway.ConfirmPayment | hiicart/gateway/authorizenet/gateway.py:92-108 | With nothing stored, the result is failure with no id. Otherwise it succeeds iff the stored code is 1 (APPROVED, else DECLINED with the stored text), and the response is deleted. |
| AuthorizeNetGateway.ConfirmConsumesResponse | hiicart/gateway/authorizenet/gateway.py:92-108 | A stored response is reported once. A second confirm finds nothing and reports failure. |
| AuthorizeNetIpn.BraintreeStatusDisjoint | hiicart/gateway/authorizenet/ipn.py:9-14 | The four status lists of BRAINTREE_STATUS are pairwise disjoint. |
| AuthorizeNetIpn.SignedMessageBindsTotal | hiicart/gateway/authorizenet/ipn.py:29-32 | Different cart totals give different signed messages. |
| AuthorizeNetIpn.ConfirmIpnData | hiicart/gateway/authorizenet/ipn.py:25-34 | True iff x_MD5_Hash equals the MD5 of private key, merchant id, merchant key and total. A missing hash raises KeyError. |
| AuthorizeNetIpn.ConfirmReadsOnlyTheHash | hiicart/gateway/authorizenet/ipn.py:29-34 | Two notifications with the same x_MD5_Hash get the same verdict. |
| AuthorizeNetIpn.ResponseState | hiicart/gateway/authorizenet/ipn.py:40-45 | "1" maps to PAID and "4" to PENDING, in both directions. Every other code records nothing. |
| AuthorizeNetIpn.ReadAmount | hiicart/gateway/authorizenet/ipn.py:53-55 | x_amount is handed unparsed to `_create_payment`; the Decimal the payment's amount field makes of it is modelled here. The amount is read iff `Money.ParseCents` reads the text, and it is that amount. |
| AuthorizeNetIpn.RecordPayment | hiicart/gateway/authorizenet/ipn.py:36-56 | With no cart, nothing happens. A missing code raises KeyError. An unknown code writes nothing. Only the ledger can change, and an error leaves the cart as it was. |
| AuthorizeNetIpn.RecordPaymentUpdatesInPlace | hiicart/gateway/authorizenet/ipn.py:46-51 | A known transaction id adds no record. Its state is set, and it is returned only when the state changed. |
| AuthorizeNetIpn.RecordPaymentAppendsOnce | hiicart/gateway/authorizenet/ipn.py:52-56 | An unseen transaction id appends exactly one record, carrying the amount, the id and the mapped state. |
| AuthorizeNetIpn.RecordPaymentIdempotent | hiicart/gateway/authorizenet/ipn.py:46-56 | Applying the same notification a second time changes nothing and returns nothing. |
| AuthorizeNetIpn.RecordPaymentKeepsIdsUnique | hiicart/gateway/authorizenet/ipn.py:46-56 | The ledger never holds two records with the same transaction id. |
| AuthorizeNetIpn.ReadAddress | hiicart/gateway/authorizenet/ipn.py:62-77 | An address block is read iff all seven fields are present. The second street line is blank. |
| AuthorizeNetIpn.AcceptPayment | hiicart/gateway/authorizenet/ipn.py:58-80 | With no cart, nothing happens. Otherwise the saved cart keeps its uuid and, on success, is SUBMITTED. |
| AuthorizeNetIpn.AcceptPaymentSubmitsThenRecords | hiicart/gateway/authorizenet/ipn.py:62-80 | Each address field becomes the incoming value if non-empty and is kept otherwise, with street2 untouched. The cart is SUBMITTED, and then the payment is recorded against that cart. |
| AuthorizeNetIpn.AcceptPaymentNeedsAddresses | hiicart/gateway/authorizenet/ipn.py:62-77 | A notification missing any address field raises and changes nothing. |
| AuthorizeNetViews.FindCart | hiicart/gateway/authorizenet/views.py:18-19 | The cart is looked up by cart_id alone. A missing cart_id raises KeyError. |
| AuthorizeNetViews.Ipn | hiicart/gateway/authorizenet/views.py:25-56 | A non-POST gets the plain message and changes nothing. Success returns to return_url. Records change, and success is returned, only for a known cart whose notification passes the MD5 check. |
| AuthorizeNetViews.IpnConfirmed | hiicart/gateway/authorizenet/views.py:45-56 | After a passed check, no cart except the notified one changes, no other cart's responses change, and success sends the shopper to return_url. |
| AuthorizeNetViews.AcceptIfApproved | hiicart/gateway/authorizenet/views.py:45-46 | accept_payment runs iff x_response_code is "1". |
| AuthorizeNetViews.IpnRejectsBeforeChanging | hiicart/gateway/authorizenet/views.py:37-43 | A missing cart_id or x_MD5_Hash raises KeyError. An unknown cart or a failed MD5 check raises GatewayError. In each case nothing is saved. |
| AuthorizeNetViews.IpnAcceptsOnlyApproved | hiicart/gateway/authorizenet/views.py:45-46 | A response code other than "1" leaves every cart unchanged. |
| AuthorizeNetViews.IpnStoresResponse | hiicart/gateway/authorizenet/views.py:45-50 | After a passed check, the response is stored whatever the code: the cart's responses grow by exactly one. An approved cart is accepted first. |
| BraintreeForms.KindFor | hiicart/gateway/braintree/forms.py:116 | A recurring form is a CustomerForm, and otherwise a PaymentForm. |
| BraintreeForms.Prefix | hiicart/gateway/braintree/forms.py:51 | The prefix is "transaction__" iff the form is a PaymentForm. |
| BraintreeForms.BillingPrefix | hiicart/gateway/braintree/forms.py:103-104 | Billing fields live under "transaction__" on a PaymentForm and under "customer__credit_card__" on a CustomerForm. |
| BraintreeForms.CustomerFormPrefixes | hiicart/gateway/braintree/forms.py:79-117 | Every CustomerForm field except tr_data starts with "customer__cr". |
| BraintreeForms.MakeFormFields | hiicart/gateway/braintree/forms.py:81-88 | Both kinds carry tr_data, the five card fields under their prefix, and the billing fields under the billing prefix. |
| BraintreeForms.MakeFormShipping | hiicart/gateway/braintree/forms.py:90-101 | Shipping fields are present iff the form is not recurring. |
| BraintreeForms.ErrorField | hiicart/gateway/braintree/forms.py:53-65 | A card name maps to prefix + "credit_card__" + name, and non_field_errors to NON_FIELD_ERRORS. Any other name passes through unchanged. |
| BraintreeForms.CardErrorsLandOnFields | hiicart/gateway/braintree/forms.py:53-63 | A card error lands on a field of the form built for that kind. |
| BraintreeForms.PlaceErrorsContents | hiicart/gateway/braintree/forms.py:53-66 | The placed errors sit on exactly the mapped names. A name whose field no other name shares keeps its message. |
| BraintreeForms.SetResult | hiicart/gateway/braintree/forms.py:44-66 | Success leaves no errors. Failure places errors on exactly the fields the error names map to. |
| BraintreeForms.SetResultKeepsMessages | hiicart/gateway/braintree/forms.py:53-66 | A name whose field no other name shares keeps its message. |
| BraintreeForms.ErrorFieldCollides | hiicart/gateway/braintree/forms.py:56-57 | "number" and its already-prefixed spelling are different names that land on the same field. |
| BraintreeForms.GetAttr | hiicart/gateway/braintree/forms.py:69-76 | A PaymentForm looks the name up under "transaction__". A CustomerForm uses "customer__credit_card__" for names containing "billing" and "customer__" otherwise. |
| BraintreeForms.GetAttrFindsCardFields | hiicart/gateway/braintree/forms.py:69-88 | Attribute access finds every card field that make_form built, for both kinds. |
| BraintreeForms.GetAttrOwnPrefix | hiicart/gateway/braintree/forms.py:70-74 | A name without "billing" is looked up under the form's own prefix. |
| BraintreeForms.GetAttrBillingPrefix | hiicart/gateway/braintree/forms.py:71-74 | A name with "billing" is looked up under the billing prefix. |
| BraintreeForms.GetAttrFindsBillingFields | hiicart/gateway/braintree/forms.py:69-114 | Attribute access finds every billing field, for both kinds. |
| BraintreeForms.GetAttrFindsShippingFields | hiicart/gateway/braintree/forms.py:69-101 | A shipping name is found iff the form is not recurring. |
| BraintreeForms.CustomerFormLacks | hiicart/gateway/braintree/forms.py:90-104 | A CustomerForm has no field starting "customer__s". |
| BraintreeGateway.Submit | hiicart/gateway/braintree/gateway.py:38-40 | Submitting always gives a "direct" result. |
| BraintreeGateway.ErrorsOf | hiicart/gateway/braintree/gateway.py:73-74 | Every deep error's attribute is a key. |
| BraintreeGateway.ErrorsOfKeys | hiicart/gateway/braintree/gateway.py:73-74 | Every key is some deep error's attribute. |
| BraintreeGateway.ErrorsOfLastWins | hiicart/gateway/braintree/gateway.py:73-74 | Under each attribute, the message of the last deep error with that attribute is kept. |
| BraintreeGateway.TransactionErrors | hiicart/gateway/braintree/gateway.py:75-80 | processor_declined gives the processor response text under non_field_errors, and gateway_rejected gives the rejection reason. Any other status gives no errors. |
| BraintreeGateway.ConfirmPayment | hiicart/gateway/braintree/gateway.py:57-81 | A raising confirm gives "Request to payment gateway failed.". Every path that returns gives success=False. Status and errors come from the transaction or the deep errors. A success without a transaction raises. |
| BraintreeGateway.SettledConfirmationReportsFailure | hiicart/gateway/braintree/gateway.py:65-69 | Even a settled, successful confirmation reports failure, although the order was accepted. |
| BraintreeIpn.EnvironmentFor | hiicart/gateway/braintree/ipn.py:20-25 | The environment is Production iff LIVE; the gateway's own `environment` property (hiicart/gateway/braintree/gateway.py:28-32) is the same rule, so this one member models both. |
| BraintreeIpn.StatusState | hiicart/gateway/braintree/ipn.py:31-36 | settled and authorized map to PAID, and authorizing and submitted_for_settlement to PENDING, in both directions. Any other status records nothing. |
| BraintreeIpn.StatusTableDisagreesOnAuthorized | hiicart/gateway/braintree/ipn.py:31-36 | The classification agrees with BRAINTREE_STATUS except on "authorized", which the table lists as PENDING. |
| BraintreeIpn.RecordPayment | hiicart/gateway/braintree/ipn.py:27-45 | With no cart or an unknown status, nothing is written. Otherwise one record with the id and mapped state is written, and only the ledger changes. |
| BraintreeIpn.RecordPaymentUpdatesPending | hiicart/gateway/braintree/ipn.py:37-41 | The first PENDING record with the id is updated in place. The ledger keeps its length. |
| BraintreeIpn.RecordPaymentAppends | hiicart/gateway/braintree/ipn.py:42-45 | With no PENDING record for the id, exactly one record with its amount, id and state is appended. |
| BraintreeIpn.PendingThenSettledIsOneRecord | hiicart/gateway/braintree/ipn.py:37-45 | A pending report followed by a settled one leaves a single PAID record. |
| BraintreeIpn.SettledTwiceAddsSecondRecord | hiicart/gateway/braintree/ipn.py:37-45 | A second settled report appends a duplicate record, because only PENDING records are updated. |
| BraintreeIpn.NewOrder | hiicart/gateway/braintree/ipn.py:47-69 | With no cart, nothing happens. Otherwise the cart keeps its uuid and is SUBMITTED. |
| BraintreeIpn.NewOrderMergesThenRecords | hiicart/gateway/braintree/ipn.py:51-69 | All sixteen address fields, street2 included, are merged as "incoming if non-empty". The cart is then SUBMITTED and the payment recorded. |
| BraintreeIpn.UpdateOrderStatus | hiicart/gateway/braintree/ipn.py:71-87 | The returned cart is the one `_record_payment` saves for the (possibly forced) transaction, set to COMPLETED when done. It reports done iff the recorded payment is PAID. Off LIVE the status is forced to settled, so it always reports done. On LIVE an unrecognised status records nothing, and reading `.state` of None raises. |
| BraintreeTasks.Decide | hiicart/gateway/braintree/tasks.py:16-27 | Done finishes. Not done with tries >= 18 voids. Otherwise it reschedules once with tries+1 and a countdown of 14400. |
| BraintreeTasks.UpdatePaymentStatus | hiicart/gateway/braintree/tasks.py:12-27 | The cart is the one update_order_status leaves. The run finishes iff the order is done, and then the cart is COMPLETED. Off LIVE, it always finishes. |
| BraintreeTasks.Runs | hiicart/gateway/braintree/tasks.py:17-27 | The chain of self-rescheduling runs gives at most one action per status check. Its contents are stated by RunsAreBounded and AlwaysPendingGivesUp. |
| BraintreeTasks.RunsAreBounded | hiicart/gateway/braintree/tasks.py:17-27 | Starting from `tries`, there are at most 18 - tries reschedules. The i-th reschedule has tries+i+1 and a countdown of 14400. |
| BraintreeTasks.AlwaysPendingGivesUp | hiicart/gateway/braintree/tasks.py:17-27 | A payment that never settles is rescheduled exactly 18 - tries times and then voided once. |
| BraintreeTasks.FreshTaskVoidsAfter72Hours | hiicart/gateway/braintree/tasks.py:17-27 | From tries=0 there are exactly 18 reschedules, 72 hours in total, then one void. |
| BraintreeTasks.DoneStopsRuns | hiicart/gateway/braintree/tasks.py:16-18 | A done order neither reschedules nor voids. |
| Carts.MergeAddressFieldwise | hiicart/gateway/braintree/ipn.py:51-66 | Each merged field is the incoming value when non-empty, and the stored one otherwise. |
| Carts.MergeAddressIdempotent | hiicart/gateway/authorizenet/ipn.py:62-77 | Merging twice equals merging once, and a blank incoming address changes nothing. |
| Carts.FirstMatch | hiicart/gateway/braintree/ipn.py:37 | The result is the first record with the id (and PENDING, when asked), or None iff there is none. |
| GoogleViews.Status | hiicart/gateway/google/views.py:41-60 | A bad request is 400, an unauthorized one 401, and an acknowledgement 200. |
| GoogleViews.AcceptsWhich | hiicart/gateway/google/views.py:51-56 | With IPN_AUTH_VALS configured, a credential passes iff it is one of its values. Otherwise `in` tests for a substring of the get_basic_auth() string: every piece of it passes, the empty credential included. |
| GoogleViews.IpnAcceptsBlankBasicAuth | hiicart/gateway/google/views.py:51-65 | Without IPN_AUTH_VALS, a found cart's notification with the header "Basic " runs its handler. |
| GoogleViews.FirstItemDataKey | hiicart/gateway/google/views.py:27-29 | The result is the first key ending in "merchant-private-item-data", or None iff there is none. |
| GoogleViews.PrivateData | hiicart/gateway/google/views.py:23-32 | Cart-level private data comes first, else the first item-level one. Empty private data counts as none. |
| GoogleViews.FindCart | hiicart/gateway/google/views.py:15-33 | An existing payment's cart comes first. Otherwise the cart is the one whose uuid is the private data. |
| GoogleViews.Presented | hiicart/gateway/google/views.py:55 | The credential is the second space-separated word. No header raises KeyError, and a header without a space raises IndexError. |
| GoogleViews.PresentedToken | hiicart/gateway/google/views.py:55 | "scheme token" presents the token. |
| GoogleViews.DispatchExactlyOne | hiicart/gateway/google/views.py:62-81 | Each of the eight types runs its own handler and no other. Any other type runs none. |
| GoogleViews.DispatchTypeOf | hiicart/gateway/google/views.py:62-79 | Each handler's type runs that handler. |
| GoogleViews.DispatchNamesType | hiicart/gateway/google/views.py:62-81 | A type that runs a handler is that handler's type. |
| GoogleViews.AckXml | hiicart/gateway/google/views.py:85 | The ack is the fixed prefix, the serial number stripped of unicode whitespace, and the fixed suffix. |
| GoogleViews.AckXmlInjective | hiicart/gateway/google/views.py:85 | Two serial numbers get the same ack iff they strip to the same text. |
| GoogleViews.Acknowledge | hiicart/gateway/google/views.py:85-89 | A notification is acknowledged iff it has a serial number. Without one, KeyError is raised. |
| GoogleViews.Ipn | hiicart/gateway/google/views.py:39-89 | A non-POST gets 400 and nothing runs. A 401 runs no handler. A handler runs only for a found cart whose credential is accepted. |
| GoogleViews.IpnAcknowledges | hiicart/gateway/google/views.py:47-89 | Unless 401 is returned, a POSTed notification is acknowledged with its stripped serial number, even when its cart is unknown. A refused credential runs nothing. |
| Money.FormatCents | hiicart/gateway/paypal/gateway.py:225 | An amount is written with a point and exactly two fraction digits. |
| Money.ParseFormatCents | hiicart/gateway/paypal/gateway.py:225 | Every written amount parses back to the same number of cents. |
| Money.FormatCentsInjective | hiicart/gateway/paypal/gateway.py:225 | Different amounts are written differently. |
| Money.ParseCentsSpellings | hiicart/gateway/authorizenet/ipn.py:53-55 | Any sign, digits, point and up to two digits, with a digit on some side of the point, read as Decimal reads them: the whole units and the cents of the fraction, negated by '-'. So ".50", "12." and "+1.00" are amounts. |
| Money.ParseCentsRefusesSpellings | hiicart/gateway/authorizenet/ipn.py:53-55 | A lone point, or three or more fraction digits, is refused. |
| Text.StripLeadingChar | hiicart/gateway/google/views.py:85 | A text that starts with any unicode whitespace character, a no-break space as well as a space, strips to what its remainder strips to. |
| Text.StripTrailingChar | hiicart/gateway/google/views.py:85 | A text that ends with any unicode whitespace character strips to what the text before it strips to. |
| Text.ContainsInfix | hiicart/gateway/google/views.py:56 | Python's substring test finds every piece of a text in it, the empty string included. |
| PaypalCommon.NvpEndpoint | hiicart/gateway/paypal/gateway.py:71-77 | The production NVP endpoint is used iff LIVE, and the sandbox one iff not. |
| PaypalCommon.RenderDecimalReadsBack | hiicart/gateway/paypal/gateway.py:289 | A posted amount reads back as the same number of cents. |
| PaypalCommon.CheckAck | hiicart/gateway/paypal/gateway.py:94-97 | The reply is returned iff ACK is "Success". Any other ACK raises "Error calling Paypal " + method, and a missing ACK raises KeyError. |
| PaypalGateway.SubmitUrl | hiicart/gateway/paypal/gateway.py:62-68 | The URL is the production URL iff LIVE. |
| PaypalGateway.ItemKeySplit | hiicart/gateway/paypal/gateway.py:224-228 | An item field's name is its prefix followed by the item number. |
| PaypalGateway.ItemKeysDistinct | hiicart/gateway/paypal/gateway.py:224-228 | Different item fields are posted under different names. |
| PaypalGateway.HeadFields | hiicart/gateway/paypal/gateway.py:142-172 | Fails iff a required setting is missing (BUSINESS raises first). Each head field is present exactly when its condition holds, with its value. |
| PaypalGateway.DelayDays | hiicart/gateway/paypal/gateway.py:189-190 | `delay.days` is the floor, in days, of start - now + 1 day. |
| PaypalGateway.SubscriptionFields | hiicart/gateway/paypal/gateway.py:176-218 | A trial with a delayed start raises GatewayError. Any other trial raises NameError. A delay over 90 days raises GatewayError. Otherwise cmd is "_xclick-subscriptions", with each field present exactly under its condition. |
| PaypalGateway.ItemEntry | hiicart/gateway/paypal/gateway.py:224-228 | The five fields of an item carry the item's values under its number. |
| PaypalGateway.ItemEntryComplete | hiicart/gateway/paypal/gateway.py:224-228 | Every item has all five fields. |
| PaypalGateway.ItemFields | hiicart/gateway/paypal/gateway.py:222-231 | Fails with TypeError iff some item has a discount. Items are numbered after their position. |
| PaypalGateway.ItemFieldsContents | hiicart/gateway/paypal/gateway.py:222-231 | Item i is posted as number i+1, with its values. |
| PaypalGateway.CartFields | hiicart/gateway/paypal/gateway.py:219-231 | A cart upload has cmd "_cart", upload "1" and items numbered 1 to n. |
| PaypalGateway.BillingFields | hiicart/gateway/paypal/gateway.py:232-244 | Address fields are present iff bill_street1 is set. state is present only for country "us" (any case) and a two-letter state. |
| PaypalGateway.GetFormData | hiicart/gateway/paypal/gateway.py:140-245 | More than one recurring item gives None. One recurring item gives a subscription. None gives a cart upload. Head errors come first. |
| PaypalGateway.FormDataParts | hiicart/gateway/paypal/gateway.py:140-245 | The form is the union of the head, the body and the billing fields. |
| PaypalGateway.FormDataHead | hiicart/gateway/paypal/gateway.py:143-172 | Each head field is present exactly under its condition, with its value. no_shipping defaults to "0". |
| PaypalGateway.FormDataCommand | hiicart/gateway/paypal/gateway.py:176-221 | cmd is "_xclick-subscriptions" iff the cart has a recurring item, and "_cart" otherwise. |
| PaypalGateway.FormDataSubscription | hiicart/gateway/paypal/gateway.py:176-218 | A subscription carries a3/p3/t3/srt from the item, and sra "1" iff REATTEMPT. |
| PaypalGateway.FormDataDelayedStart | hiicart/gateway/paypal/gateway.py:188-196 | A delayed start is a free first period of `delay.days` days. |
| PaypalGateway.FormDataItems | hiicart/gateway/paypal/gateway.py:219-231 | Item i of a cart upload is number i+1, with its name, amount, quantity and SKU. |
| PaypalGateway.FormDataBilling | hiicart/gateway/paypal/gateway.py:232-244 | Each address field is present exactly under its condition, with the cart's value. |
| PaypalGateway.Submit | hiicart/gateway/paypal/gateway.py:268-275 | Submitting succeeds iff the form data does, and with ENCRYPT iff there is form data to encrypt. The form is posted to the submit URL. Without ENCRYPT the fields are the form data. With ENCRYPT they are the one "encrypted" entry, holding `_encrypt_data` of the form data. |
| PaypalGateway.CancelRecurring | hiicart/gateway/paypal/gateway.py:252-258 | The URL is the submit URL followed by "?cmd=_subscr-find&alias=" and BUSINESS. A missing BUSINESS raises KeyError. |
| PaypalGateway.CancelRecurringReadsBack | hiicart/gateway/paypal/gateway.py:252-258 | Read back as a URL, the link is the submit URL, '?', and a query that splits at '&' into the unsubscribe command and the alias, for any alias without '&'. |
| PaypalGateway.CancelRecurringInjective | hiicart/gateway/paypal/gateway.py:252-258 | The link tells LIVE from sandbox and one BUSINESS from another. |
| PaypalGateway.NvpRequest | hiicart/gateway/paypal/gateway.py:79-87 | The call goes out iff the API credentials are set. An empty user name raises GatewayError. The call carries the method, the parameters and the credentials. |
| PaypalGateway.RefundParams | hiicart/gateway/paypal/gateway.py:283-292 | refundtype is "Partial" iff an amount is given, and amt is present only then. note is present iff a reason is given. A missing CURRENCY_CODE raises. |
| PaypalGateway.Refund | hiicart/gateway/paypal/gateway.py:283-296 | A refund that goes through sent exactly the RefundTransaction request built from the refund's parameters, and gives an untyped result. |
| PaypalGateway.RefundRequest | hiicart/gateway/paypal/gateway.py:283-294 | The request sent carries the API credentials, transactionid, currencycode, refundtype "Partial" iff a non-zero amount, amt iff one, and note iff a reason. |
| PaypalGateway.RefundOutcome | hiicart/gateway/paypal/gateway.py:283-296 | A refund goes through iff the currency and credentials are set and PayPal acknowledges. The errors come in the source's order. |
| PaypalGateway.RefundPayment | hiicart/gateway/paypal/gateway.py:277-281 | Refunding a payment succeeds or fails exactly as a refund without an amount does. |
| PaypalGateway.RefundPaymentIsFull | hiicart/gateway/paypal/gateway.py:277-289 | A payment refund is a "Full" refund with no amount. |
| PaypalExpressGateway.OrDefault | hiicart/gateway/paypal_express/settings.py:18-23 | A setting the store gives wins over the default. |
| PaypalExpressGateway.ApplyDefaults | hiicart/gateway/paypal_express/settings.py:18-23 | The defaults are USD, US, "" and "76.0". Every other setting is kept as given. |
| PaypalExpressGateway.RedirectUrl | hiicart/gateway/paypal_express/gateway.py:66-72 | The URL starts with the live or sandbox page, chosen by LIVE, and the rest of it is the token. |
| PaypalExpressGateway.RedirectUrlReadsBack | hiicart/gateway/paypal_express/gateway.py:66-72 | The redirect starts with the base LIVE selects. The token reads back from it, and different tokens give different redirects. |
| PaypalExpressGateway.NvpRequest | hiicart/gateway/paypal_express/gateway.py:48-54 | The call carries the method, the parameters and the four credentials as set. |
| PaypalExpressGateway.LineEntry | hiicart/gateway/paypal_express/gateway.py:138-143 | An item line carries the item's name, description, amount, quantity and SKU under its index. |
| PaypalExpressGateway.LineEntryComplete | hiicart/gateway/paypal_express/gateway.py:138-143 | Every item line has all five parameters. |
| PaypalExpressGateway.Lines | hiicart/gateway/paypal_express/gateway.py:137-144 | Lines are indexed from the start position to the end. |
| PaypalExpressGateway.LinesContents | hiicart/gateway/paypal_express/gateway.py:137-144 | Item i is line i, with its values. |
| PaypalExpressGateway.CheckoutData | hiicart/gateway/paypal_express/gateway.py:85-151 | Raises AttributeError iff bill_street1 is set. Each request field is present exactly under its condition, with its value. Lines exist only without recurring items. |
| PaypalExpressGateway.CheckoutDataLines | hiicart/gateway/paypal_express/gateway.py:127-144 | Without recurring items, item i is line i under "l_paymentrequest_0_", from index 0. |
| PaypalExpressGateway.RequestAmounts | hiicart/gateway/paypal_express/gateway.py:110-124 | Without recurring items, amt is the total and itemamt the subtotal, with shipping and tax defaulting to 0.00. With them, amt is "0.00" and maxamt the total. paymentaction is always "Sale". |
| PaypalExpressGateway.RequestDefaults | hiicart/gateway/paypal_express/gateway.py:90-102 | noshipping defaults to "0" and allownote is "1". returnurl and cancelurl are present iff set. |
| PaypalExpressGateway.RecurringData | hiicart/gateway/paypal_express/gateway.py:153-185 | No recurring item raises GatewayError. A set bill street raises NameError. The trial fields are present iff the item has a trial. |
| PaypalExpressGateway.RecurringDataTrial | hiicart/gateway/paypal_express/gateway.py:174-178 | A trial repeats the regular period and frequency, with its own length and price. |
| PaypalExpressGateway.Submit | hiicart/gateway/paypal_express/gateway.py:187-199 | SetExpressCheckout is called. The result redirects to the token's URL and carries the token in the session. |
| PaypalExpressGateway.SubmitTokenRoundTrip | hiicart/gateway/paypal_express/gateway.py:197-199 | The session token is the one the redirect URL ends with. |
| PaypalExpressGateway.GetDetails | hiicart/gateway/paypal_express/gateway.py:201-219 | Succeeds iff PayPal acknowledges with a PAYERID and a target is set. The target is CONFIRM_URL if set, else FINALIZE_URL. The session carries the token and payer id. |
| PaypalExpressGateway.Activate | hiicart/gateway/paypal_express/gateway.py:233-239 | The item is marked active iff STATUS is "ActiveProfile". It holds the profile id, and nothing else changes. |
| PaypalExpressGateway.ProfileParams | hiicart/gateway/paypal_express/gateway.py:223-229 | The parameters are the token, the payer and exactly the profile's parameters. |
| PaypalExpressGateway.PurchaseParams | hiicart/gateway/paypal_express/gateway.py:223-242 | The parameters are the token, the payer and exactly the checkout's parameters. |
| PaypalExpressGateway.Finalize | hiicart/gateway/paypal_express/gateway.py:221-246 | A call is made iff bill_street1 is empty: CreateRecurringPaymentsProfile for a recurring cart, else DoExpressCheckoutPayment. Success goes to COMPLETE_URL. The recurring call carries the token, the payer and exactly the recurring profile data; the checkout call carries them and exactly the checkout data. A one-time cart is never changed. |
| PaypalExpressGateway.Complete | hiicart/gateway/paypal_express/gateway.py:245-246 | The result is COMPLETE_URL, or KeyError when it is unset. |
| PaypalExpressGateway.FinalizeRecurring | hiicart/gateway/paypal_express/gateway.py:229-246 | The item is saved only when PayPal creates the profile. |
| PaypalExpressGateway.FinalizeActivation | hiicart/gateway/paypal_express/gateway.py:231-239 | After finalizing, the first recurring item is active iff STATUS is "ActiveProfile", and holds the profile id. |
| PaypalExpressGateway.FinalizeFailureSavesNothing | hiicart/gateway/paypal_express/gateway.py:227-232 | A finalize that fails before the profile exists saves nothing. |
| Registry.ClassForKeyOf | hiicart/__init__.py:14-21 | Each class is found under its own key. |
| Registry.RegistryExactlySix | hiicart/__init__.py:14-21 | A key finds a class iff it is one of the six lower-case names, and then exactly that class. |
| Registry.Construct | hiicart/__init__.py:24 | The two PayPal classes raise TypeError when constructed without a cart. |
| Registry.ValidateGateway | hiicart/__init__.py:4-27 | An unknown key raises KeyError, which is not caught. Success requires a registered key. |
| Registry.ValidateGatewayOutcome | hiicart/__init__.py:22-27 | The result is True iff `_is_valid()` is true, else "Authentication Error". A GatewayError becomes its message, and other errors propagate. |
| Registry.ValidatePaypalRaises | hiicart/__init__.py:17-24 | "paypal" and "paypal_express" always raise TypeError. |

## Left out

- **Django, celery and SDK plumbing.** Request/response objects, sessions,
  templates, form widgets, the ORM (modelled as sequences and maps of
  records), logging and `format_exceptions` are not modelled, nor is
  celery's scheduling beyond the retry decision.
- **Network calls.** The httplib2 transport of `_do_nvp` and the Braintree
  SDK calls (`Transaction.find`, `TransparentRedirect.confirm`,
  `tr_data_for_sale`) are outside the model. Their results are parameters.
- **Braintree `start_transaction`.** It only wraps an SDK call.
- **Cryptography.** `_encrypt_data` (M2Crypto S/MIME), MD5 and HMAC are
  uninterpreted functions.
- **`get_transaction_details` and `get_recurring_payments_profile_details`.**
  They are bare NVP calls with a single parameter.
- **The google/ipn.py handlers, `cart_by_uuid` and `GoogleIPN._find_payment`.**
  They are not part of this model. The handler invoked is reported by name,
  and both lookups are parameters.
- **Settings defaults.** Only the Express Checkout defaults are modelled. The
  other gateways' settings files are not part of this model, so their
  settings are the values the gateway sees. The constructors'
  `_require_settings` (gateway/base.py) is not part of this model.
- **PayPal Express views and `paypal_express_checkout`.** The views are
  session plumbing, and `paypal_express_checkout` does not run as written
  (`cart_uuid` and `_base_paypal_ipn` are undefined).
- **`hiicart/forms.py`.** It is abstract.
- **EXPIRATION_YEAR_CHOICES.** It depends on the clock.
- **Decimal arithmetic.** Amounts are whole cents, so sub-cent values and
  rounding in `quantize` are not modelled. `Money.FormatCents` writes
  exactly two fraction digits, as `quantize(Decimal('.01'))` does.
- **Dict ordering.** The order of SortedDict and dict iteration does not
  affect the modelled maps, except where iteration order decides which
  value wins (Braintree errors, Google item data). There it is a
  parameter.
- **AuthorizeNetIpn.ReadAmount:** exponent notation ("1E2"), more than two
  fraction digits, non-ASCII digits and the special values (NaN, Infinity)
  are refused, although `Decimal()` accepts them. What the payment's
  amount field then stores for them depends on its declared places, and
  that field's definition is not part of this model.
- **AuthorizeNetIpn.ConfirmIpnData:** the cart total enters the signed
  message as `Money.FormatCents`, which is `str()` of a Decimal held with
  two places. A total held with another number of places is written
  differently by `str()` ("12.5" for Decimal('12.5')). The model does not
  represent such totals, since an amount is a whole number of cents.
- **AuthorizeNetGateway.SetResponse:** the reason code is stored as a number
  (the model field is an integer). Text that is not a number is reported as
  an error rather than by the ORM.
- **PaypalGateway.SubscriptionFields:** `trial_times > 1` (paypal/gateway.py:202)
  is never reached, because `recur` is undefined. Every trial therefore
  raises NameError, and the a2/p2/t2 fields never appear.

=== FILE: authnet_forms.dfy ===
/** The Authorize.net payment form: the table that maps the generic
    card/address names onto Authorize.net's x_* fields, attribute access
    through that table, the copying of a transaction's values into the form,
    the placing of a declined payment's message on the field the response
    reason code points at, and the hidden fields. Form widgets and rendering
    are not modelled; a form is the set of its field names. */
module AuthorizeNetForms {
  import opened Base
  import opened Text

  /** PAYMENT_FIELDS: generic field names to Authorize.net field names. */
  const PaymentFields: map<string, string> := map[
    "credit_card__number" := "x_card_num",
    "credit_card__cvv" := "x_card_code",
    "credit_card__exp_date" := "x_exp_date",
    "credit_card__expiration_month" := "x_exp_date",
    "billing__first_name" := "x_first_name",
    "billing__last_name" := "x_last_name",
    "billing__street_address" := "x_address",
    "billing__locality" := "x_city",
    "billing__region" := "x_state",
    "billing__postal_code" := "x_zip",
    "billing__country_code_alpha2" := "x_country",
    "customer__phone" := "x_phone",
    "shipping__first_name" := "x_ship_to_first_name",
    "shipping__last_name" := "x_ship_to_last_name",
    "shipping__street_address" := "x_ship_to_address",
    "shipping__locality" := "x_ship_to_city",
    "shipping__region" := "x_ship_to_state",
    "shipping__postal_code" := "x_ship_to_zip",
    "shipping__country_code_alpha2" := "x_ship_to_country"]

  /** The fields PaymentForm declares. */
  const FormFields: set<string> := {
    "return_url", "cart_id", "x_invoice_num", "x_amount", "x_fp_sequence", "x_fp_timestamp",
    "x_fp_hash", "x_relay_response", "x_relay_url", "x_login", "x_method", "x_type",
    "x_test_request", "x_version", "x_card_num", "x_card_code", "x_exp_date", "x_first_name",
    "x_last_name", "x_address", "x_city", "x_state", "x_zip", "x_country", "x_phone",
    "x_ship_to_first_name", "x_ship_to_last_name", "x_ship_to_address", "x_ship_to_city",
    "x_ship_to_state", "x_ship_to_zip", "x_ship_to_country"}

  /** The table is not one-to-one: the expiry date and the expiry month both
      land on x_exp_date, so they cannot be told apart on the form. Every name
      it produces is a field of the form. */
  lemma PaymentFieldsShape()
    ensures PaymentFields["credit_card__exp_date"] == PaymentFields["credit_card__expiration_month"] == "x_exp_date"
    ensures "credit_card__exp_date" != "credit_card__expiration_month"
    ensures forall k | k in PaymentFields :: PaymentFields[k] in FormFields
  {
  }

  /** `__getattr__`: the name is rewritten through PAYMENT_FIELDS when it is
      a key there and used as given otherwise; the result names the form
      field returned, or None when there is no such field and ordinary
      attribute lookup takes over. */
  function GetAttr(key: string): (r: Option<string>)
    ensures key in PaymentFields ==> r == Some(PaymentFields[key])
    ensures key !in PaymentFields ==> (r.Some? <==> key in FormFields)
    ensures r.Some? ==> r.value in FormFields
    ensures key !in PaymentFields && r.Some? ==> r.value == key
  {
    PaymentFieldsShape();
    var field := if key in PaymentFields then PaymentFields[key] else key;
    if field in FormFields then Some(field) else None
  }

  /** The keys `set_transaction` copies into the form: those whose first two
      characters are "x_", and return_url and cart_id. */
  predicate Copied(key: string)
  {
    (|key| >= 2 && key[0] == 'x' && key[1] == '_') || key == "return_url" || key == "cart_id"
  }

  /** The copy loop of `set_transaction` over the keys in `order`. An unbound
      form sets each field's initial value, which raises for a key the form
      does not declare; a bound form writes into its data and never raises. */
  function CopyFields(data: map<string, string>, order: seq<string>, isBound: bool): (r: Result<map<string, string>>)
    requires forall i | 0 <= i < |order| :: order[i] in data
    decreases |order|
  {
    if |order| == 0 then Ok(map[])
    else
      var k := order[0];
      if Copied(k) && !isBound && k !in FormFields then Err(KeyError(k))
      else
        var rest :- CopyFields(data, order[1..], isBound);
        if Copied(k) then Ok(rest[k := data[k]]) else Ok(rest)
  }

  /** The copy succeeds unless the form is unbound and some copied key is
      not one of its fields; on success it holds exactly the copied keys,
      with the transaction's values. */
  lemma {:induction false} CopyFieldsContents(data: map<string, string>, order: seq<string>, isBound: bool)
    requires forall i | 0 <= i < |order| :: order[i] in data
    ensures var r := CopyFields(data, order, isBound);
      && (r.Err? <==> !isBound && exists i | 0 <= i < |order| :: Copied(order[i]) && order[i] !in FormFields)
      && (r.Ok? ==> forall k :: k in r.value <==> k in order && Copied(k))
      && (r.Ok? ==> forall k | k in r.value :: r.value[k] == data[k])
    decreases |order|
  {
    if |order| > 0 {
      CopyFieldsContents(data, order[1..], isBound);
      assert forall i | 1 <= i < |order| :: order[i] == order[1..][i - 1];
      assert forall k | k in order[1..] :: k in order;
      assert forall k | k in order && k != order[0] :: k in order[1..];
    }
  }

  /** `set_transaction`: keep the submit URL (raising when the transaction
      has none), then copy every key that starts with "x_" or is return_url
      or cart_id. The pair is the submit URL and the values set. */
  function SetTransaction(data: map<string, string>, order: seq<string>, isBound: bool)
    : (r: Result<(string, map<string, string>)>)
    requires IsKeyOrder(order, data)
    ensures "submit_url" !in data ==> r == Err(KeyError("submit_url"))
    ensures r.Ok? ==> "submit_url" in data && r.value.0 == data["submit_url"]
    ensures r.Err? <==> "submit_url" !in data
                        || (!isBound && exists k | k in data :: Copied(k) && k !in FormFields)
    ensures r.Ok? ==> forall k :: k in r.value.1 <==> k in data && Copied(k)
    ensures r.Ok? ==> forall k | k in r.value.1 :: r.value.1[k] == data[k]
  {
    var url :- Lookup(data, "submit_url");
    CopyFieldsContents(data, order, isBound);
    assert (exists k | k in data :: Copied(k) && k !in FormFields)
        <==> (exists i | 0 <= i < |order| :: Copied(order[i]) && order[i] !in FormFields);
    var copied :- CopyFields(data, order, isBound);
    Ok((url, copied))
  }

  /** A transaction whose every key but submit_url is a copied field of the
      form fits an unbound form: the copy succeeds and sets every key but
      submit_url. */
  lemma SetTransactionFits(data: map<string, string>, order: seq<string>)
    requires IsKeyOrder(order, data)
    requires "submit_url" in data
    requires forall k | k in data && k != "submit_url" :: Copied(k) && k in FormFields
    ensures var r := SetTransaction(data, order, false);
      && r.Ok?
      && r.value.0 == data["submit_url"]
      && (forall k :: k in r.value.1 <==> k in data && k != "submit_url")
  {
    assert !Copied("submit_url");
  }

  /** The form field a response reason code points at: 6 the card number,
      7 and 8 the expiry date, 65 and 78 the card code; anything else is an
      error of the whole form. */
  function ReasonField(code: int): (name: string)
    ensures name == "x_card_num" <==> code == 6
    ensures name == "x_exp_date" <==> code == 7 || code == 8
    ensures name == "x_card_code" <==> code == 65 || code == 78
    ensures name == NonFieldErrors <==> code !in {6, 7, 8, 65, 78}
  {
    if code == 6 then "x_card_num"
    else if code == 7 || code == 8 then "x_exp_date"
    else if code == 78 || code == 65 then "x_card_code"
    else NonFieldErrors
  }

  /** `set_result`: a successful payment clears the errors; a failed one
      leaves exactly one error, the payment's message, on the field its
      reason code points at. */
  function SetResult(success: bool, gatewayResult: int, message: string): (errors: map<string, string>)
    ensures success ==> errors == map[]
    ensures !success ==> |errors| == 1 && ReasonField(gatewayResult) in errors
    ensures forall k | k in errors :: errors[k] == message && (k in FormFields || k == NonFieldErrors)
  {
    if success then map[] else map[ReasonField(gatewayResult) := message]
  }

  /** `hidden_fields`, in order. */
  const HiddenFields: seq<string> := [
    "return_url", "cart_id", "x_invoice_num", "x_amount", "x_fp_hash", "x_fp_sequence",
    "x_relay_response", "x_relay_url", "x_login", "x_version", "x_fp_timestamp", "x_method",
    "x_type", "x_test_request"]

  /** The hidden fields are fourteen distinct fields of the form, none of them
      a card or address field. */
  lemma HiddenFieldsShape()
    ensures |HiddenFields| == 14
    ensures forall i | 0 <= i < |HiddenFields| :: HiddenFields[i] in FormFields
    ensures forall i, j | 0 <= i < j < |HiddenFields| :: HiddenFields[i] != HiddenFields[j]
    ensures forall k | k in PaymentFields :: PaymentFields[k] !in HiddenFields
  {
  }

  /** EXPIRATION_MONTH_CHOICES: each month number with its two-digit label. */
  function ExpirationMonthChoices(): (choices: seq<(nat, string)>)
    ensures |choices| == 12
    ensures forall i | 0 <= i < 12 :: choices[i].0 == i + 1 && |choices[i].1| == 2
  {
    seq(12, i requires 0 <= i < 12 => (i + 1, Pad2(i + 1)))
  }

  /** Each label reads back as its month number. */
  lemma MonthChoicesReadBack()
    ensures forall i | 0 <= i < 12 :: ParseNat(ExpirationMonthChoices()[i].1) == Some(ExpirationMonthChoices()[i].0)
  {
    var choices := ExpirationMonthChoices();
    forall i | 0 <= i < 12
      ensures ParseNat(choices[i].1) == Some(choices[i].0)
    {
      ParsePad2(i + 1);
    }
  }
}

=== FILE: authnet_gateway.dfy ===
/** The Authorize.net gateway (server integration method): the submit URL,
    the fields of the payment form with their fingerprint, and the stored
    relay response that `confirm_payment` consumes. The clock, the random
    sequence number and the HMAC are parameters. A stored response is one
    PaymentResponse row; the rows for a cart are kept in creation order. */
module AuthorizeNetGateway {
  import opened Base
  import opened Text
  import opened Money
  import opened Carts
  import AuthorizeNetForms

  const PostUrl: string := "https://secure.authorize.net/gateway/transact.dll"
  const PostTestUrl: string := "https://test.authorize.net/gateway/transact.dll"

  /** The settings the gateway reads. */
  datatype Settings = Settings(
    merchantId: string,
    merchantKey: string,
    merchantPrivateKey: string,
    returnUrl: string,
    ipnUrl: string,
    live: bool)

  /** `submit_url`: the production endpoint iff LIVE. */
  function SubmitUrl(live: bool): (url: string)
    ensures url == PostUrl <==> live
    ensures url == PostTestUrl <==> !live
  {
    if live then PostUrl else PostTestUrl
  }

  /** `submit`: the front end proceeds directly to the payment form. */
  function Submit(collectAddress: bool): (r: SubmitResult)
    ensures r.Direct?
  {
    Direct
  }

  /** The fingerprint message: merchant id, the timestamp twice and the
      total, each followed by '^'. */
  function HashMessage(merchantId: string, timestamp: nat, total: int): (msg: string)
  {
    merchantId + "^" + NatToString(timestamp) + "^" + NatToString(timestamp) + "^" + FormatCents(total) + "^"
  }

  /** The fingerprint message splits at '^' into the merchant id, the
      timestamp twice, the total and an empty tail, so each part can be read
      back. */
  lemma HashMessageParts(merchantId: string, timestamp: nat, total: int)
    requires '^' !in merchantId
    ensures Split(HashMessage(merchantId, timestamp, total), '^')
         == [merchantId, NatToString(timestamp), NatToString(timestamp), FormatCents(total), ""]
  {
    var ts := NatToString(timestamp);
    var amount := FormatCents(total);
    assert '^' !in ts by {
      assert forall i | 0 <= i < |ts| :: IsDigit(ts[i]);
    }
    assert '^' !in amount by {
      FormatCentsChars(total);
    }
    var parts := [merchantId, ts, ts, amount, ""];
    var tail3 := amount + "^";
    var tail2 := ts + "^" + tail3;
    var tail1 := ts + "^" + tail2;
    assert Join(parts[3..], '^') == tail3 by {
      assert parts[3..][1..] == [""];
    }
    assert Join(parts[2..], '^') == tail2 by {
      assert parts[2..][1..] == parts[3..];
    }
    assert Join(parts[1..], '^') == tail1 by {
      assert parts[1..][1..] == parts[2..];
    }
    assert Join(parts, '^') == merchantId + "^" + tail1;
    assert merchantId + "^" + tail1 == HashMessage(merchantId, timestamp, total);
    SplitJoin(parts, '^');
  }

  /** The fields every transaction carries. */
  const TransactionKeys: set<string> := {
    "submit_url", "return_url", "cart_id", "x_invoice_num", "x_fp_hash", "x_fp_sequence",
    "x_fp_timestamp", "x_amount", "x_login", "x_relay_url", "x_relay_response", "x_method",
    "x_type", "x_version"}

  /** The fields of every transaction, given the values that vary. */
  function TransactionMap(ts: string, hash: string, amount: string, login: string, relayUrl: string,
                          cartId: string, returnUrl: string, submitUrl: string): (data: map<string, string>)
    ensures "x_invoice_num" in data && data["x_invoice_num"] == ts
    ensures "x_fp_sequence" in data && data["x_fp_sequence"] == ts
    ensures "x_fp_timestamp" in data && data["x_fp_timestamp"] == ts
    ensures "x_fp_hash" in data && data["x_fp_hash"] == hash
    ensures "x_login" in data && data["x_login"] == login
    ensures "x_amount" in data && data["x_amount"] == amount
    ensures "cart_id" in data && data["cart_id"] == cartId
    ensures "return_url" in data && data["return_url"] == returnUrl
    ensures "submit_url" in data && data["submit_url"] == submitUrl
    ensures "x_relay_url" in data && data["x_relay_url"] == relayUrl
  {
    map[
      "x_invoice_num" := ts,
      "x_fp_hash" := hash,
      "x_fp_sequence" := ts,
      "x_fp_timestamp" := ts,
      "x_amount" := amount,
      "x_login" := login,
      "x_relay_url" := relayUrl,
      "x_relay_response" := "TRUE",
      "x_method" := "CC",
      "x_type" := "AUTH_CAPTURE",
      "x_version" := "3.1",
      "cart_id" := cartId,
      "return_url" := returnUrl,
      "submit_url" := submitUrl]
  }

  /** The fields that are the same in every transaction: a relayed
      response, credit card, AUTH_CAPTURE, protocol version 3.1. */
  lemma TransactionMapConstants(ts: string, hash: string, amount: string, login: string, relayUrl: string,
                                cartId: string, returnUrl: string, submitUrl: string)
    ensures var data := TransactionMap(ts, hash, amount, login, relayUrl, cartId, returnUrl, submitUrl);
      && "x_relay_response" in data && data["x_relay_response"] == "TRUE"
      && "x_method" in data && data["x_method"] == "CC"
      && "x_type" in data && data["x_type"] == "AUTH_CAPTURE"
      && "x_version" in data && data["x_version"] == "3.1"
  {
  }

  /** The transaction map holds exactly the transaction keys. */
  lemma TransactionMapKeys(ts: string, hash: string, amount: string, login: string, relayUrl: string,
                           cartId: string, returnUrl: string, submitUrl: string)
    ensures TransactionMap(ts, hash, amount, login, relayUrl, cartId, returnUrl, submitUrl).Keys == TransactionKeys
  {
  }

  /** The test flag, sent only off LIVE. */
  function TestFlag(live: bool): (flag: map<string, string>)
    ensures flag.Keys == if live then {} else {"x_test_request"}
  {
    if live then map[] else map["x_test_request" := "TRUE"]
  }

  /** `start_transaction`: the fields posted to Authorize.net; the test flag
      is sent only off LIVE. */
  function StartTransaction(s: Settings, cart: Cart, requestUrl: string, timestamp: nat,
                            hmac: (string, string) -> string): (data: map<string, string>)
    ensures data.Keys == TransactionKeys + TestFlag(s.live).Keys
    ensures !s.live ==> data["x_test_request"] == "TRUE"
  {
    var ts := NatToString(timestamp);
    var hash := hmac(s.merchantKey, HashMessage(s.merchantId, timestamp, cart.total));
    var data := TransactionMap(ts, hash, FormatCents(cart.total), s.merchantId, s.ipnUrl, cart.uuid,
                               Or(s.returnUrl, requestUrl), SubmitUrl(s.live));
    TransactionMapKeys(ts, hash, FormatCents(cart.total), s.merchantId, s.ipnUrl, cart.uuid,
                       Or(s.returnUrl, requestUrl), SubmitUrl(s.live));
    data + TestFlag(s.live)
  }

  /** The invoice number, sequence and timestamp fields all carry the
      timestamp. */
  lemma StartTransactionTimestamps(s: Settings, cart: Cart, requestUrl: string, timestamp: nat,
                                   hmac: (string, string) -> string)
    ensures var data := StartTransaction(s, cart, requestUrl, timestamp, hmac);
      data["x_invoice_num"] == data["x_fp_sequence"] == data["x_fp_timestamp"] == NatToString(timestamp)
  {
  }

  /** The fingerprint is the HMAC, under the merchant key, of the hash
      message over the posted timestamp and the cart total; the login is the
      merchant id the message starts with. */
  lemma StartTransactionFingerprint(s: Settings, cart: Cart, requestUrl: string, timestamp: nat,
                                    hmac: (string, string) -> string)
    ensures var data := StartTransaction(s, cart, requestUrl, timestamp, hmac);
      && data["x_fp_hash"] == hmac(s.merchantKey, HashMessage(s.merchantId, timestamp, cart.total))
      && data["x_login"] == s.merchantId
  {
  }

  /** The form is posted to the endpoint LIVE selects, for this cart, and the
      customer returns to the configured URL or else the requesting page. */
  lemma StartTransactionRouting(s: Settings, cart: Cart, requestUrl: string, timestamp: nat,
                                hmac: (string, string) -> string)
    ensures var data := StartTransaction(s, cart, requestUrl, timestamp, hmac);
      && data["submit_url"] == SubmitUrl(s.live)
      && data["cart_id"] == cart.uuid
      && data["return_url"] == (if s.returnUrl != "" then s.returnUrl else requestUrl)
  {
  }

  /** Authorize.net relays its response to IPN_URL, and every transaction
      is a relayed credit-card AUTH_CAPTURE under protocol version 3.1. */
  lemma StartTransactionConstants(s: Settings, cart: Cart, requestUrl: string, timestamp: nat,
                                  hmac: (string, string) -> string)
    ensures var data := StartTransaction(s, cart, requestUrl, timestamp, hmac);
      && data["x_relay_url"] == s.ipnUrl
      && data["x_relay_response"] == "TRUE"
      && data["x_method"] == "CC"
      && data["x_type"] == "AUTH_CAPTURE"
      && data["x_version"] == "3.1"
  {
    var ts := NatToString(timestamp);
    TransactionMapConstants(ts, hmac(s.merchantKey, HashMessage(s.merchantId, timestamp, cart.total)),
                            FormatCents(cart.total), s.merchantId, s.ipnUrl, cart.uuid,
                            Or(s.returnUrl, requestUrl), SubmitUrl(s.live));
  }

  /** The posted amount reads back as the cart total. */
  lemma StartTransactionAmountReadsBack(s: Settings, cart: Cart, requestUrl: string, timestamp: nat,
                                        hmac: (string, string) -> string)
    ensures ParseCents(StartTransaction(s, cart, requestUrl, timestamp, hmac)["x_amount"]) == Some(cart.total)
  {
    ParseFormatCents(cart.total);
  }

  /** Every transaction field but submit_url is copied into the payment form
      and is one of its fields. */
  lemma TransactionKeysFitForm(k: string)
    requires k in TransactionKeys || k == "x_test_request"
    ensures k == "submit_url" || (AuthorizeNetForms.Copied(k) && k in AuthorizeNetForms.FormFields)
  {
  }

  /** The transaction's fields fit the payment form: copying them into an
      unbound form succeeds and sets every field but submit_url. */
  lemma StartTransactionFitsForm(s: Settings, cart: Cart, requestUrl: string, timestamp: nat,
                                 hmac: (string, string) -> string, order: seq<string>)
    requires IsKeyOrder(order, StartTransaction(s, cart, requestUrl, timestamp, hmac))
    ensures var data := StartTransaction(s, cart, requestUrl, timestamp, hmac);
      var r := AuthorizeNetForms.SetTransaction(data, order, false);
      && r.Ok?
      && r.value.0 == SubmitUrl(s.live)
      && (forall k :: k in r.value.1 <==> k in data && k != "submit_url")
  {
    var data := StartTransaction(s, cart, requestUrl, timestamp, hmac);
    forall k | k in data && k != "submit_url"
      ensures AuthorizeNetForms.Copied(k) && k in AuthorizeNetForms.FormFields
    {
      TransactionKeysFitForm(k);
    }
    StartTransactionRouting(s, cart, requestUrl, timestamp, hmac);
    AuthorizeNetForms.SetTransactionFits(data, order);
  }

  /** One stored relay response: the reason code and its text. */
  datatype StoredResponse = StoredResponse(code: int, text: string)

  /** `get_response`: the first stored response of the cart, if any. */
  function GetResponse(stored: seq<StoredResponse>): (r: Option<StoredResponse>)
    ensures r.None? <==> stored == []
    ensures r.Some? ==> r.value == stored[0]
  {
    if |stored| == 0 then None else Some(stored[0])
  }

  /** `has_payment_result`: whether a response is stored for the cart. */
  function HasPaymentResult(stored: seq<StoredResponse>): (b: bool)
    ensures b <==> GetResponse(stored).Some?
  {
    |stored| > 0
  }

  /** `set_response`: store the notification's reason code and text. The
      code column is an integer, so a code that is not a number fails to
      save. */
  function SetResponse(stored: seq<StoredResponse>, data: map<string, string>): (r: Result<seq<StoredResponse>>)
    ensures r.Ok? <==> && "x_response_reason_code" in data && "x_response_reason_text" in data
                       && ParseNat(data["x_response_reason_code"]).Some?
    ensures r.Ok? ==> r.value == stored + [StoredResponse(ParseNat(data["x_response_reason_code"]).value,
                                                          data["x_response_reason_text"])]
  {
    var codeText :- Lookup(data, "x_response_reason_code");
    var text :- Lookup(data, "x_response_reason_text");
    match ParseNat(codeText)
    case None => Err(ValueError(codeText))
    case Some(code) => Ok(stored + [StoredResponse(code, text)])
  }

  const NoResponseMessage: string := "Failed to process transaction"

  /** `confirm_payment`: report the first stored response and delete it;
      with none stored, report failure without a transaction id. */
  function ConfirmPayment(stored: seq<StoredResponse>): (r: (PaymentResult, seq<StoredResponse>))
    ensures stored == [] ==> r == (PaymentResult(false, None, Message(NoResponseMessage), None), [])
    ensures stored != [] ==> r.1 == stored[1..] && r.0.transactionId == Some(0)
    ensures stored != [] ==> (r.0.success <==> stored[0].code == 1)
    ensures stored != [] && stored[0].code == 1 ==> r.0.status == Some("APPROVED")
    ensures stored != [] && stored[0].code != 1 ==>
      r.0.status == Some("DECLINED") && r.0.errors == Message(stored[0].text)
  {
    match GetResponse(stored)
    case None => (PaymentResult(false, None, Message(NoResponseMessage), None), stored)
    case Some(response) =>
      var result := if response.code == 1 then PaymentResult(true, Some("APPROVED"), NoErrors, Some(0))
                    else PaymentResult(false, Some("DECLINED"), Message(response.text), Some(0));
      (result, stored[1..])
  }

  /** A relay response stored for a cart with none before is reported once:
      the first confirmation reports it, the second finds nothing stored and
      reports failure. */
  lemma ConfirmConsumesResponse(data: map<string, string>)
    requires SetResponse([], data).Ok?
    ensures var stored := SetResponse([], data).value;
      var (first, rest) := ConfirmPayment(stored);
      var (second, _) := ConfirmPayment(rest);
      && HasPaymentResult(stored) && !HasPaymentResult(rest)
      && (first.success <==> ParseNat(data["x_response_reason_code"]) == Some(1))
      && !second.success && second.status.None? && second.errors == Message(NoResponseMessage)
  {
  }
}

=== FILE: authnet_ipn.dfy ===
/** Authorize.net relay-response handling: the MD5 check of a notification,
    the classification of its response code into a payment state, the upsert
    of the payment into the cart's ledger, and the acceptance of an approved
    order (address merge, SUBMITTED, then the payment). */
module AuthorizeNetIpn {
  import opened Base
  import opened Text
  import opened Money
  import opened Carts

  /** The POSTed notification fields. */
  type Payload = map<string, string>

  /** The merchant settings the handler requires. */
  datatype Credentials = Credentials(merchantId: string, merchantKey: string, merchantPrivateKey: string)

  /** BRAINTREE_STATUS: Braintree's status words grouped under the payment
      state each one denotes. The module declares it and never reads it. */
  const BraintreeStatus: map<string, seq<string>> := map[
    "PAID" := ["settled"],
    "PENDING" := ["authorized", "authorizing", "submitted_for_settlement"],
    "FAILED" := ["failed", "gateway_rejected", "processor_declined", "settlement_failed"],
    "CANCELLED" := ["voided"]]

  /** The four groups of BRAINTREE_STATUS share no status word, so the table
      reads as a function from status to state. */
  lemma BraintreeStatusDisjoint()
    ensures BraintreeStatus.Keys == {"PAID", "PENDING", "FAILED", "CANCELLED"}
    ensures forall a, b, w | a in BraintreeStatus && b in BraintreeStatus && a != b && w in BraintreeStatus[a] ::
      w !in BraintreeStatus[b]
  {
    assert BraintreeStatus["PAID"] == ["settled"];
    assert BraintreeStatus["PENDING"] == ["authorized", "authorizing", "submitted_for_settlement"];
    assert BraintreeStatus["FAILED"] == ["failed", "gateway_rejected", "processor_declined", "settlement_failed"];
    assert BraintreeStatus["CANCELLED"] == ["voided"];
  }

  /** The text the MD5 digest is computed over: private key, merchant id,
      merchant key and the cart total, concatenated. */
  function SignedMessage(creds: Credentials, total: int): (r: string)
  {
    creds.merchantPrivateKey + creds.merchantId + creds.merchantKey + FormatCents(total)
  }

  /** The signed message binds the total: two different totals never share a
      message, so a digest made for one total is checked against a different
      message for any other. */
  lemma SignedMessageBindsTotal(creds: Credentials, t1: int, t2: int)
    requires t1 != t2
    ensures SignedMessage(creds, t1) != SignedMessage(creds, t2)
  {
    var k := creds.merchantPrivateKey + creds.merchantId + creds.merchantKey;
    assert SignedMessage(creds, t1) == k + FormatCents(t1);
    assert SignedMessage(creds, t2) == k + FormatCents(t2);
    FormatCentsInjective(t1, t2);
    SamePrefixKeys(k, FormatCents(t1), FormatCents(t2));
  }

  /** `confirm_ipn_data`: true iff the notification's x_MD5_Hash equals the
      digest of the signed message; a notification without the field raises. */
  function ConfirmIpnData(creds: Credentials, cart: Cart, data: Payload, md5: string -> string): (r: Result<bool>)
    ensures r.Ok? <==> "x_MD5_Hash" in data
    ensures r.Err? ==> r.error == KeyError("x_MD5_Hash")
    ensures r.Ok? ==> (r.value <==> data["x_MD5_Hash"] == md5(SignedMessage(creds, cart.total)))
  {
    var presented :- Lookup(data, "x_MD5_Hash");
    Ok(presented == md5(SignedMessage(creds, cart.total)))
  }

  /** The verdict depends on nothing in the notification but x_MD5_Hash:
      unknown extra fields and tampered amounts in other fields are ignored. */
  lemma ConfirmReadsOnlyTheHash(creds: Credentials, cart: Cart, d1: Payload, d2: Payload, md5: string -> string)
    requires "x_MD5_Hash" in d1 <==> "x_MD5_Hash" in d2
    requires "x_MD5_Hash" in d1 ==> d1["x_MD5_Hash"] == d2["x_MD5_Hash"]
    ensures ConfirmIpnData(creds, cart, d1, md5) == ConfirmIpnData(creds, cart, d2, md5)
  {
  }

  /** The response code's payment state: "1" approved, "4" held for review;
      every other code records nothing. */
  function ResponseState(code: string): (r: Option<PaymentState>)
    ensures r == Some(Paid) <==> code == "1"
    ensures r == Some(Pending) <==> code == "4"
    ensures r.Some? ==> r.value == Paid || r.value == Pending
  {
    if code == "1" then Some(Paid)
    else if code == "4" then Some(Pending)
    else None
  }

  /** Reads a payment amount from its text. */
  function ReadAmount(text: string): (r: Result<int>)
    ensures r.Ok? <==> ParseCents(text).Some?
    ensures r.Ok? ==> Some(r.value) == ParseCents(text)
  {
    match ParseCents(text)
    case None => Err(InvalidAmount(text))
    case Some(c) => Ok(c)
  }

  /** `_record_payment`: classify the response code, then update the first
      payment carrying x_trans_id in place, or append a new one. An existing
      payment whose state already matches is left alone and nothing is
      returned. */
  function RecordPayment(cart: Option<Cart>, data: Payload): (r: Effect)
    ensures cart.None? ==> r == Effect(None, Ok(None))
    ensures r.outcome.Err? ==> r.cart == cart
    ensures cart.Some? && "x_response_code" !in data ==> r == Effect(cart, Err(KeyError("x_response_code")))
    ensures cart.Some? && "x_response_code" in data && ResponseState(data["x_response_code"]).None? ==>
      r == Effect(cart, Ok(None))
    ensures r.cart.Some? ==> cart.Some? && r.cart.value == cart.value.(payments := r.cart.value.payments)
    ensures r.outcome.Ok? && r.outcome.value.Some? ==>
      && cart.Some? && "x_trans_id" in data && "x_response_code" in data
      && r.outcome.value.value.transactionId == data["x_trans_id"]
      && Some(r.outcome.value.value.state) == ResponseState(data["x_response_code"])
  {
    match cart
    case None => Effect(None, Ok(None))
    case Some(c) =>
      match Lookup(data, "x_response_code")
      case Err(e) => Effect(cart, Err(e))
      case Ok(code) =>
        match ResponseState(code)
        case None => Effect(cart, Ok(None))
        case Some(state) =>
          match Lookup(data, "x_trans_id")
          case Err(e) => Effect(cart, Err(e))
          case Ok(id) =>
            match FirstMatch(c.payments, id, false)
            case Some(i) =>
              if c.payments[i].state != state then
                var updated := SetPaymentState(c.payments, i, state);
                Effect(Some(c.(payments := updated)), Ok(Some(updated[i])))
              else
                Effect(cart, Ok(None))
            case None =>
              match Lookup(data, "x_amount")
              case Err(e) => Effect(cart, Err(e))
              case Ok(text) =>
                match ReadAmount(text)
                case Err(e) => Effect(cart, Err(e))
                case Ok(amount) =>
                  var p := Payment(amount, id, state);
                  Effect(Some(c.(payments := c.payments + [p])), Ok(Some(p)))
  }

  /** A notification for a transaction already in the ledger creates no new
      record: the first record with that id takes the notified state and
      every other record is untouched. */
  lemma RecordPaymentUpdatesInPlace(c: Cart, data: Payload, i: nat)
    requires "x_response_code" in data && ResponseState(data["x_response_code"]).Some?
    requires "x_trans_id" in data && FirstMatch(c.payments, data["x_trans_id"], false) == Some(i)
    ensures var r := RecordPayment(Some(c), data);
      && r.cart.Some? && r.outcome.Ok?
      && |r.cart.value.payments| == |c.payments|
      && r.cart.value.payments[i] == c.payments[i].(state := ResponseState(data["x_response_code"]).value)
      && (forall j | 0 <= j < |c.payments| && j != i :: r.cart.value.payments[j] == c.payments[j])
      && (r.outcome.value.Some? <==> c.payments[i].state != ResponseState(data["x_response_code"]).value)
  {
  }

  /** A notification for an unseen transaction appends exactly one record,
      carrying the notified amount, id and state. */
  lemma RecordPaymentAppendsOnce(c: Cart, data: Payload)
    requires "x_response_code" in data && ResponseState(data["x_response_code"]).Some?
    requires "x_trans_id" in data
    requires forall j | 0 <= j < |c.payments| :: c.payments[j].transactionId != data["x_trans_id"]
    requires "x_amount" in data && ParseCents(data["x_amount"]).Some?
    ensures var p := Payment(ParseCents(data["x_amount"]).value, data["x_trans_id"], ResponseState(data["x_response_code"]).value);
      RecordPayment(Some(c), data) == Effect(Some(c.(payments := c.payments + [p])), Ok(Some(p)))
  {
    assert FirstMatch(c.payments, data["x_trans_id"], false).None?;
  }

  /** Re-delivering a notification that was already applied changes nothing
      and records nothing. */
  lemma RecordPaymentIdempotent(c: Cart, data: Payload)
    requires RecordPayment(Some(c), data).outcome.Ok?
    ensures var once := RecordPayment(Some(c), data);
      RecordPayment(once.cart, data) == Effect(once.cart, Ok(None))
  {
    var once := RecordPayment(Some(c), data);
    if ResponseState(data["x_response_code"]).Some? {
      var state := ResponseState(data["x_response_code"]).value;
      var id := data["x_trans_id"];
      var c1 := once.cart.value;
      match FirstMatch(c.payments, id, false)
      case Some(i) =>
        assert FirstMatch(c1.payments, id, false) == Some(i) by {
          assert forall j | 0 <= j < i :: c1.payments[j] == c.payments[j];
        }
      case None =>
        var n := |c.payments|;
        var p := Payment(ReadAmount(data["x_amount"]).value, id, state);
        assert c1.payments == c.payments + [p];
        assert c1.payments[n] == p;
        assert FirstMatch(c1.payments, id, false) == Some(n) by {
          assert forall j | 0 <= j < n :: c1.payments[j] == c.payments[j];
        }
    }
  }

  /** The ledger keeps at most one record per transaction id. */
  lemma RecordPaymentKeepsIdsUnique(c: Cart, data: Payload)
    requires UniqueIds(c.payments)
    ensures var r := RecordPayment(Some(c), data); r.cart.Some? && UniqueIds(r.cart.value.payments)
  {
  }

  /** The fields of the shipping and billing blocks, in the order the source
      reads them; Authorize.net sends no second street line. */
  const ShipKeys: seq<string> := ["x_ship_to_first_name", "x_ship_to_last_name", "x_ship_to_address",
                                  "x_ship_to_city", "x_ship_to_state", "x_ship_to_zip", "x_ship_to_country"]
  const BillKeys: seq<string> := ["x_first_name", "x_last_name", "x_address",
                                  "x_city", "x_state", "x_zip", "x_country"]

  /** The address a notification carries under `keys`; the second street
      line is always blank, so a merge never changes it. */
  function ReadAddress(data: Payload, keys: seq<string>): (r: Result<Address>)
    requires |keys| == 7
    ensures r.Ok? <==> forall k | k in keys :: k in data
    ensures r.Ok? ==> r.value == Address(data[keys[0]], data[keys[1]], data[keys[2]], "",
                                         data[keys[3]], data[keys[4]], data[keys[5]], data[keys[6]])
  {
    var first :- Lookup(data, keys[0]);
    var last :- Lookup(data, keys[1]);
    var street :- Lookup(data, keys[2]);
    var city :- Lookup(data, keys[3]);
    var state :- Lookup(data, keys[4]);
    var zip :- Lookup(data, keys[5]);
    var country :- Lookup(data, keys[6]);
    Ok(Address(first, last, street, "", city, state, zip, country))
  }

  /** `accept_payment`: merge the notified addresses into the cart, mark it
      SUBMITTED and save it, then record the payment. */
  function AcceptPayment(cart: Option<Cart>, data: Payload): (r: Effect)
    ensures cart.None? ==> r == Effect(None, Ok(None))
    ensures cart.Some? ==> r.cart.Some? && r.cart.value.uuid == cart.value.uuid
    ensures cart.Some? && r.outcome.Ok? ==> r.cart.value.state == Submitted
  {
    match cart
    case None => Effect(None, Ok(None))
    case Some(c) =>
      match ReadAddress(data, ShipKeys)
      case Err(e) => Effect(cart, Err(e))
      case Ok(ship) =>
        match ReadAddress(data, BillKeys)
        case Err(e) => Effect(cart, Err(e))
        case Ok(bill) =>
          var submitted := c.(ship := MergeAddress(c.ship, ship),
                              bill := MergeAddress(c.bill, bill),
                              state := Submitted);
          RecordPayment(Some(submitted), data)
  }

  /** Once both address blocks are present, the saved cart is SUBMITTED, each
      address field holds the notified value when non-empty and the stored one
      otherwise, the second street lines are untouched, and the payment is
      recorded against that cart, even if recording then fails. */
  lemma AcceptPaymentSubmitsThenRecords(c: Cart, data: Payload)
    requires forall k | k in ShipKeys :: k in data
    requires forall k | k in BillKeys :: k in data
    ensures var r := AcceptPayment(Some(c), data);
      && r.cart.Some?
      && r.cart.value.state == Submitted
      && r.cart.value.ship == MergeAddress(c.ship, Address(data["x_ship_to_first_name"], data["x_ship_to_last_name"],
                                            data["x_ship_to_address"], "", data["x_ship_to_city"],
                                            data["x_ship_to_state"], data["x_ship_to_zip"], data["x_ship_to_country"]))
      && r.cart.value.bill == MergeAddress(c.bill, Address(data["x_first_name"], data["x_last_name"],
                                            data["x_address"], "", data["x_city"],
                                            data["x_state"], data["x_zip"], data["x_country"]))
      && r.cart.value.ship.street2 == c.ship.street2
      && r.cart.value.bill.street2 == c.bill.street2
      && r == RecordPayment(Some(c.(ship := r.cart.value.ship, bill := r.cart.value.bill, state := Submitted)), data)
  {
  }

  /** A notification missing any address field changes nothing. */
  lemma AcceptPaymentNeedsAddresses(c: Cart, data: Payload)
    requires exists k | k in ShipKeys + BillKeys :: k !in data
    ensures AcceptPayment(Some(c), data).cart == Some(c)
    ensures AcceptPayment(Some(c), data).outcome.Err?
  {
    var k :| k in ShipKeys + BillKeys && k !in data;
    if k in ShipKeys {
      assert ReadAddress(data, ShipKeys).Err?;
    } else {
      assert k in BillKeys;
    }
  }
}

=== FILE: authnet_views.dfy ===
/** The Authorize.net relay-response view: the cart is found from the
    notification's cart_id alone, the MD5 check runs before anything is
    changed, an approved payment is accepted, the response is stored
    whatever its code, and the shopper is sent back to the store. The store
    is the carts by uuid and the relay responses stored for each cart. */
module AuthorizeNetViews {
  import opened Base
  import opened Carts
  import opened AuthorizeNetIpn
  import AuthorizeNetGateway

  /** A request to the view: whether it was POSTed, and the POSTed fields. */
  datatype Request = Request(isPost: bool, post: Payload)

  /** What the view answers: a plain text, or the page that redirects the
      shopper to `location`. */
  datatype Response = PlainText(body: string) | ReturnPage(location: string)

  /** The records the view reads and writes. */
  datatype Store = Store(carts: map<string, Cart>, responses: map<string, seq<AuthorizeNetGateway.StoredResponse>>)

  const NotPostedMessage: string := "Requests must be POSTed"
  const UnknownTransactionMessage: string := "Authorize.net gateway: Unknown transaction"
  const ConfirmationFailedMessage: string := "Authorize.net IPN Confirmation Failed."

  /** `_find_cart`: the cart whose uuid is the notification's cart_id; a
      notification without one raises KeyError. */
  function FindCart(store: Store, data: Payload): (r: Result<Option<Cart>>)
    ensures r.Err? <==> "cart_id" !in data
    ensures r.Err? ==> r.error == KeyError("cart_id")
    ensures r.Ok? ==> (r.value.Some? <==> data["cart_id"] in store.carts)
    ensures r.Ok? && r.value.Some? ==> r.value.value == store.carts[data["cart_id"]]
  {
    var id :- Lookup(data, "cart_id");
    Ok(if id in store.carts then Some(store.carts[id]) else None)
  }

  /** The responses stored for a cart; none when it has no entry. */
  function StoredFor(store: Store, id: string): (r: seq<AuthorizeNetGateway.StoredResponse>)
  {
    if id in store.responses then store.responses[id] else []
  }

  /** `ipn`. The store after the request, and the response or the exception
      the view raised. Whatever was saved before an exception stays saved. */
  function Ipn(store: Store, req: Request, creds: Credentials, md5: string -> string)
    : (r: (Store, Result<Response>))
    ensures !req.isPost ==> r == (store, Ok(PlainText(NotPostedMessage)))
    ensures r.1.Ok? && req.isPost ==> "return_url" in req.post && r.1.value == ReturnPage(req.post["return_url"])
    ensures r.0 != store ==> && req.isPost && "cart_id" in req.post && req.post["cart_id"] in store.carts
                             && ConfirmIpnData(creds, store.carts[req.post["cart_id"]], req.post, md5) == Ok(true)
    ensures r.1.Ok? && req.isPost ==> && "cart_id" in req.post && req.post["cart_id"] in store.carts
                                      && ConfirmIpnData(creds, store.carts[req.post["cart_id"]], req.post, md5) == Ok(true)
  {
    if !req.isPost then (store, Ok(PlainText(NotPostedMessage)))
    else
      var data := req.post;
      match FindCart(store, data)
      case Err(e) => (store, Err(e))
      case Ok(None) => (store, Err(GatewayError(UnknownTransactionMessage)))
      case Ok(Some(cart)) =>
        match ConfirmIpnData(creds, cart, data, md5)
        case Err(e) => (store, Err(e))
        case Ok(confirmed) =>
          if !confirmed then (store, Err(GatewayError(ConfirmationFailedMessage)))
          else IpnConfirmed(store, data["cart_id"], cart, data)
  }

  /** `ipn` once the notification passed the check: accept an approved
      payment, then store the response, then send the shopper back. */
  function IpnConfirmed(store: Store, id: string, cart: Cart, data: Payload): (r: (Store, Result<Response>))
    requires id in store.carts && store.carts[id] == cart
    ensures r.0.carts.Keys == store.carts.Keys
    ensures forall k | k in store.carts && k != id :: r.0.carts[k] == store.carts[k]
    ensures forall k | k in store.responses && k != id :: k in r.0.responses && r.0.responses[k] == store.responses[k]
    ensures forall k | k in r.0.responses && k != id :: k in store.responses
    ensures r.1.Ok? ==> "return_url" in data && r.1.value == ReturnPage(data["return_url"])
  {
    match Lookup(data, "x_response_code")
    case Err(e) => (store, Err(e))
    case Ok(code) =>
      var accepted := AcceptIfApproved(cart, code, data);
      var saved := store.(carts := store.carts[id := accepted.cart.value]);
      if accepted.outcome.Err? then (saved, Err(accepted.outcome.error))
      else
        match AuthorizeNetGateway.SetResponse(StoredFor(store, id), data)
        case Err(e) => (saved, Err(e))
        case Ok(responses) =>
          var stored := saved.(responses := saved.responses[id := responses]);
          match Lookup(data, "return_url")
          case Err(e) => (stored, Err(e))
          case Ok(url) => (stored, Ok(ReturnPage(url)))
  }

  /** The payment is accepted only when the response code is "1"; the
      cart is saved either way. */
  function AcceptIfApproved(cart: Cart, code: string, data: Payload): (r: Effect)
    ensures r.cart.Some? && r.cart.value.uuid == cart.uuid
    ensures code != "1" ==> r == Effect(Some(cart), Ok(None))
    ensures code == "1" ==> r == AcceptPayment(Some(cart), data)
  {
    if code == "1" then AcceptPayment(Some(cart), data) else Effect(Some(cart), Ok(None))
  }

  /** A notification without cart_id or without x_MD5_Hash raises
      KeyError, an unknown cart and a failed check raise GatewayError, and
      each leaves every record as it was. */
  lemma IpnRejectsBeforeChanging(store: Store, req: Request, creds: Credentials, md5: string -> string)
    requires req.isPost
    ensures "cart_id" !in req.post ==> Ipn(store, req, creds, md5) == (store, Err(KeyError("cart_id")))
    ensures "cart_id" in req.post && req.post["cart_id"] !in store.carts ==>
      Ipn(store, req, creds, md5) == (store, Err(GatewayError(UnknownTransactionMessage)))
    ensures "cart_id" in req.post && req.post["cart_id"] in store.carts && "x_MD5_Hash" !in req.post ==>
      Ipn(store, req, creds, md5) == (store, Err(KeyError("x_MD5_Hash")))
    ensures "cart_id" in req.post && req.post["cart_id"] in store.carts && "x_MD5_Hash" in req.post
            && req.post["x_MD5_Hash"] != md5(SignedMessage(creds, store.carts[req.post["cart_id"]].total)) ==>
      Ipn(store, req, creds, md5) == (store, Err(GatewayError(ConfirmationFailedMessage)))
  {
  }

  /** Only an approved notification (response code "1") touches the cart:
      any other code leaves every cart as it was. */
  lemma IpnAcceptsOnlyApproved(store: Store, req: Request, creds: Credentials, md5: string -> string)
    requires "x_response_code" in req.post && req.post["x_response_code"] != "1"
    ensures Ipn(store, req, creds, md5).0.carts == store.carts
  {
    var data := req.post;
    if req.isPost && "cart_id" in data && data["cart_id"] in store.carts {
      var cart := store.carts[data["cart_id"]];
      assert store.carts[data["cart_id"] := cart] == store.carts;
    }
  }

  /** A notification that passed the check is stored, approved or not: the
      cart's responses grow by exactly this one, and an approved one was
      first accepted into the saved cart. */
  lemma IpnStoresResponse(store: Store, req: Request, creds: Credentials, md5: string -> string)
    requires req.isPost && "cart_id" in req.post && req.post["cart_id"] in store.carts
    requires ConfirmIpnData(creds, store.carts[req.post["cart_id"]], req.post, md5) == Ok(true)
    requires "x_response_code" in req.post
    requires req.post["x_response_code"] == "1" ==>
      AcceptPayment(Some(store.carts[req.post["cart_id"]]), req.post).outcome.Ok?
    requires AuthorizeNetGateway.SetResponse(StoredFor(store, req.post["cart_id"]), req.post).Ok?
    ensures var (after, _) := Ipn(store, req, creds, md5);
      var id := req.post["cart_id"];
      && id in after.responses
      && after.responses[id] == AuthorizeNetGateway.SetResponse(StoredFor(store, id), req.post).value
      && |after.responses[id]| == |StoredFor(store, id)| + 1
      && after.carts[id] == (if req.post["x_response_code"] == "1"
                             then AcceptPayment(Some(store.carts[id]), req.post).cart.value
                             else store.carts[id])
  {
  }
}

=== FILE: base.dfy ===
/** Shared vocabulary of every gateway: Python's exceptions as an error
    datatype, a failure-compatible Result, dictionary subscription, and the
    normalised results a gateway hands back to the cart (SubmitResult,
    PaymentResult, CancelResult). */
module Base {

  datatype Option<+T> = None | Some(value: T)

  /** The exceptions the modelled code can raise. Each one aborts the
      operation that raised it; nothing after the raise happens. */
  datatype Error =
    | KeyError(key: string)            // `d[key]` on an absent key
    | GatewayError(message: string)    // hiicart's own GatewayError
    | NameError(name: string)          // a reference to an undefined name
    | AttributeError(name: string)     // an attribute missing on the object
    | TypeError(message: string)       // e.g. str + int
    | IndexError                       // a list subscript out of range
    | InvalidAmount(text: string)      // text that is not a decimal amount
    | ValueError(text: string)         // `int(text)` on text that is not a number

  /** A value, or the exception that was raised instead. Usable with `:-`. */
  datatype Result<+T> = Ok(value: T) | Err(error: Error) {
    predicate IsFailure() {
      Err?
    }

    function PropagateFailure<U>(): Result<U>
      requires Err?
    {
      Err(error)
    }

    function Extract(): T
      requires Ok?
    {
      value
    }
  }

  /** Python's `d[key]` on a dict of strings. */
  function Lookup(d: map<string, string>, key: string): (r: Result<string>)
    ensures key in d <==> r.Ok?
    ensures r.Ok? ==> r.value == d[key]
    ensures r.Err? ==> r.error == KeyError(key)
  {
    if key in d then Ok(d[key]) else Err(KeyError(key))
  }

  /** `settings[key]` on a setting that may be absent from the dict. */
  function Required(setting: Option<string>, key: string): (r: Result<string>)
    ensures setting.Some? <==> r.Ok?
    ensures r.Ok? ==> r.value == setting.value
    ensures r.Err? ==> r.error == KeyError(key)
  {
    if setting.Some? then Ok(setting.value) else Err(KeyError(key))
  }

  /** `settings.get(key)` is truthy: present and not empty. */
  predicate Truthy(setting: Option<string>)
  {
    setting.Some? && setting.value != ""
  }

  /** True when `order` lists every key of `m` exactly once: the order in which
      Python happens to iterate over the dict. */
  predicate IsKeyOrder(order: seq<string>, m: map<string, string>)
  {
    && (forall i | 0 <= i < |order| :: order[i] in m)
    && (forall k | k in m :: k in order)
    && (forall i, j | 0 <= i < j < |order| :: order[i] != order[j])
  }

  /** What `submit` tells the front end to do next: nothing special
      ("direct") or redirect to a URL (with values to keep in the session).
      `Untyped` is `SubmitResult(None)`. A form to post is specific to the
      gateway that builds it. */
  datatype SubmitResult =
    | Direct
    | Url(url: string, sessionArgs: map<string, string>)
    | Untyped

  /** `CancelResult("url", url=...)`. */
  datatype CancelResult = CancelUrl(url: string)

  /** The errors a PaymentResult carries: none, one message, or a field map. */
  datatype Errors = NoErrors | Message(text: string) | ByField(fields: map<string, string>)

  /** The normalised outcome of confirming a payment. */
  datatype PaymentResult = PaymentResult(
    success: bool,
    status: Option<string>,
    errors: Errors,
    transactionId: Option<int>)

  /** Django's key for errors that belong to no single field. */
  const NonFieldErrors: string := "__all__"
}

=== FILE: braintree_forms.dfy ===
/** The Braintree transparent-redirect forms. `make_form` builds a form
    class. It is a PaymentForm whose fields sit under "transaction__", or,
    for a recurring cart, a CustomerForm under "customer__" with its billing
    address inside the card. `set_result` moves the gateway's error names
    onto those fields, and attribute access adds the form's prefix. A form is
    the set of its field names; widgets and their limits are not modelled. */
module BraintreeForms {
  import opened Base
  import opened Text

  datatype FormKind = PaymentForm | CustomerForm

  /** The kind of form `make_form(is_recurring)` builds. */
  function KindFor(isRecurring: bool): (k: FormKind)
    ensures k == CustomerForm <==> isRecurring
  {
    if isRecurring then CustomerForm else PaymentForm
  }

  /** The prefix of a form's own fields. */
  function Prefix(kind: FormKind): (p: string)
    ensures p == "transaction__" <==> kind == PaymentForm
  {
    if kind == PaymentForm then "transaction__" else "customer__"
  }

  /** The card fields, by their Braintree names. */
  const CardNames: seq<string> := ["cardholder_name", "number", "cvv", "expiration_month", "expiration_year"]

  /** The address fields, by their Braintree names. */
  const AddressNames: seq<string> := ["first_name", "last_name", "street_address", "extended_address",
                                      "locality", "region", "postal_code", "country_code_alpha2"]

  /** Where the billing address of a form lives. */
  function BillingPrefix(kind: FormKind): (p: string)
    ensures kind == PaymentForm ==> p == Prefix(kind)
    ensures kind == CustomerForm ==> p == Prefix(kind) + "credit_card__"
  {
    if kind == PaymentForm then "transaction__" else "customer__credit_card__"
  }

  /** The names of `names` under prefix `p`. */
  function Prefixed(p: string, names: seq<string>): (fields: set<string>)
    ensures forall n | n in names :: p + n in fields
  {
    set n | n in names :: p + n
  }

  /** Every name of a prefixed set starts with the prefix. */
  lemma PrefixedStart(p: string, names: seq<string>, f: string)
    requires f in Prefixed(p, names)
    ensures |f| >= |p| && f[..|p|] == p
  {
    var n :| n in names && f == p + n;
    assert (p + n)[..|p|] == p;
  }

  /** `make_form`: tr_data, the five card fields, the eight shipping fields
      for a one-off payment only, and the eight billing fields. */
  function MakeForm(isRecurring: bool): (fields: set<string>)
  {
    var kind := KindFor(isRecurring);
    var p := Prefix(kind);
    {"tr_data"}
    + Prefixed(p + "credit_card__", CardNames)
    + (if isRecurring then {} else Prefixed(p + "shipping__", AddressNames))
    + Prefixed(BillingPrefix(kind) + "billing__", AddressNames)
  }

  /** Every field of a CustomerForm but tr_data starts with "customer__",
      and all of them with "customer__cr" except the shipping ones, which a
      CustomerForm does not have. */
  lemma CustomerFormPrefixes(f: string)
    requires f in MakeForm(true)
    ensures f == "tr_data" || (|f| >= 12 && f[..12] == "customer__cr")
  {
    var card := "customer__" + "credit_card__";
    var bill := "customer__credit_card__" + "billing__";
    assert card[..12] == "customer__cr";
    assert bill[..12] == "customer__cr";
    if f != "tr_data" {
      if f in Prefixed(card, CardNames) {
        PrefixedStart(card, CardNames, f);
        assert f[..12] == card[..12];
      } else {
        PrefixedStart(bill, AddressNames, f);
        assert f[..12] == bill[..12];
      }
    }
  }

  /** Both kinds of form carry tr_data, the card fields under their prefix
      and the billing fields under "transaction__" or, for a customer, inside
      the card. */
  lemma MakeFormFields(isRecurring: bool, n: string, a: string)
    requires n in CardNames && a in AddressNames
    ensures "tr_data" in MakeForm(isRecurring)
    ensures Prefix(KindFor(isRecurring)) + "credit_card__" + n in MakeForm(isRecurring)
    ensures BillingPrefix(KindFor(isRecurring)) + "billing__" + a in MakeForm(isRecurring)
  {
    var kind := KindFor(isRecurring);
    assert Prefix(kind) + "credit_card__" + n in Prefixed(Prefix(kind) + "credit_card__", CardNames);
    assert BillingPrefix(kind) + "billing__" + a in Prefixed(BillingPrefix(kind) + "billing__", AddressNames);
  }

  /** A PaymentForm has all eight shipping fields, under "transaction__";
      a CustomerForm has none. */
  lemma MakeFormShipping(isRecurring: bool, a: string)
    requires a in AddressNames
    ensures (Prefix(PaymentForm) + "shipping__" + a in MakeForm(isRecurring)) <==> !isRecurring
  {
    var t := Prefix(PaymentForm) + "shipping__" + a;
    if isRecurring {
      assert t[..12] != "customer__cr" by {
        assert t[0] == Prefix(PaymentForm)[0] == 't';
      }
      if t in MakeForm(true) {
        CustomerFormPrefixes(t);
      }
    } else {
      assert t in Prefixed(Prefix(PaymentForm) + "shipping__", AddressNames);
    }
  }

  /** The field a gateway error name is reported on: the five card
      attributes move inside the form's card, the gateway's non-field errors
      become the form's, and any other name is kept. */
  function ErrorField(kind: FormKind, name: string): (field: string)
    ensures name in CardNames ==> field == Prefix(kind) + "credit_card__" + name
    ensures name == "non_field_errors" ==> field == NonFieldErrors
    ensures name !in CardNames && name != "non_field_errors" ==> field == name
  {
    if name in CardNames then Prefix(kind) + "credit_card__" + name
    else if name == "non_field_errors" then NonFieldErrors
    else name
  }

  /** Every card error lands on a field of the form built for that kind. */
  lemma CardErrorsLandOnFields(isRecurring: bool, name: string)
    requires name in CardNames
    ensures ErrorField(KindFor(isRecurring), name) in MakeForm(isRecurring)
  {
    MakeFormFields(isRecurring, name, "first_name");
  }

  /** The error-placing loop of `set_result` over the names in `order`; a
      later name landing on the same field replaces an earlier one. */
  function PlaceErrors(kind: FormKind, errors: map<string, string>, order: seq<string>): (placed: map<string, string>)
    requires forall i | 0 <= i < |order| :: order[i] in errors
    decreases |order|
  {
    if |order| == 0 then map[]
    else
      var n := order[|order| - 1];
      PlaceErrors(kind, errors, order[..|order| - 1])[ErrorField(kind, n) := errors[n]]
  }

  /** The placed errors sit exactly on the fields of the names in `order`,
      and a field that only one name lands on carries that name's message. */
  lemma {:induction false} PlaceErrorsContents(kind: FormKind, errors: map<string, string>, order: seq<string>)
    requires forall i | 0 <= i < |order| :: order[i] in errors
    ensures forall f :: f in PlaceErrors(kind, errors, order) <==> exists n | n in order :: ErrorField(kind, n) == f
    ensures forall n | n in order && (forall m | m in order && m != n :: ErrorField(kind, m) != ErrorField(kind, n)) ::
      PlaceErrors(kind, errors, order)[ErrorField(kind, n)] == errors[n]
    decreases |order|
  {
    if |order| > 0 {
      var front := order[..|order| - 1];
      var last := order[|order| - 1];
      PlaceErrorsContents(kind, errors, front);
      assert forall n | n in front :: n in order;
      assert forall n | n in order && n != last :: n in front;
      assert last in order;
    }
  }

  /** `set_result`: it starts from no errors; for a failed payment each
      (name, message) of the result's errors is put on the name's field. */
  function SetResult(kind: FormKind, success: bool, errors: map<string, string>, order: seq<string>)
    : (placed: map<string, string>)
    requires IsKeyOrder(order, errors)
    ensures success ==> placed == map[]
    ensures !success ==> forall f :: f in placed <==> exists n | n in errors :: ErrorField(kind, n) == f
  {
    if success then map[]
    else
      PlaceErrorsContents(kind, errors, order);
      PlaceErrors(kind, errors, order)
  }

  /** When no two error names land on the same field, every message is kept,
      on its name's field. */
  lemma SetResultKeepsMessages(kind: FormKind, errors: map<string, string>, order: seq<string>, n: string)
    requires IsKeyOrder(order, errors)
    requires n in errors
    requires forall m | m in errors && m != n :: ErrorField(kind, m) != ErrorField(kind, n)
    ensures SetResult(kind, false, errors, order)[ErrorField(kind, n)] == errors[n]
  {
    PlaceErrorsContents(kind, errors, order);
  }

  /** Two names can land on the same field: the gateway's "number" and a
      name already spelled as the form's card field. The later one in the
      errors' iteration order wins. */
  lemma ErrorFieldCollides(kind: FormKind)
    ensures ErrorField(kind, "number") == ErrorField(kind, Prefix(kind) + "credit_card__number")
    ensures "number" != Prefix(kind) + "credit_card__number"
  {
    ConcatAssoc(Prefix(kind), "credit_card__", "number");
    assert |Prefix(kind) + "credit_card__number"| >= 19;
  }

  /** `__getattr__`: the name is looked up under the form's prefix, a
      billing name on a CustomerForm under the card's prefix. None stands for
      a missing field, where ordinary attribute lookup takes over. */
  function GetAttr(kind: FormKind, fields: set<string>, name: string): (r: Option<string>)
    ensures r.Some? ==> r.value in fields
    ensures kind == PaymentForm ==> (r.Some? <==> "transaction__" + name in fields)
    ensures kind == CustomerForm && Contains(name, "billing") ==>
      (r.Some? <==> "customer__credit_card__" + name in fields)
    ensures kind == CustomerForm && !Contains(name, "billing") ==>
      (r.Some? <==> "customer__" + name in fields)
  {
    var p := if Contains(name, "billing") && kind == CustomerForm then "customer__credit_card__" else Prefix(kind);
    if p + name in fields then Some(p + name) else None
  }

  /** No card name has a 'g' in it, so none can contain "billing". */
  lemma CardNameLacksG(n: string)
    requires n in CardNames
    ensures 'g' !in "credit_card__" + n
  {
    assert 'g' !in n by {
      if n == "cardholder_name" {} else if n == "number" {} else if n == "cvv" {}
      else if n == "expiration_month" {} else {}
    }
    assert forall c | c in "credit_card__" + n :: c in "credit_card__" || c in n;
  }

  /** No address name has a 'b' in it, so no shipping name can contain
      "billing". */
  lemma AddressNameLacksB(a: string)
    requires a in AddressNames
    ensures 'b' !in "shipping__" + a
  {
    assert 'b' !in a by {
      if a == "first_name" {} else if a == "last_name" {} else if a == "street_address" {}
      else if a == "extended_address" {} else if a == "locality" {} else if a == "region" {}
      else if a == "postal_code" {} else {}
    }
    assert forall c | c in "shipping__" + a :: c in "shipping__" || c in a;
  }

  /** Attribute access and `make_form` agree on the card fields: for both
      kinds a card name reaches its field. */
  lemma GetAttrFindsCardFields(isRecurring: bool, n: string)
    requires n in CardNames
    ensures GetAttr(KindFor(isRecurring), MakeForm(isRecurring), "credit_card__" + n)
         == Some(Prefix(KindFor(isRecurring)) + "credit_card__" + n)
  {
    var kind := KindFor(isRecurring);
    var card := "credit_card__" + n;
    var field := Prefix(kind) + "credit_card__" + n;
    assert field in MakeForm(isRecurring) by {
      MakeFormFields(isRecurring, n, "first_name");
    }
    assert Prefix(kind) + card == field by {
      ConcatAssoc(Prefix(kind), "credit_card__", n);
    }
    assert !Contains(card, "billing") by {
      CardNameLacksG(n);
      NotContainsMissingChar(card, "billing", 6);
    }
    GetAttrOwnPrefix(kind, MakeForm(isRecurring), card);
  }

  /** A name without "billing" in it is looked up under the form's own prefix. */
  lemma GetAttrOwnPrefix(kind: FormKind, fields: set<string>, name: string)
    requires !Contains(name, "billing")
    ensures GetAttr(kind, fields, name) == if Prefix(kind) + name in fields then Some(Prefix(kind) + name) else None
  {
  }

  /** A name with "billing" in it is looked up where the form keeps its
      billing address. */
  lemma GetAttrBillingPrefix(kind: FormKind, fields: set<string>, name: string)
    requires Contains(name, "billing")
    ensures GetAttr(kind, fields, name)
         == if BillingPrefix(kind) + name in fields then Some(BillingPrefix(kind) + name) else None
  {
  }

  /** A billing name has "billing" in it. */
  lemma BillingNameHasBilling(a: string)
    ensures Contains("billing__" + a, "billing")
  {
    var billing := "billing__" + a;
    StartsWithAppend("billing__", a);
    assert StartsWith("billing__", "billing");
    StartsWithTransitive(billing, "billing__", "billing");
    ContainsPrefix(billing, "billing");
  }

  /** For both kinds a billing name reaches the billing field. */
  lemma GetAttrFindsBillingFields(isRecurring: bool, a: string)
    requires a in AddressNames
    ensures GetAttr(KindFor(isRecurring), MakeForm(isRecurring), "billing__" + a)
         == Some(BillingPrefix(KindFor(isRecurring)) + "billing__" + a)
  {
    var kind := KindFor(isRecurring);
    MakeFormFields(isRecurring, "number", a);
    BillingNameHasBilling(a);
    ConcatAssoc(BillingPrefix(kind), "billing__", a);
    GetAttrBillingPrefix(kind, MakeForm(isRecurring), "billing__" + a);
  }

  /** A shipping name reaches its field on a PaymentForm and nothing on a
      CustomerForm. */
  lemma GetAttrFindsShippingFields(isRecurring: bool, a: string)
    requires a in AddressNames
    ensures GetAttr(KindFor(isRecurring), MakeForm(isRecurring), "shipping__" + a).Some? <==> !isRecurring
  {
    var kind := KindFor(isRecurring);
    var shipping := "shipping__" + a;
    assert !Contains(shipping, "billing") by {
      AddressNameLacksB(a);
      NotContainsMissingChar(shipping, "billing", 0);
    }
    GetAttrOwnPrefix(kind, MakeForm(isRecurring), shipping);
    if isRecurring {
      var t := Prefix(kind) + shipping;
      assert t !in MakeForm(true) by {
        StartsWithAppend(Prefix(kind), shipping);
        assert t[10] == shipping[0] == 's';
        CustomerFormLacks(t);
      }
    } else {
      assert Prefix(kind) + shipping in MakeForm(false) by {
        MakeFormShipping(false, a);
        ConcatAssoc(Prefix(PaymentForm), "shipping__", a);
      }
    }
  }

  /** A name starting "customer__s" is not a field of a CustomerForm. */
  lemma CustomerFormLacks(t: string)
    requires |t| >= 12 && t[..10] == "customer__" && t[10] == 's'
    ensures t !in MakeForm(true)
  {
    assert t[..12] != "customer__cr" by {
      assert t[..12][10] == 's';
    }
    if t in MakeForm(true) {
      CustomerFormPrefixes(t);
    }
  }
}

=== FILE: braintree_gateway.dfy ===
/** The Braintree gateway: the front end is told to proceed directly, and a
    transparent-redirect confirmation is turned into a PaymentResult. The
    SDK's confirmation is a parameter: either the request failed, or it
    produced a result with a success flag, maybe a transaction, and the
    validation errors found. */
module BraintreeGateway {
  import opened Base
  import opened Carts
  import BraintreeIpn

  /** One of the SDK's deep validation errors. */
  datatype DeepError = DeepError(attribute: string, message: string)

  /** The SDK's confirmation result. */
  datatype SdkResult = SdkResult(isSuccess: bool, transaction: Option<BraintreeIpn.Transaction>, deepErrors: seq<DeepError>)

  /** What `TransparentRedirect.confirm` did: raised, or returned a result. */
  datatype Confirmation = RequestFailed | Confirmed(result: SdkResult)

  const RequestFailedMessage: string := "Request to payment gateway failed."

  /** `submit`: the front end proceeds directly to the payment form. */
  function Submit(collectAddress: bool): (r: SubmitResult)
    ensures r.Direct?
  {
    Direct
  }

  /** The error dictionary built from the deep errors, each one stored under
      its attribute, a later error replacing an earlier one. */
  function ErrorsOf(deep: seq<DeepError>): (m: map<string, string>)
    ensures forall i | 0 <= i < |deep| :: deep[i].attribute in m
    decreases |deep|
  {
    if |deep| == 0 then map[]
    else
      var front := deep[..|deep| - 1];
      assert forall i | 0 <= i < |deep| - 1 :: front[i] == deep[i];
      ErrorsOf(front)[deep[|deep| - 1].attribute := deep[|deep| - 1].message]
  }

  /** Every key of the dictionary is the attribute of some deep error. */
  lemma {:induction false} ErrorsOfKeys(deep: seq<DeepError>, a: string)
    requires a in ErrorsOf(deep)
    ensures exists i | 0 <= i < |deep| :: deep[i].attribute == a
    decreases |deep|
  {
    var front := deep[..|deep| - 1];
    if a != deep[|deep| - 1].attribute {
      ErrorsOfKeys(front, a);
      var i :| 0 <= i < |front| && front[i].attribute == a;
      assert deep[i] == front[i];
    }
  }

  /** Under each attribute the dictionary holds the message of the last deep
      error with that attribute. */
  lemma {:induction false} ErrorsOfLastWins(deep: seq<DeepError>, i: nat)
    requires i < |deep|
    requires forall j | i < j < |deep| :: deep[j].attribute != deep[i].attribute
    ensures ErrorsOf(deep)[deep[i].attribute] == deep[i].message
    decreases |deep|
  {
    if i < |deep| - 1 {
      var front := deep[..|deep| - 1];
      assert front[i] == deep[i];
      assert forall j | i < j < |front| :: front[j] == deep[j];
      ErrorsOfLastWins(front, i);
    }
  }

  /** The errors reported for a transaction that did not go through: the
      processor's text for a decline, the gateway's reason for a rejection,
      nothing for any other status. */
  function TransactionErrors(t: BraintreeIpn.Transaction): (m: map<string, string>)
    ensures t.status == "processor_declined" ==> m == map["non_field_errors" := t.processorResponseText]
    ensures t.status == "gateway_rejected" ==> m == map["non_field_errors" := t.gatewayRejectionReason]
    ensures t.status != "processor_declined" && t.status != "gateway_rejected" ==> m == map[]
  {
    if t.status == "processor_declined" then map["non_field_errors" := t.processorResponseText]
    else if t.status == "gateway_rejected" then map["non_field_errors" := t.gatewayRejectionReason]
    else map[]
  }

  /** `confirm_payment`. A successful confirmation hands the transaction to
      `new_order`, which saves the accepted order but returns nothing, so
      the success branch never fires and every path ends in a failed
      PaymentResult. When the SDK reports success without a transaction and
      there is a cart, `new_order` reads a field of None and raises. The first
      component is the cart as saved. */
  function ConfirmPayment(cart: Option<Cart>, c: Confirmation): (r: Result<(Option<Cart>, PaymentResult)>)
    ensures c.RequestFailed? ==>
      r == Ok((cart, PaymentResult(false, None, ByField(map["non_field_errors" := RequestFailedMessage]), None)))
    ensures r.Err? <==> c.Confirmed? && c.result.isSuccess && c.result.transaction.None? && cart.Some?
    ensures r.Ok? ==> !r.value.1.success && r.value.1.transactionId.None?
    ensures r.Ok? && c.Confirmed? && c.result.transaction.None? ==>
      r.value == (cart, PaymentResult(false, None, ByField(ErrorsOf(c.result.deepErrors)), None))
    ensures r.Ok? && c.Confirmed? && c.result.transaction.Some? ==>
      && r.value.1.status == Some(c.result.transaction.value.status)
      && r.value.1.errors == ByField(TransactionErrors(c.result.transaction.value))
    ensures r.Ok? && c.Confirmed? && c.result.isSuccess && c.result.transaction.Some? ==>
      r.value.0 == BraintreeIpn.NewOrder(cart, c.result.transaction.value)
    ensures r.Ok? && !(c.Confirmed? && c.result.isSuccess) ==> r.value.0 == cart
  {
    match c
    case RequestFailed =>
      Ok((cart, PaymentResult(false, None, ByField(map["non_field_errors" := RequestFailedMessage]), None)))
    case Confirmed(result) =>
      if result.isSuccess && result.transaction.None? && cart.Some? then Err(AttributeError("shipping"))
      else
        var saved := if result.isSuccess && result.transaction.Some?
                     then BraintreeIpn.NewOrder(cart, result.transaction.value) else cart;
        match result.transaction
        case None => Ok((saved, PaymentResult(false, None, ByField(ErrorsOf(result.deepErrors)), None)))
        case Some(t) => Ok((saved, PaymentResult(false, Some(t.status), ByField(TransactionErrors(t)), None)))
  }

  /** Even a settled, successful confirmation reports failure, although the
      order is accepted and the payment recorded: the cart is SUBMITTED and
      carries a PAID record for the transaction. */
  lemma SettledConfirmationReportsFailure(c: Cart, t: BraintreeIpn.Transaction)
    requires t.status == "settled"
    ensures var r := ConfirmPayment(Some(c), Confirmed(SdkResult(true, Some(t), [])));
      && r.Ok?
      && !r.value.1.success
      && r.value.1.errors == ByField(map[])
      && r.value.0.Some?
      && r.value.0.value.state == Submitted
      && exists i | 0 <= i < |r.value.0.value.payments| ::
           r.value.0.value.payments[i] == Payment(r.value.0.value.payments[i].amount, t.id, Paid)
  {
    var r := ConfirmPayment(Some(c), Confirmed(SdkResult(true, Some(t), [])));
    var submitted := c.(ship := MergeAddress(c.ship, t.shipping), bill := MergeAddress(c.bill, t.billing), state := Submitted);
    var (saved, p) := BraintreeIpn.RecordPayment(Some(submitted), t);
    assert r.value.0 == saved;
    var i :| 0 <= i < |saved.value.payments| && saved.value.payments[i] == p.value;
  }
}

=== FILE: braintree_ipn.dfy ===
/** Braintree transaction handling: classification of a transaction's status,
    the ledger upsert keyed on a PENDING record with the same id, the order
    acceptance that merges both addresses, and the status check the retry
    task runs. The Braintree SDK's transaction object is a plain record here;
    looking it up (`Transaction.find`) is left to the caller. */
module BraintreeIpn {
  import opened Base
  import opened Text
  import opened Carts
  import AuthorizeNetIpn

  /** The fields of a Braintree transaction the handlers read. */
  datatype Transaction = Transaction(
    id: string,
    amount: int,
    status: string,
    shipping: Address,
    billing: Address,
    processorResponseText: string,
    gatewayRejectionReason: string)

  /** The SDK environment a gateway talks to. */
  datatype Environment = Production | Sandbox

  /** `environment`, on the IPN handler and on the gateway alike:
      production settings iff LIVE. */
  function EnvironmentFor(live: bool): (e: Environment)
    ensures e == Production <==> live
  {
    if live then Production else Sandbox
  }

  /** The payment state of a transaction status; statuses outside the four
      named here record nothing. */
  function StatusState(status: string): (r: Option<PaymentState>)
    ensures r == Some(Paid) <==> status == "settled" || status == "authorized"
    ensures r == Some(Pending) <==> status == "authorizing" || status == "submitted_for_settlement"
    ensures r.Some? ==> r.value == Paid || r.value == Pending
  {
    if status == "settled" || status == "authorized" then Some(Paid)
    else if status == "authorizing" || status == "submitted_for_settlement" then Some(Pending)
    else None
  }

  /** The classification here and the BRAINTREE_STATUS table disagree on one
      word: "authorized" is PAID for the handler but listed under PENDING in
      the table. On every other word of the table's PAID and PENDING groups
      they agree. */
  lemma StatusTableDisagreesOnAuthorized()
    ensures "authorized" in AuthorizeNetIpn.BraintreeStatus["PENDING"]
    ensures StatusState("authorized") == Some(Paid)
    ensures forall w | w in AuthorizeNetIpn.BraintreeStatus["PAID"] :: StatusState(w) == Some(Paid)
    ensures forall w | w in AuthorizeNetIpn.BraintreeStatus["PENDING"] && w != "authorized" ::
      StatusState(w) == Some(Pending)
    ensures forall w | w in AuthorizeNetIpn.BraintreeStatus["FAILED"] + AuthorizeNetIpn.BraintreeStatus["CANCELLED"] ::
      StatusState(w).None?
  {
    assert AuthorizeNetIpn.BraintreeStatus["PAID"] == ["settled"];
    assert AuthorizeNetIpn.BraintreeStatus["PENDING"] == ["authorized", "authorizing", "submitted_for_settlement"];
    assert AuthorizeNetIpn.BraintreeStatus["FAILED"] + AuthorizeNetIpn.BraintreeStatus["CANCELLED"]
      == ["failed", "gateway_rejected", "processor_declined", "settlement_failed", "voided"];
  }

  /** `_record_payment`: with a recognised status, the first PENDING record
      with the transaction's id takes the new state (even the same one);
      without such a record a new one is appended, whatever other records
      with that id exist. The result is the record written. */
  function RecordPayment(cart: Option<Cart>, t: Transaction): (r: (Option<Cart>, Option<Payment>))
    ensures cart.None? ==> r == (None, None)
    ensures StatusState(t.status).None? ==> r == (cart, None)
    ensures r.1.Some? <==> cart.Some? && StatusState(t.status).Some?
    ensures r.1.Some? ==> && r.1.value.transactionId == t.id
                          && Some(r.1.value.state) == StatusState(t.status)
                          && r.0.Some? && r.1.value in r.0.value.payments
    ensures r.0.Some? ==> cart.Some? && r.0.value == cart.value.(payments := r.0.value.payments)
  {
    match cart
    case None => (None, None)
    case Some(c) =>
      match StatusState(t.status)
      case None => (cart, None)
      case Some(state) =>
        match FirstMatch(c.payments, t.id, true)
        case Some(i) =>
          var updated := SetPaymentState(c.payments, i, state);
          (Some(c.(payments := updated)), Some(updated[i]))
        case None =>
          var p := Payment(t.amount, t.id, state);
          (Some(c.(payments := c.payments + [p])), Some(p))
  }

  /** A PENDING record for the transaction is updated in place: the ledger
      keeps its length and only that record changes. */
  lemma RecordPaymentUpdatesPending(c: Cart, t: Transaction, i: nat)
    requires StatusState(t.status).Some?
    requires FirstMatch(c.payments, t.id, true) == Some(i)
    ensures var (c', p) := RecordPayment(Some(c), t);
      && c'.Some? && |c'.value.payments| == |c.payments|
      && c'.value.payments[i] == c.payments[i].(state := StatusState(t.status).value)
      && (forall j | 0 <= j < |c.payments| && j != i :: c'.value.payments[j] == c.payments[j])
      && CountId(c'.value.payments, t.id) == CountId(c.payments, t.id)
  {
    CountIdSetState(c.payments, i, StatusState(t.status).value, t.id);
  }

  /** Without a PENDING record for the transaction, exactly one record is
      appended, carrying its amount, id and state. */
  lemma RecordPaymentAppends(c: Cart, t: Transaction)
    requires StatusState(t.status).Some?
    requires forall j | 0 <= j < |c.payments| :: !(c.payments[j].transactionId == t.id && c.payments[j].state == Pending)
    ensures var p := Payment(t.amount, t.id, StatusState(t.status).value);
      RecordPayment(Some(c), t) == (Some(c.(payments := c.payments + [p])), Some(p))
  {
    assert FirstMatch(c.payments, t.id, true).None?;
  }

  /** A pending transaction that later settles ends as a single PAID record:
      the second report updates the first in place. */
  lemma PendingThenSettledIsOneRecord(c: Cart, pending: Transaction, settled: Transaction)
    requires forall j | 0 <= j < |c.payments| :: c.payments[j].transactionId != pending.id
    requires pending.status == "authorizing" || pending.status == "submitted_for_settlement"
    requires settled.id == pending.id && settled.status == "settled"
    ensures var c1 := RecordPayment(Some(c), pending).0;
      var c2 := RecordPayment(c1, settled).0;
      && c2.Some?
      && CountId(c2.value.payments, pending.id) == 1
      && c2.value.payments == c.payments + [Payment(pending.amount, pending.id, Paid)]
  {
    var p := Payment(pending.amount, pending.id, Pending);
    assert FirstMatch(c.payments, pending.id, true).None?;
    var c1 := c.(payments := c.payments + [p]);
    assert RecordPayment(Some(c), pending).0 == Some(c1);
    var n := |c.payments|;
    assert FirstMatch(c1.payments, pending.id, true) == Some(n) by {
      assert forall j | 0 <= j < n :: c1.payments[j] == c.payments[j];
    }
    var final := c.payments + [Payment(pending.amount, pending.id, Paid)];
    assert SetPaymentState(c1.payments, n, Paid) == final;
    CountIdAbsent(c.payments, pending.id);
    CountIdAppend(c.payments, Payment(pending.amount, pending.id, Paid), pending.id);
  }

  /** Reporting a settled transaction again once its record is PAID does not
      update that record: a second record with the same id is appended. */
  lemma SettledTwiceAddsSecondRecord(c: Cart, t: Transaction)
    requires t.status == "settled"
    requires forall j | 0 <= j < |c.payments| :: c.payments[j].transactionId != t.id
    ensures var c1 := RecordPayment(Some(c), t).0;
      var c2 := RecordPayment(c1, t).0;
      && c2.Some?
      && CountId(c2.value.payments, t.id) == 2
  {
    var p := Payment(t.amount, t.id, Paid);
    assert FirstMatch(c.payments, t.id, true).None?;
    var c1 := c.(payments := c.payments + [p]);
    assert RecordPayment(Some(c), t).0 == Some(c1);
    assert FirstMatch(c1.payments, t.id, true).None? by {
      assert forall j | 0 <= j < |c1.payments| :: !(c1.payments[j].transactionId == t.id && c1.payments[j].state == Pending);
    }
    assert RecordPayment(Some(c1), t).0 == Some(c1.(payments := c1.payments + [p]));
    CountIdAbsent(c.payments, t.id);
    CountIdAppend(c.payments, p, t.id);
    CountIdAppend(c1.payments, p, t.id);
  }

  /** `new_order`: merge all sixteen address fields of the transaction
      (second street lines included), mark the cart SUBMITTED and save it,
      then record the payment. The source returns nothing. */
  function NewOrder(cart: Option<Cart>, t: Transaction): (r: Option<Cart>)
    ensures cart.None? ==> r.None?
    ensures cart.Some? ==> r.Some? && r.value.state == Submitted && r.value.uuid == cart.value.uuid
  {
    match cart
    case None => None
    case Some(c) =>
      var submitted := c.(ship := MergeAddress(c.ship, t.shipping),
                          bill := MergeAddress(c.bill, t.billing),
                          state := Submitted);
      RecordPayment(Some(submitted), t).0
  }

  /** The accepted order carries each address field of the transaction when
      it is non-empty and the stored one otherwise, and its ledger is the one
      the payment upsert produces on the submitted cart. */
  lemma NewOrderMergesThenRecords(c: Cart, t: Transaction)
    ensures var r := NewOrder(Some(c), t);
      && r.Some?
      && r.value.ship == MergeAddress(c.ship, t.shipping)
      && r.value.bill == MergeAddress(c.bill, t.billing)
      && r == RecordPayment(Some(c.(ship := r.value.ship, bill := r.value.bill, state := Submitted)), t).0
  {
  }

  /** `update_order_status`: off LIVE the status is forced to "settled";
      the payment is recorded; a PAID record completes the cart and yields
      true, a PENDING one yields false. When nothing is recorded (no cart, or
      a status outside the four recognised ones) the source reads `.state`
      of None and raises. */
  function UpdateOrderStatus(cart: Option<Cart>, found: Transaction, live: bool): (r: Result<(Option<Cart>, bool)>)
    ensures r.Err? <==> cart.None? || (live && StatusState(found.status).None?)
    ensures r.Ok? ==> (r.value.1 <==> (&& r.value.0.Some? && r.value.0.value.state == Completed
                                       && StatusState(if live then found.status else "settled") == Some(Paid)))
    ensures !live && cart.Some? ==> r.Ok? && r.value.1
    ensures r.Ok? ==>
      var t := if live then found else found.(status := "settled");
      && RecordPayment(cart, t).0.Some?
      && r.value.0 == (if r.value.1 then Some(RecordPayment(cart, t).0.value.(state := Completed))
                       else RecordPayment(cart, t).0)
  {
    var t := if live then found else found.(status := "settled");
    var (c', payment) := RecordPayment(cart, t);
    match payment
    case None => Err(AttributeError("state"))
    case Some(p) =>
      if p.state == Paid then Ok((Some(c'.value.(state := Completed)), true))
      else Ok((c', false))
  }
}

=== FILE: braintree_tasks.dfy ===
/** The Braintree reconciliation task. Each run asks for the transaction's
    status; when the payment has not settled it schedules itself again four
    hours later with one more try counted, and after the eighteenth retry it
    voids the order instead. Celery's scheduling is reduced to the action a
    run asks for. */
module BraintreeTasks {
  import opened Base
  import opened Carts
  import BraintreeIpn

  /** The retry ceiling: 18 retries of 4 hours cover 72 hours. */
  const MaxTries: nat := 18

  /** The delay before the next run, in seconds (4 hours). */
  const RetryCountdown: nat := 14400

  /** What a run leaves for the scheduler: nothing, a void of the order, or
      one more run with the given try count and countdown. */
  datatype TaskAction = Finished | Void | Reschedule(tries: nat, countdown: nat)

  /** The decision at the end of a run, given whether the order is done. */
  function Decide(done: bool, tries: nat): (a: TaskAction)
    ensures done ==> a == Finished
    ensures !done && tries >= MaxTries ==> a == Void
    ensures !done && tries < MaxTries ==> a == Reschedule(tries + 1, RetryCountdown)
  {
    if done then Finished
    else if tries >= MaxTries then Void
    else Reschedule(tries + 1, RetryCountdown)
  }

  /** `update_payment_status`: check the order, then decide. An exception
      from the check ends the run with nothing scheduled and nothing voided. */
  function UpdatePaymentStatus(cart: Cart, found: BraintreeIpn.Transaction, live: bool, tries: nat)
    : (r: Result<(Option<Cart>, TaskAction)>)
    ensures r.Err? <==> BraintreeIpn.UpdateOrderStatus(Some(cart), found, live).Err?
    ensures r.Ok? ==> (r.value.1 != Finished <==> !BraintreeIpn.UpdateOrderStatus(Some(cart), found, live).value.1)
    ensures r.Ok? && r.value.1 == Finished ==> r.value.0.Some? && r.value.0.value.state == Completed
    ensures !live ==> r.Ok? && r.value.1 == Finished
    ensures r.Ok? ==> r.value.0 == BraintreeIpn.UpdateOrderStatus(Some(cart), found, live).value.0
  {
    var (c', done) :- BraintreeIpn.UpdateOrderStatus(Some(cart), found, live);
    Ok((c', Decide(done, tries)))
  }

  /** The actions of successive runs, the i-th run learning `done[i]`; the
      runs stop at the first action that schedules nothing, or when `done`
      runs out. */
  function Runs(done: seq<bool>, tries: nat): (actions: seq<TaskAction>)
    ensures |actions| <= |done|
    decreases |done|
  {
    if |done| == 0 then []
    else
      var a := Decide(done[0], tries);
      if a.Reschedule? then [a] + Runs(done[1..], a.tries) else [a]
  }

  /** Number of reschedules in a list of actions. */
  function Reschedules(actions: seq<TaskAction>): (r: nat)
  {
    if |actions| == 0 then 0
    else (if actions[0].Reschedule? then 1 else 0) + Reschedules(actions[1..])
  }

  /** Whatever the provider reports, a task that starts with `tries` retries
      behind it is rescheduled at most MaxTries - tries more times, and every
      rescheduled run waits RetryCountdown seconds with the count one higher. */
  lemma {:induction false} RunsAreBounded(done: seq<bool>, tries: nat)
    requires tries <= MaxTries
    ensures Reschedules(Runs(done, tries)) <= MaxTries - tries
    ensures forall i | 0 <= i < |Runs(done, tries)| && Runs(done, tries)[i].Reschedule? ::
      Runs(done, tries)[i] == Reschedule(tries + i + 1, RetryCountdown)
    decreases |done|
  {
    if |done| > 0 {
      var a := Decide(done[0], tries);
      if a.Reschedule? {
        RunsAreBounded(done[1..], tries + 1);
        var rest := Runs(done[1..], tries + 1);
        assert Runs(done, tries) == [a] + rest;
        assert ([a] + rest)[1..] == rest;
        forall i | 0 <= i < |Runs(done, tries)| && Runs(done, tries)[i].Reschedule?
          ensures Runs(done, tries)[i] == Reschedule(tries + i + 1, RetryCountdown)
        {
          if i > 0 {
            assert Runs(done, tries)[i] == rest[i - 1];
          }
        }
      }
    }
  }

  /** A provider that never reports the payment settled, over enough runs:
      starting from `tries`, the task is rescheduled exactly MaxTries - tries
      times, the k-th time with try count tries + k, and then voids the
      order once. */
  lemma {:induction false} AlwaysPendingGivesUp(done: seq<bool>, tries: nat)
    requires tries <= MaxTries
    requires |done| > MaxTries - tries
    requires forall i | 0 <= i < |done| :: !done[i]
    ensures var actions := Runs(done, tries);
      && |actions| == MaxTries - tries + 1
      && actions[|actions| - 1] == Void
      && (forall i | 0 <= i < |actions| - 1 :: actions[i] == Reschedule(tries + i + 1, RetryCountdown))
      && Reschedules(actions) == MaxTries - tries
    decreases MaxTries - tries
  {
    var actions := Runs(done, tries);
    if tries == MaxTries {
      assert actions == [Void];
    } else {
      var a := Reschedule(tries + 1, RetryCountdown);
      AlwaysPendingGivesUp(done[1..], tries + 1);
      var rest := Runs(done[1..], tries + 1);
      assert actions == [a] + rest;
      assert actions[1..] == rest;
      forall i | 0 <= i < |actions| - 1
        ensures actions[i] == Reschedule(tries + i + 1, RetryCountdown)
      {
        if i > 0 {
          assert actions[i] == rest[i - 1];
        }
      }
    }
  }

  /** From a fresh task, a never-settling payment is rescheduled 18 times,
      72 hours of countdowns in all, before the single void. */
  lemma FreshTaskVoidsAfter72Hours(done: seq<bool>)
    requires |done| >= 19
    requires forall i | 0 <= i < |done| :: !done[i]
    ensures var actions := Runs(done, 0);
      && |actions| == 19
      && Reschedules(actions) == 18
      && actions[18] == Void
      && Reschedules(actions) * RetryCountdown == 72 * 3600
  {
    AlwaysPendingGivesUp(done, 0);
  }

  /** A run that finds the order done ends the chain at once. */
  lemma DoneStopsRuns(done: seq<bool>, tries: nat)
    requires |done| > 0 && done[0]
    ensures Runs(done, tries) == [Finished]
  {
  }
}

=== FILE: carts.dfy ===
/** The records every gateway reads and writes: the cart with its line items,
    addresses and totals, and the ledger of payments recorded against it.
    Payments are looked up by transaction id; the helpers here find the first
    matching record, change one record's state, and state the one-record-per-id
    invariant the notification handlers are meant to keep. */
module Carts {
  import opened Base
  import opened Text

  datatype CartState = Open | Submitted | Completed | Cancelled

  datatype PaymentState = Pending | Paid | Failed | Cancelled

  /** One address block of a cart (ship_* or bill_*). */
  datatype Address = Address(
    firstName: string,
    lastName: string,
    street1: string,
    street2: string,
    city: string,
    state: string,
    postalCode: string,
    country: string)

  /** A one-time line item. Amounts are in cents. */
  datatype OneTimeItem = OneTimeItem(
    name: string,
    sku: string,
    description: string,
    unitPrice: int,
    quantity: nat,
    total: int,
    discount: int)

  /** A recurring line item. `recurringStart` is a timestamp in seconds. */
  datatype RecurringItem = RecurringItem(
    name: string,
    sku: string,
    description: string,
    discount: int,
    trial: bool,
    trialPrice: int,
    trialLength: nat,
    recurringStart: Option<int>,
    recurringPrice: int,
    recurringShipping: int,
    recurringTimes: nat,
    duration: nat,
    durationUnit: string,
    paymentToken: string,
    isActive: bool)

  /** One provider-reported payment. */
  datatype Payment = Payment(amount: int, transactionId: string, state: PaymentState)

  /** The cart. Optional decimal totals that are unset hold 0, which is falsy
      in the source just as None is. */
  datatype Cart = Cart(
    uuid: string,
    oneTimeItems: seq<OneTimeItem>,
    recurringItems: seq<RecurringItem>,
    ship: Address,
    bill: Address,
    billEmail: string,
    subTotal: int,
    tax: int,
    shipping: int,
    discount: int,
    total: int,
    state: CartState,
    payments: seq<Payment>)

  /** The eight fields of an address, in declaration order. */
  function AddressFields(a: Address): (r: seq<string>)
  {
    [a.firstName, a.lastName, a.street1, a.street2, a.city, a.state, a.postalCode, a.country]
  }

  /** Every stored field becomes the incoming value when that is non-empty
      and stays as it was otherwise (`incoming or stored`). */
  function MergeAddress(stored: Address, incoming: Address): (r: Address)
  {
    Address(
      Or(incoming.firstName, stored.firstName),
      Or(incoming.lastName, stored.lastName),
      Or(incoming.street1, stored.street1),
      Or(incoming.street2, stored.street2),
      Or(incoming.city, stored.city),
      Or(incoming.state, stored.state),
      Or(incoming.postalCode, stored.postalCode),
      Or(incoming.country, stored.country))
  }

  /** Field by field, the merge keeps the stored value exactly where the
      incoming one is blank. */
  lemma MergeAddressFieldwise(stored: Address, incoming: Address)
    ensures forall i | 0 <= i < 8 ::
      AddressFields(MergeAddress(stored, incoming))[i] == Or(AddressFields(incoming)[i], AddressFields(stored)[i])
  {
    var r := AddressFields(MergeAddress(stored, incoming));
    var a := AddressFields(incoming);
    var b := AddressFields(stored);
    forall i | 0 <= i < 8
      ensures r[i] == Or(a[i], b[i])
    {
      if i == 0 {} else if i == 1 {} else if i == 2 {} else if i == 3 {}
      else if i == 4 {} else if i == 5 {} else if i == 6 {} else {}
    }
  }

  /** Merging the same incoming address twice is the same as merging it once,
      and an all-blank incoming address changes nothing. */
  lemma MergeAddressIdempotent(stored: Address, incoming: Address)
    ensures MergeAddress(MergeAddress(stored, incoming), incoming) == MergeAddress(stored, incoming)
    ensures incoming == Address("", "", "", "", "", "", "", "") ==> MergeAddress(stored, incoming) == stored
  {
  }

  /** Index of the first payment whose transaction id is `id` and, when
      `pendingOnly`, whose state is Pending. This is the first row of
      `cart.payments.filter(...)`. */
  function FirstMatch(ps: seq<Payment>, id: string, pendingOnly: bool): (r: Option<nat>)
    ensures r.Some? ==> r.value < |ps| && Matches(ps[r.value], id, pendingOnly)
    ensures r.Some? ==> forall j | 0 <= j < r.value :: !Matches(ps[j], id, pendingOnly)
    ensures r.None? <==> forall j | 0 <= j < |ps| :: !Matches(ps[j], id, pendingOnly)
    decreases |ps|
  {
    if |ps| == 0 then None
    else if Matches(ps[0], id, pendingOnly) then Some(0)
    else match FirstMatch(ps[1..], id, pendingOnly)
      case None => None
      case Some(i) => Some(i + 1)
  }

  predicate Matches(p: Payment, id: string, pendingOnly: bool)
  {
    p.transactionId == id && (!pendingOnly || p.state == Pending)
  }

  /** The ledger with the state of one record changed. */
  function SetPaymentState(ps: seq<Payment>, i: nat, state: PaymentState): (r: seq<Payment>)
    requires i < |ps|
    ensures |r| == |ps| && r[i] == ps[i].(state := state)
    ensures forall j | 0 <= j < |ps| && j != i :: r[j] == ps[j]
  {
    ps[i := ps[i].(state := state)]
  }

  /** The ledger's uniqueness key: at most one record per transaction id. */
  predicate UniqueIds(ps: seq<Payment>)
  {
    forall i, j | 0 <= i < j < |ps| :: ps[i].transactionId != ps[j].transactionId
  }

  /** Number of records carrying transaction id `id`. */
  function CountId(ps: seq<Payment>, id: string): (r: nat)
    decreases |ps|
  {
    if |ps| == 0 then 0
    else (if ps[|ps| - 1].transactionId == id then 1 else 0) + CountId(ps[..|ps| - 1], id)
  }

  /** Appending one record with id `id` adds one to its count and leaves
      every other id's count alone. */
  lemma CountIdAppend(ps: seq<Payment>, p: Payment, id: string)
    ensures CountId(ps + [p], id) == CountId(ps, id) + (if p.transactionId == id then 1 else 0)
  {
    assert (ps + [p])[..|ps|] == ps;
  }

  /** Changing a record's state does not change any id's count. */
  lemma {:induction false} CountIdSetState(ps: seq<Payment>, i: nat, state: PaymentState, id: string)
    requires i < |ps|
    ensures CountId(SetPaymentState(ps, i, state), id) == CountId(ps, id)
    decreases |ps|
  {
    var r := SetPaymentState(ps, i, state);
    if i < |ps| - 1 {
      assert r[..|r| - 1] == SetPaymentState(ps[..|ps| - 1], i, state);
      CountIdSetState(ps[..|ps| - 1], i, state, id);
    } else {
      assert r[..|r| - 1] == ps[..|ps| - 1];
    }
  }

  /** A ledger with no record of `id` counts zero records of it. */
  lemma {:induction false} CountIdAbsent(ps: seq<Payment>, id: string)
    requires forall j | 0 <= j < |ps| :: ps[j].transactionId != id
    ensures CountId(ps, id) == 0
    decreases |ps|
  {
    if |ps| > 0 {
      CountIdAbsent(ps[..|ps| - 1], id);
    }
  }

  /** What a notification handler leaves behind: the cart as saved (None when
      the handler had no cart) and either the payment it recorded (None when
      it recorded nothing) or the exception that stopped it. Whatever was saved
      before an exception stays saved. */
  datatype Effect = Effect(cart: Option<Cart>, outcome: Result<Option<Payment>>)
}

=== FILE: google_views.dfy ===
/** The Google Checkout notification view: finding the cart a notification
    belongs to, the credential check, the dispatch on the notification
    type, and the acknowledgement that echoes the serial number. The
    handlers themselves, the payment lookup by Google order number, the
    configured credential function and the basic-auth credentials are
    outside this model and enter as parameters; the view's result records
    which handler it ran. */
module GoogleViews {
  import opened Base
  import opened Text
  import opened Carts

  const CartPrivateDataKey: string := "shopping-cart.merchant-private-data"
  const ItemPrivateDataSuffix: string := "merchant-private-item-data"
  const NotPostedMessage: string := "Requests must be POSTed"
  const AuthRequiredMessage: string := "Authorization Required"
  const AckPrefix: string := "<notification-acknowledgment xmlns='http://checkout.google.com/schema/2' serial-number='"
  const AckSuffix: string := "'/>"

  /** The notification handlers of the Google IPN class. */
  datatype Handler =
    | NewOrder | OrderStateChange | RiskInformation | ChargeAmount
    | RefundAmount | ChargebackAmount | AuthorizationAmount | CancelledSubscription

  /** A request to the view: whether it was POSTed, the POSTed fields with
      the order in which the dictionary lists its keys, and the
      Authorization header when there is one. */
  datatype Request = Request(isPost: bool, post: map<string, string>, order: seq<string>, authorization: Option<string>)

  /** What the view answers. */
  datatype Response =
    | BadRequest(body: string)
    | Unauthorized(body: string, challenge: string)
    | Acknowledgement(xml: string)

  /** The HTTP status of a response. */
  function Status(r: Response): (code: int)
    ensures code == 400 <==> r.BadRequest?
    ensures code == 401 <==> r.Unauthorized?
    ensures code == 200 <==> r.Acknowledgement?
  {
    match r
    case BadRequest(_) => 400
    case Unauthorized(_, _) => 401
    case Acknowledgement(_) => 200
  }

  /** The credentials the gateway accepts: the values of the configured
      IPN_AUTH_VALS function when that setting is set, else the merchant's
      basic-auth string that `get_basic_auth` returns. */
  datatype Credentials = Credentials(ipnAuthVals: Option<seq<string>>, basicAuth: string)

  /** `theirs in mine`: membership in the configured values, but on the
      basic-auth string Python's `in` is a substring test. */
  predicate Accepts(c: Credentials, theirs: string)
  {
    if c.ipnAuthVals.Some? then theirs in c.ipnAuthVals.value else Contains(c.basicAuth, theirs)
  }

  /** With IPN_AUTH_VALS configured, exactly its values are accepted; with
      it unset, every piece of the basic-auth string is, the empty
      credential among them. */
  lemma AcceptsWhich(c: Credentials, theirs: string)
    ensures c.ipnAuthVals.Some? ==> (Accepts(c, theirs) <==> theirs in c.ipnAuthVals.value)
    ensures c.ipnAuthVals.None? ==> (Accepts(c, theirs) <==> Contains(c.basicAuth, theirs))
    ensures c.ipnAuthVals.None? ==> Accepts(c, "")
    ensures c.ipnAuthVals.None? ==> forall i, j | 0 <= i <= j <= |c.basicAuth| :: Accepts(c, c.basicAuth[i..j])
  {
    if c.ipnAuthVals.None? {
      ContainsInfix([], "", c.basicAuth);
      assert [] + "" + c.basicAuth == c.basicAuth;
      forall i, j | 0 <= i <= j <= |c.basicAuth|
        ensures Accepts(c, c.basicAuth[i..j])
      {
        ContainsInfix(c.basicAuth[..i], c.basicAuth[i..j], c.basicAuth[j..]);
        assert c.basicAuth[..i] + c.basicAuth[i..j] + c.basicAuth[j..] == c.basicAuth;
      }
    }
  }

  /** Index in `order` of the first key from `from` on that ends with the
      item private-data suffix. */
  function FirstItemDataKey(order: seq<string>, from: nat): (r: Option<nat>)
    requires from <= |order|
    ensures r.Some? ==> from <= r.value < |order| && EndsWith(order[r.value], ItemPrivateDataSuffix)
    ensures r.Some? ==> forall j | from <= j < r.value :: !EndsWith(order[j], ItemPrivateDataSuffix)
    ensures r.None? <==> forall j | from <= j < |order| :: !EndsWith(order[j], ItemPrivateDataSuffix)
    decreases |order| - from
  {
    if from == |order| then None
    else if EndsWith(order[from], ItemPrivateDataSuffix) then Some(from)
    else FirstItemDataKey(order, from + 1)
  }

  /** The private data naming the cart: the cart-level field when the
      notification has one (even an empty one), else the first item-level
      field in the dictionary's order; none when that text is empty. */
  function PrivateData(data: map<string, string>, order: seq<string>): (r: Option<string>)
    requires IsKeyOrder(order, data)
    ensures CartPrivateDataKey in data ==>
      (r.Some? <==> data[CartPrivateDataKey] != "") && (r.Some? ==> r.value == data[CartPrivateDataKey])
    ensures CartPrivateDataKey !in data && r.Some? ==>
      exists i | 0 <= i < |order| :: && EndsWith(order[i], ItemPrivateDataSuffix) && r.value == data[order[i]]
                                     && forall j | 0 <= j < i :: !EndsWith(order[j], ItemPrivateDataSuffix)
    ensures CartPrivateDataKey !in data && (forall k | k in data :: !EndsWith(k, ItemPrivateDataSuffix)) ==>
      r.None?
    ensures r.Some? ==> r.value != ""
  {
    var text :=
      if CartPrivateDataKey in data then data[CartPrivateDataKey]
      else match FirstItemDataKey(order, 0)
        case None => ""
        case Some(i) => data[order[i]];
    if text == "" then None else Some(text)
  }

  /** `_find_cart`: the cart of the payment the notification refers to when
      there is one (`paymentCart`); otherwise the cart whose uuid is the
      private data. */
  function FindCart(carts: map<string, Cart>, paymentCart: Option<Cart>, data: map<string, string>,
                    order: seq<string>): (r: Option<Cart>)
    requires IsKeyOrder(order, data)
    ensures paymentCart.Some? ==> r == paymentCart
    ensures paymentCart.None? ==>
      (r.Some? <==> PrivateData(data, order).Some? && PrivateData(data, order).value in carts)
    ensures paymentCart.None? && r.Some? ==> r.value == carts[PrivateData(data, order).value]
  {
    if paymentCart.Some? then paymentCart
    else match PrivateData(data, order)
      case None => None
      case Some(id) => if id in carts then Some(carts[id]) else None
  }

  /** The credential presented: the second word of the Authorization
      header. A missing header raises KeyError, a header without a space
      IndexError. */
  function Presented(authorization: Option<string>): (r: Result<string>)
    ensures authorization.None? ==> r == Err(KeyError("HTTP_AUTHORIZATION"))
    ensures authorization.Some? ==> (r.Ok? <==> ' ' in authorization.value)
    ensures authorization.Some? && r.Err? ==> r.error == IndexError
    ensures r.Ok? ==> ' ' !in r.value
  {
    var header :- Required(authorization, "HTTP_AUTHORIZATION");
    var parts := Split(header, ' ');
    SplitHasSecond(header);
    if |parts| < 2 then Err(IndexError) else Ok(parts[1])
  }

  /** A text splits into two or more pieces exactly when it holds the
      separator. */
  lemma SplitHasSecond(s: string)
    ensures |Split(s, ' ')| >= 2 <==> ' ' in s
  {
    match IndexOf(s, ' ')
    case None =>
    case Some(i) =>
  }

  /** A header of a scheme and a token presents the token. */
  lemma PresentedToken(scheme: string, token: string)
    requires ' ' !in scheme && ' ' !in token
    ensures Presented(Some(scheme + " " + token)) == Ok(token)
  {
    SplitJoin([scheme, token], ' ');
    assert Join([scheme, token], ' ') == scheme + " " + token by {
      assert Join([scheme, token][1..], ' ') == token;
    }
  }

  /** The handler for a notification type, tried in the view's order; none
      for an unknown type. */
  function Dispatch(kind: string): (h: Option<Handler>)
  {
    if kind == TypeOf(NewOrder) then Some(NewOrder)
    else if kind == TypeOf(OrderStateChange) then Some(OrderStateChange)
    else if kind == TypeOf(RiskInformation) then Some(RiskInformation)
    else if kind == TypeOf(ChargeAmount) then Some(ChargeAmount)
    else if kind == TypeOf(RefundAmount) then Some(RefundAmount)
    else if kind == TypeOf(ChargebackAmount) then Some(ChargebackAmount)
    else if kind == TypeOf(AuthorizationAmount) then Some(AuthorizationAmount)
    else if kind == TypeOf(CancelledSubscription) then Some(CancelledSubscription)
    else None
  }

  /** The notification type each handler answers. */
  function TypeOf(h: Handler): (r: string)
  {
    match h
    case NewOrder => "new-order-notification"
    case OrderStateChange => "order-state-change-notification"
    case RiskInformation => "risk-information-notification"
    case ChargeAmount => "charge-amount-notification"
    case RefundAmount => "refund-amount-notification"
    case ChargebackAmount => "chargeback-amount-notification"
    case AuthorizationAmount => "authorization-amount-notification"
    case CancelledSubscription => "cancelled-subscription-notification"
  }

  /** Each handler's own type runs that handler. */
  lemma DispatchTypeOf(h: Handler)
    ensures Dispatch(TypeOf(h)) == Some(h)
  {
    match h
    case NewOrder =>
    case OrderStateChange =>
    case RiskInformation =>
    case ChargeAmount =>
    case RefundAmount =>
    case ChargebackAmount =>
    case AuthorizationAmount =>
    case CancelledSubscription =>
  }

  /** A type that runs a handler is that handler's type. */
  lemma DispatchNamesType(kind: string)
    ensures Dispatch(kind).Some? ==> kind == TypeOf(Dispatch(kind).value)
  {
    if kind == TypeOf(NewOrder) {
    } else if kind == TypeOf(OrderStateChange) {
    } else if kind == TypeOf(RiskInformation) {
    } else if kind == TypeOf(ChargeAmount) {
    } else if kind == TypeOf(RefundAmount) {
    } else if kind == TypeOf(ChargebackAmount) {
    } else if kind == TypeOf(AuthorizationAmount) {
    } else if kind == TypeOf(CancelledSubscription) {
    } else {
      assert Dispatch(kind).None?;
    }
  }

  /** Each of the eight types runs its own handler and no other, and every
      other type runs none. */
  lemma DispatchExactlyOne(kind: string, h: Handler)
    ensures Dispatch(kind) == Some(h) <==> kind == TypeOf(h)
    ensures Dispatch(kind).None? <==> forall g: Handler :: kind != TypeOf(g)
  {
    DispatchTypeOf(h);
    DispatchNamesType(kind);
    forall g: Handler | kind == TypeOf(g)
      ensures Dispatch(kind) == Some(g)
    {
      DispatchTypeOf(g);
    }
  }

  /** The acknowledgement Google expects, echoing the serial number without
      its surrounding whitespace. */
  function AckXml(serial: string): (xml: string)
    ensures |xml| == |AckPrefix| + |Strip(serial)| + |AckSuffix|
    ensures xml[..|AckPrefix|] == AckPrefix
    ensures xml[|AckPrefix|..|xml| - |AckSuffix|] == Strip(serial)
    ensures xml[|xml| - |AckSuffix|..] == AckSuffix
  {
    AckPrefix + Strip(serial) + AckSuffix
  }

  /** Two serial numbers get the same acknowledgement only when they are the
      same once stripped. */
  lemma AckXmlInjective(a: string, b: string)
    ensures AckXml(a) == AckXml(b) <==> Strip(a) == Strip(b)
  {
    if AckXml(a) == AckXml(b) {
      assert Strip(a) == AckXml(a)[|AckPrefix|..|AckXml(a)| - |AckSuffix|];
    }
  }

  /** What the view did: the handler it ran, if any, and its answer or the
      exception it raised. */
  datatype Outcome = Outcome(ran: Option<Handler>, response: Result<Response>)

  /** `ipn`. */
  function Ipn(carts: map<string, Cart>, paymentCart: Option<Cart>, creds: Credentials, req: Request): (r: Outcome)
    requires IsKeyOrder(req.order, req.post)
    ensures !req.isPost ==> r == Outcome(None, Ok(BadRequest(NotPostedMessage)))
    ensures r.response.Ok? && Status(r.response.value) == 401 ==> r.ran.None?
    ensures r.ran.Some? ==> && req.isPost && FindCart(carts, paymentCart, req.post, req.order).Some?
                            && "_type" in req.post && r.ran == Dispatch(req.post["_type"])
                            && Presented(req.authorization).Ok?
                            && Accepts(creds, Presented(req.authorization).value)
  {
    if !req.isPost then Outcome(None, Ok(BadRequest(NotPostedMessage)))
    else
      var data := req.post;
      match FindCart(carts, paymentCart, data, req.order)
      case None => Outcome(None, Acknowledge(data))
      case Some(cart) =>
        match Presented(req.authorization)
        case Err(e) => Outcome(None, Err(e))
        case Ok(theirs) =>
          if !Accepts(creds, theirs) then Outcome(None, Ok(Unauthorized(AuthRequiredMessage, "Basic")))
          else
            match Lookup(data, "_type")
            case Err(e) => Outcome(None, Err(e))
            case Ok(kind) => Outcome(Dispatch(kind), Acknowledge(data))
  }

  /** The acknowledgement of a notification, which needs its serial number. */
  function Acknowledge(data: map<string, string>): (r: Result<Response>)
    ensures r.Ok? <==> "serial-number" in data
    ensures r.Ok? ==> r.value == Acknowledgement(AckXml(data["serial-number"]))
    ensures r.Err? ==> r.error == KeyError("serial-number")
  {
    var serial :- Lookup(data, "serial-number");
    Ok(Acknowledgement(AckXml(serial)))
  }

  /** Without IPN_AUTH_VALS, a header `"Basic "` presents the empty
      credential, which the basic-auth substring test accepts: the
      notification's handler runs. */
  lemma IpnAcceptsBlankBasicAuth(carts: map<string, Cart>, paymentCart: Option<Cart>, creds: Credentials, req: Request)
    requires IsKeyOrder(req.order, req.post) && req.isPost && "_type" in req.post
    requires FindCart(carts, paymentCart, req.post, req.order).Some?
    requires creds.ipnAuthVals.None? && req.authorization == Some("Basic ")
    ensures Ipn(carts, paymentCart, creds, req).ran == Dispatch(req.post["_type"])
  {
    PresentedToken("Basic", "");
    assert "Basic" + " " + "" == "Basic ";
    AcceptsWhich(creds, "");
  }

  /** A POSTed notification is acknowledged, even when its cart is unknown,
      unless the cart is known and its credential is refused; a refused
      credential gets 401 and runs no handler. */
  lemma IpnAcknowledges(carts: map<string, Cart>, paymentCart: Option<Cart>, creds: Credentials, req: Request)
    requires IsKeyOrder(req.order, req.post) && req.isPost && "serial-number" in req.post
    ensures var r := Ipn(carts, paymentCart, creds, req);
      && (FindCart(carts, paymentCart, req.post, req.order).None? ==>
            r == Outcome(None, Ok(Acknowledgement(AckXml(req.post["serial-number"])))))
      && (FindCart(carts, paymentCart, req.post, req.order).Some? && Presented(req.authorization).Ok? ==>
            if !Accepts(creds, Presented(req.authorization).value)
            then r == Outcome(None, Ok(Unauthorized(AuthRequiredMessage, "Basic")))
            else "_type" in req.post ==>
                   r == Outcome(Dispatch(req.post["_type"]), Ok(Acknowledgement(AckXml(req.post["serial-number"])))))
  {
  }
}

=== FILE: money.dfy ===
/** Amounts. The carts keep fixed-point decimals with two places; here an
    amount is a whole number of cents. `str(amount)` and
    `amount.quantize(Decimal('.01'))` both render it with exactly two
    fraction digits (FormatCents), and an amount arriving as text in a
    notification is read back with ParseCents. */
module Money {
  import opened Base
  import opened Text

  /** The text of an amount of cents: optional '-', whole units, '.', two digits. */
  function FormatCents(cents: int): (s: string)
    ensures |s| >= 4 && s[|s| - 3] == '.'
    ensures AllDigits(s[|s| - 2..])
  {
    var magnitude: nat := if cents < 0 then -cents else cents;
    var sign := if cents < 0 then "-" else "";
    sign + NatToString(magnitude / 100) + "." + Pad2(magnitude % 100)
  }

  /** The text of an amount holds only a sign, digits and the point. */
  lemma FormatCentsChars(cents: int)
    ensures forall i | 0 <= i < |FormatCents(cents)| ::
      var c := FormatCents(cents)[i]; c == '-' || c == '.' || IsDigit(c)
  {
    var magnitude: nat := if cents < 0 then -cents else cents;
    var sign := if cents < 0 then "-" else "";
    var whole := NatToString(magnitude / 100);
    var fraction := Pad2(magnitude % 100);
    var text := FormatCents(cents);
    assert text == sign + whole + "." + fraction;
    forall i | 0 <= i < |text|
      ensures text[i] == '-' || text[i] == '.' || IsDigit(text[i])
    {
      if i < |sign| {
      } else if i < |sign| + |whole| {
        assert text[i] == whole[i - |sign|];
      } else if i > |sign| + |whole| {
        assert text[i] == fraction[i - |sign| - |whole| - 1];
      }
    }
  }

  /** The cents written by at most two fraction digits: none for no digit,
      tens of cents for one, the two-digit number for two. */
  function FractionCents(f: string): (c: nat)
    requires |f| <= 2 && AllDigits(f)
    ensures c < 100
  {
    if |f| == 0 then 0
    else if |f| == 1 then DigitValue(f[0]) * 10
    else DigitValue(f[0]) * 10 + DigitValue(f[1])
  }

  /** Reads an unsigned amount the way `Decimal` reads one with at most two
      places: digits, optionally followed by a point and up to two digits,
      with a digit on at least one side of the point ("12." and ".5" are
      amounts, "." is not). */
  function ParseUnsigned(s: string): (r: Option<nat>)
  {
    match IndexOf(s, '.')
    case None =>
      (match ParseNat(s)
       case None => None
       case Some(whole) => Some(whole * 100))
    case Some(i) =>
      var whole := s[..i];
      var fraction := s[i + 1..];
      if |whole| + |fraction| == 0 || !AllDigits(whole) || !AllDigits(fraction) || |fraction| > 2 then None
      else Some(UnitsOf(whole) * 100 + FractionCents(fraction))
  }

  /** The whole units written before the point; none when nothing is. */
  function UnitsOf(whole: string): (r: nat)
    requires AllDigits(whole)
  {
    if |whole| == 0 then 0 else DigitsValue(whole)
  }

  /** Reads a stripped amount: an optional '+' or '-' sign, then an
      unsigned amount. */
  function ParseSigned(t: string): (r: Option<int>)
    ensures r.Some? && t != [] && t[0] == '-' ==> r.value <= 0
    ensures r.Some? && t != [] && t[0] != '-' ==> r.value >= 0
    ensures r.Some? ==> t != []
  {
    if |t| > 0 && (t[0] == '-' || t[0] == '+') then
      match ParseUnsigned(t[1..])
      case None => None
      case Some(v) => Some(if t[0] == '-' then -(v as int) else v)
    else
      match ParseUnsigned(t)
      case None => None
      case Some(v) => Some(v)
  }

  /** `Decimal(text)` for an amount with at most two places, in cents: the
      text is stripped of surrounding whitespace and may carry a '+' or '-'
      sign; None for any other text. */
  function ParseCents(s: string): (r: Option<int>)
    ensures var t := Strip(s); r.Some? && t != [] && t[0] == '-' ==> r.value <= 0
    ensures var t := Strip(s); r.Some? && t != [] && t[0] != '-' ==> r.value >= 0
    ensures r.Some? ==> Strip(s) != []
  {
    ParseSigned(Strip(s))
  }

  /** How `Decimal` reads a signed text with a point: a digit on some side
      of the point and at most two after it make an amount, worth the whole
      units and the cents of the fraction, negated by '-'. So ".50", "12."
      and "+1.00" are amounts. */
  lemma ParseCentsSpellings(sign: string, whole: string, fraction: string)
    requires sign == "" || sign == "+" || sign == "-"
    requires AllDigits(whole) && AllDigits(fraction)
    requires |whole| + |fraction| > 0 && |fraction| <= 2
    ensures var v := UnitsOf(whole) * 100 + FractionCents(fraction);
      ParseCents(sign + (whole + "." + fraction)) == Some(if sign == "-" then -v else v)
  {
    var u := whole + "." + fraction;
    ParsePointed(whole, fraction);
    assert u[0] == '.' || IsDigit(u[0]);
    assert u[|u| - 1] == '.' || IsDigit(u[|u| - 1]);
    SignedPointed(sign, u);
  }

  /** ... and a lone point, or a third fraction digit, is refused: "." and
      "1.234" are no amounts. */
  lemma ParseCentsRefusesSpellings(sign: string, whole: string, fraction: string)
    requires sign == "" || sign == "+" || sign == "-"
    requires AllDigits(whole) && AllDigits(fraction)
    requires |whole| + |fraction| == 0 || |fraction| > 2
    ensures ParseCents(sign + (whole + "." + fraction)) == None
  {
    var u := whole + "." + fraction;
    ParsePointed(whole, fraction);
    assert u[0] == '.' || IsDigit(u[0]);
    assert u[|u| - 1] == '.' || IsDigit(u[|u| - 1]);
    SignedPointed(sign, u);
  }

  /** A signed text that starts and ends with a digit or the point is read
      by its unsigned part. */
  lemma SignedPointed(sign: string, u: string)
    requires sign == "" || sign == "+" || sign == "-"
    requires u != [] && (u[0] == '.' || IsDigit(u[0])) && (u[|u| - 1] == '.' || IsDigit(u[|u| - 1]))
    ensures ParseCents(sign + u) == match ParseUnsigned(u)
                                    case None => None
                                    case Some(v) => Some(if sign == "-" then -(v as int) else v)
  {
    ParseTrimmed(sign + u);
    ParseSignedOf(sign, u);
  }

  /** A sign in front of an unsigned amount negates it or leaves it. */
  lemma ParseSignedOf(sign: string, u: string)
    requires sign == "" || sign == "+" || sign == "-"
    requires u != [] && (u[0] == '.' || IsDigit(u[0]))
    ensures ParseSigned(sign + u) == match ParseUnsigned(u)
                                     case None => None
                                     case Some(v) => Some(if sign == "-" then -(v as int) else v)
  {
    if sign != "" {
      assert (sign + u)[1..] == u;
    } else {
      assert sign + u == u;
    }
  }

  /** Digits, a point and digits read as an unsigned amount when there is a
      digit on some side and at most two after the point. */
  lemma ParsePointed(whole: string, fraction: string)
    requires AllDigits(whole) && AllDigits(fraction)
    ensures ParseUnsigned(whole + "." + fraction)
      == if |whole| + |fraction| > 0 && |fraction| <= 2 then Some(UnitsOf(whole) * 100 + FractionCents(fraction)) else None
  {
    SplitAtPoint(whole, fraction);
  }

  /** Text without surrounding whitespace is read as it stands. */
  lemma ParseTrimmed(t: string)
    requires t != [] ==> !IsSpace(t[0]) && !IsSpace(t[|t| - 1])
    ensures ParseCents(t) == ParseSigned(t)
  {
    StripTrimmed(t);
  }

  /** Reading back an unsigned rendering gives the amount. */
  lemma {:induction false} ParseUnsignedFormat(m: nat)
    ensures ParseUnsigned(NatToString(m / 100) + "." + Pad2(m % 100)) == Some(m)
  {
    var whole := NatToString(m / 100);
    var fraction := Pad2(m % 100);
    SplitAtPoint(whole, fraction);
    ParseNatToString(m / 100);
    ParsePad2(m % 100);
    var q, r := m / 100, m % 100;
    assert q * 100 + r == m;
    ParseUnsignedParts(whole + "." + fraction, |whole|, q, r);
  }

  /** Text split at its first point into a whole part and two fraction
      digits reads as whole units and cents. */
  lemma ParseUnsignedParts(s: string, i: nat, whole: nat, cents: nat)
    requires IndexOf(s, '.') == Some(i)
    requires ParseNat(s[..i]) == Some(whole)
    requires |s[i + 1..]| == 2 && ParseNat(s[i + 1..]) == Some(cents)
    ensures ParseUnsigned(s) == Some(whole * 100 + cents)
  {
    var f := s[i + 1..];
    assert f[..1] == [f[0]];
    assert DigitsValue(f) == DigitValue(f[0]) * 10 + DigitValue(f[1]);
  }

  /** Digits, a point and more text split at that point. */
  lemma SplitAtPoint(whole: string, fraction: string)
    requires AllDigits(whole)
    ensures var s := whole + "." + fraction;
      && IndexOf(s, '.') == Some(|whole|)
      && s[..|whole|] == whole
      && s[|whole| + 1..] == fraction
  {
    var s := whole + "." + fraction;
    assert s[|whole|] == '.';
    assert s[..|whole|] == whole;
    assert '.' !in whole by {
      assert forall k | 0 <= k < |whole| :: IsDigit(whole[k]);
    }
    assert s[|whole| + 1..] == fraction;
  }

  /** The text of an amount has no surrounding whitespace. */
  lemma FormatCentsTrimmed(cents: int)
    ensures Strip(FormatCents(cents)) == FormatCents(cents)
  {
    var text := FormatCents(cents);
    var magnitude: nat := if cents < 0 then -cents else cents;
    assert text[0] == '-' || text[0] == NatToString(magnitude / 100)[0];
    assert IsDigit(text[|text| - 1]) by {
      assert text[|text| - 1] == text[|text| - 2..][1];
    }
    StripTrimmed(text);
  }

  /** Reading back the text of any amount gives the amount. */
  lemma ParseFormatCents(cents: int)
    ensures ParseCents(FormatCents(cents)) == Some(cents)
  {
    FormatCentsTrimmed(cents);
    ParseSignedFormat(cents);
  }

  /** Reading back the text of any amount, as it stands, gives the amount. */
  lemma ParseSignedFormat(cents: int)
    ensures ParseSigned(FormatCents(cents)) == Some(cents)
  {
    var magnitude: nat := if cents < 0 then -cents else cents;
    var body := NatToString(magnitude / 100) + "." + Pad2(magnitude % 100);
    ParseUnsignedFormat(magnitude);
    if cents < 0 {
      assert FormatCents(cents) == "-" + body;
      assert ("-" + body)[1..] == body;
    } else {
      assert FormatCents(cents) == body;
      assert IsDigit(body[0]);
    }
  }

  /** Distinct amounts have distinct texts. */
  lemma FormatCentsInjective(a: int, b: int)
    requires a != b
    ensures FormatCents(a) != FormatCents(b)
  {
    ParseFormatCents(a);
    ParseFormatCents(b);
  }
}

=== FILE: paypal_common.dfy ===
/** What the two PayPal gateways share: the NVP API endpoints, a call as
    sent to the API, the check of PayPal's acknowledgement, and the values
    the request builders hold before they are written out. */
module PaypalCommon {
  import opened Base
  import opened Text
  import opened Money

  const NvpUrl: string := "https://api-3t.paypal.com/nvp"
  const NvpTestUrl: string := "https://api-3t.sandbox.paypal.com/nvp"

  /** `_nvp_url`: the production NVP endpoint iff LIVE. */
  function NvpEndpoint(live: bool): (url: string)
    ensures url == NvpUrl <==> live
    ensures url == NvpTestUrl <==> !live
  {
    if live then NvpUrl else NvpTestUrl
  }

  /** A value a form or an API call holds: the Python object stored in the
      dict, a string, a Decimal amount in cents or an int. */
  datatype Value = Text(text: string) | Decimal(cents: int) | Integer(number: int)

  /** How a value is written when the form is posted: amounts with two
      decimal places, integers in decimal. */
  function Render(v: Value): (text: string)
  {
    match v
    case Text(t) => t
    case Decimal(c) => FormatCents(c)
    case Integer(n) => IntToString(n)
  }

  /** An amount is posted so that it reads back as the same number of cents. */
  lemma RenderDecimalReadsBack(cents: int)
    ensures ParseCents(Render(Decimal(cents))) == Some(cents)
  {
    ParseFormatCents(cents);
  }

  /** An NVP API call as sent: the method, the credentials every call
      carries, and the call's own parameters. */
  datatype NvpCall<P> = NvpCall(apiMethod: string, user: string, pwd: string, signature: string, version: string,
                                params: map<P, Value>)

  /** `_do_nvp` after the network: PayPal's reply must carry ACK (a missing
      one raises KeyError) and it must be "Success". */
  function CheckAck(call: string, reply: map<string, string>): (r: Result<map<string, string>>)
    ensures r.Ok? <==> "ACK" in reply && reply["ACK"] == "Success"
    ensures "ACK" !in reply ==> r == Err(KeyError("ACK"))
    ensures "ACK" in reply && reply["ACK"] != "Success" ==> r == Err(GatewayError("Error calling Paypal " + call))
    ensures r.Ok? ==> r.value == reply
  {
    var ack :- Lookup(reply, "ACK");
    if ack != "Success" then Err(GatewayError("Error calling Paypal " + call)) else Ok(reply)
  }
}

=== FILE: paypal_express_gateway.dfy ===
/** The PayPal Express Checkout gateway: the redirect to PayPal's checkout
    page, the SetExpressCheckout parameters built from the cart, the
    CreateRecurringPaymentsProfile parameters for a cart with a recurring
    item, and the three API round trips (submit, get details, finalize).
    PayPal's replies are parameters, already flattened to one string per
    key; the clock and the ISO date formatting are parameters as well. */
module PaypalExpressGateway {
  import opened Base
  import opened Text
  import opened Carts
  import opened PaypalCommon

  const RedirectBase: string := "https://www.paypal.com/cgi-bin/webscr?cmd=_express-checkout&token="
  const RedirectTestBase: string := "https://www.sandbox.paypal.com/cgi-bin/webscr?cmd=_express-checkout&token="

  /** NO_SHIPPING["YES"]: PayPal shows the shipping address. */
  const ShippingShown: string := "0"

  /** The session key under which the token travels to the next step. */
  const TokenSessionKey: string := "hiicart_paypal_express_token"
  const PayerIdSessionKey: string := "hiicart_paypal_express_payerid"

  const NoRecurringItemMessage: string := "The cart must have at least one recurring item to use recurring payments"

  /** Store settings as given, before the gateway's defaults are applied. */
  datatype StoreSettings = StoreSettings(
    live: bool,
    apiUsername: string,
    apiPassword: string,
    apiSignature: string,
    apiVersion: Option<string>,
    currencyCode: Option<string>,
    locale: Option<string>,
    ipnUrl: Option<string>,
    returnUrl: Option<string>,
    cancelUrl: Option<string>,
    noShipping: Option<string>,
    confirmUrl: Option<string>,
    finalizeUrl: Option<string>,
    completeUrl: Option<string>)

  /** The settings the gateway reads, with the defaults applied: the
      currency, locale, notification URL and API version always have a
      value; the others may be absent. */
  datatype Settings = Settings(
    live: bool,
    apiUsername: string,
    apiPassword: string,
    apiSignature: string,
    apiVersion: string,
    currencyCode: string,
    locale: string,
    ipnUrl: string,
    returnUrl: Option<string>,
    cancelUrl: Option<string>,
    noShipping: Option<string>,
    confirmUrl: Option<string>,
    finalizeUrl: Option<string>,
    completeUrl: Option<string>)

  /** A setting the store gives wins over the gateway's default. */
  function OrDefault(given: Option<string>, default: string): (v: string)
    ensures given.Some? ==> v == given.value
    ensures given.None? ==> v == default
  {
    if given.Some? then given.value else default
  }

  /** The gateway's settings: the defaults of the settings module (USD, US,
      an empty notification URL, API version 76.0) under the store's own. */
  function ApplyDefaults(store: StoreSettings): (s: Settings)
    ensures s.currencyCode == OrDefault(store.currencyCode, "USD")
    ensures s.locale == OrDefault(store.locale, "US")
    ensures s.ipnUrl == OrDefault(store.ipnUrl, "")
    ensures s.apiVersion == OrDefault(store.apiVersion, "76.0")
    ensures s.returnUrl == store.returnUrl && s.cancelUrl == store.cancelUrl && s.noShipping == store.noShipping
    ensures s.confirmUrl == store.confirmUrl && s.finalizeUrl == store.finalizeUrl
    ensures s.completeUrl == store.completeUrl
    ensures s.live == store.live && s.apiUsername == store.apiUsername
    ensures s.apiPassword == store.apiPassword && s.apiSignature == store.apiSignature
  {
    Settings(store.live, store.apiUsername, store.apiPassword, store.apiSignature,
             OrDefault(store.apiVersion, "76.0"), OrDefault(store.currencyCode, "USD"),
             OrDefault(store.locale, "US"), OrDefault(store.ipnUrl, ""),
             store.returnUrl, store.cancelUrl, store.noShipping, store.confirmUrl,
             store.finalizeUrl, store.completeUrl)
  }

  /** `_create_redirect_url`: the live or the sandbox checkout page, with the
      token at the end. */
  function RedirectUrl(live: bool, token: string): (url: string)
    ensures StartsWith(url, if live then RedirectBase else RedirectTestBase)
    ensures url[|if live then RedirectBase else RedirectTestBase|..] == token
  {
    var base := if live then RedirectBase else RedirectTestBase;
    StartsWithAppend(base, token);
    assert (base + token)[|base|..] == token;
    base + token
  }

  /** The redirect names the environment LIVE selects, and the token can be
      read back from its end, so different tokens give different pages. */
  lemma RedirectUrlReadsBack(live: bool, token: string, other: string)
    ensures var url := RedirectUrl(live, token);
      && StartsWith(url, if live then RedirectBase else RedirectTestBase)
      && url[|if live then RedirectBase else RedirectTestBase|..] == token
      && (RedirectUrl(live, other) == url <==> other == token)
  {
    var base := if live then RedirectBase else RedirectTestBase;
    StartsWithAppend(base, token);
    var url := base + token;
    assert url[|base|..] == token;
    if RedirectUrl(live, other) == url {
      assert (base + other)[|base|..] == other;
    }
  }

  /** The `_do_nvp` of this gateway: unlike the standard gateway's it does
      not check the credentials again, the constructor having required
      them. */
  function NvpRequest<P>(s: Settings, call: string, params: map<P, Value>): (c: NvpCall<P>)
    ensures c.apiMethod == call && c.params == params
    ensures c.user == s.apiUsername && c.pwd == s.apiPassword
    ensures c.signature == s.apiSignature && c.version == s.apiVersion
  {
    NvpCall(call, s.apiUsername, s.apiPassword, s.apiSignature, s.apiVersion, params)
  }

  // ----- SetExpressCheckout -----

  /** A parameter of the checkout request other than the item lines. */
  datatype RequestField =
    | ReturnTo | CancelTo | LocaleCode | NoShipping | AllowNote
    | InvNum | CurrencyCode | Amt | ItemAmt | ShippingAmt | TaxAmt | MaxAmt
    | PaymentAction | NotifyUrl | BillingType | BillingAgreementDescription

  /** What an item line gives. */
  datatype LineAttr = LineName | LineDesc | LineAmt | LineQty | LineNumber

  /** A parameter of the checkout request: a request field, or one attribute
      of the item line at an index counted from 0. */
  datatype CheckoutField = Field(field: RequestField) | Line(attr: LineAttr, ix: nat)

  type Checkout = map<CheckoutField, Value>

  /** The name a request field is sent under. */
  function RequestKey(f: RequestField): (r: string)
  {
    match f
    case ReturnTo => "returnurl"
    case CancelTo => "cancelurl"
    case LocaleCode => "localecode"
    case NoShipping => "noshipping"
    case AllowNote => "allownote"
    case InvNum => "paymentrequest_0_invnum"
    case CurrencyCode => "paymentrequest_0_currencycode"
    case Amt => "paymentrequest_0_amt"
    case ItemAmt => "paymentrequest_0_itemamt"
    case ShippingAmt => "paymentrequest_0_shippingamt"
    case TaxAmt => "paymentrequest_0_taxamt"
    case MaxAmt => "maxamt"
    case PaymentAction => "paymentrequest_0_paymentaction"
    case NotifyUrl => "paymentrequest_0_notifyurl"
    case BillingType => "l_billingtype0"
    case BillingAgreementDescription => "l_billingagreementdescription0"
  }

  /** The name a parameter is sent under; an item line's carries its index. */
  function CheckoutKey(f: CheckoutField): (r: string)
  {
    match f
    case Field(r) => RequestKey(r)
    case Line(a, ix) =>
      "l_paymentrequest_0_"
      + (match a
         case LineName => "name"
         case LineDesc => "desc"
         case LineAmt => "amt"
         case LineQty => "qty"
         case LineNumber => "number")
      + NatToString(ix)
  }

  /** Whether the checkout request carries a field: the return and cancel
      URLs when set, the item and charge amounts for a cart without a
      recurring item, the maximum amount and the billing agreement for one
      with a recurring item, every other field always. */
  predicate RequestPresent(s: Settings, cart: Cart, f: RequestField)
  {
    match f
    case ReturnTo => Truthy(s.returnUrl)
    case CancelTo => Truthy(s.cancelUrl)
    case ItemAmt => |cart.recurringItems| == 0
    case ShippingAmt => |cart.recurringItems| == 0
    case TaxAmt => |cart.recurringItems| == 0
    case MaxAmt => |cart.recurringItems| > 0
    case BillingType => |cart.recurringItems| > 0
    case BillingAgreementDescription => |cart.recurringItems| > 0
    case _ => true
  }

  /** The value of a field the request carries. The total is charged now
      for a cart without a recurring item; a cart with one charges nothing
      now and caps later charges at its total. */
  function RequestValue(s: Settings, cart: Cart, f: RequestField): (r: Value)
    requires RequestPresent(s, cart, f)
  {
    match f
    case ReturnTo => Text(s.returnUrl.value)
    case CancelTo => Text(s.cancelUrl.value)
    case LocaleCode => Text(s.locale)
    case NoShipping => Text(if Truthy(s.noShipping) then s.noShipping.value else ShippingShown)
    case AllowNote => Text("1")
    case InvNum => Text(cart.uuid)
    case CurrencyCode => Text(s.currencyCode)
    case Amt => if |cart.recurringItems| == 0 then Decimal(cart.total) else Text("0.00")
    case ItemAmt => Decimal(cart.subTotal)
    case ShippingAmt => Decimal(cart.shipping)
    case TaxAmt => Decimal(cart.tax)
    case MaxAmt => Decimal(cart.total)
    case PaymentAction => Text("Sale")
    case NotifyUrl => Text(s.ipnUrl)
    case BillingType => Text("RecurringPayments")
    case BillingAgreementDescription => Text(cart.recurringItems[0].description)
  }

  /** The value one attribute of an item line gives. */
  function LineValue(item: OneTimeItem, a: LineAttr): (r: Value)
  {
    match a
    case LineName => Text(item.name)
    case LineDesc => Text(item.description)
    case LineAmt => Decimal(item.total)
    case LineQty => Integer(item.quantity)
    case LineNumber => Text(item.sku)
  }

  /** The five parameters of the item line at `ix`. */
  function LineEntry(item: OneTimeItem, ix: nat): (m: Checkout)
    ensures forall f | f in m :: f.Line? && f.ix == ix
    ensures forall f | f in m :: m[f] == LineValue(item, f.attr)
  {
    map[Line(LineName, ix) := LineValue(item, LineName), Line(LineDesc, ix) := LineValue(item, LineDesc),
        Line(LineAmt, ix) := LineValue(item, LineAmt), Line(LineQty, ix) := LineValue(item, LineQty),
        Line(LineNumber, ix) := LineValue(item, LineNumber)]
  }

  /** Every attribute is in an item line. */
  lemma LineEntryComplete(item: OneTimeItem, ix: nat, a: LineAttr)
    ensures Line(a, ix) in LineEntry(item, ix)
  {
    match a
    case LineName =>
    case LineDesc =>
    case LineAmt =>
    case LineQty =>
    case LineNumber =>
  }

  /** The item loop of `_get_checkout_data` from index `from` on. */
  function Lines(items: seq<OneTimeItem>, from: nat): (m: Checkout)
    requires from <= |items|
    ensures forall f | f in m :: f.Line? && from <= f.ix < |items|
    decreases |items| - from
  {
    if from == |items| then map[] else LineEntry(items[from], from) + Lines(items, from + 1)
  }

  /** The loop gives every attribute of every item from `from` on, under the
      item's own index. */
  lemma {:induction false} LinesContents(items: seq<OneTimeItem>, from: nat, i: nat, a: LineAttr)
    requires from <= i < |items|
    ensures Line(a, i) in Lines(items, from)
    ensures Lines(items, from)[Line(a, i)] == LineValue(items[i], a)
    decreases |items| - from
  {
    var rest := Lines(items, from + 1);
    assert Lines(items, from) == LineEntry(items[from], from) + rest;
    if i == from {
      LineEntryComplete(items[from], from, a);
      assert Line(a, i) !in rest;
    } else {
      LinesContents(items, from + 1, i, a);
    }
  }

  /** `_get_checkout_data`. The request fields, then the item lines of a
      cart without a recurring item. A billing street makes the code reach
      `self.car`, which does not exist: such a cart raises AttributeError,
      so the address override, e-mail and ship-to fields set on that path
      never reach PayPal. */
  function CheckoutData(s: Settings, cart: Cart): (r: Result<Checkout>)
    ensures r.Err? <==> cart.bill.street1 != ""
    ensures r.Err? ==> r.error == AttributeError("car")
    ensures r.Ok? ==> forall f :: Field(f) in r.value <==> RequestPresent(s, cart, f)
    ensures r.Ok? ==> forall f | Field(f) in r.value :: r.value[Field(f)] == RequestValue(s, cart, f)
    ensures r.Ok? ==> forall f | f in r.value && f.Line? ::
      |cart.recurringItems| == 0 && f.ix < |cart.oneTimeItems|
  {
    if cart.bill.street1 != "" then Err(AttributeError("car"))
    else
      var fields := map f: RequestField | RequestPresent(s, cart, f) :: Field(f) := RequestValue(s, cart, f);
      var lines := if |cart.recurringItems| == 0 then Lines(cart.oneTimeItems, 0) else map[];
      Ok(fields + lines)
  }

  /** A cart without a recurring item lists each of its items, from index 0,
      with every attribute. */
  lemma CheckoutDataLines(s: Settings, cart: Cart, i: nat, a: LineAttr)
    requires CheckoutData(s, cart).Ok? && |cart.recurringItems| == 0 && i < |cart.oneTimeItems|
    ensures Line(a, i) in CheckoutData(s, cart).value
    ensures CheckoutData(s, cart).value[Line(a, i)] == LineValue(cart.oneTimeItems[i], a)
  {
    LinesContents(cart.oneTimeItems, 0, i, a);
  }

  /** How the charge is split. A cart without a recurring item is charged
      its total now, itemised into items, shipping and tax, with no cap and
      no billing agreement. A cart with one is charged nothing now: its
      total caps the later charges, and the request asks for a billing
      agreement described as the first recurring item. */
  lemma RequestAmounts(s: Settings, cart: Cart)
    ensures RequestPresent(s, cart, Amt) && RequestPresent(s, cart, PaymentAction)
    ensures RequestValue(s, cart, PaymentAction) == Text("Sale")
    ensures |cart.recurringItems| == 0 ==>
      && RequestValue(s, cart, Amt) == Decimal(cart.total)
      && RequestPresent(s, cart, ItemAmt) && RequestValue(s, cart, ItemAmt) == Decimal(cart.subTotal)
      && RequestPresent(s, cart, ShippingAmt) && RequestValue(s, cart, ShippingAmt) == Decimal(cart.shipping)
      && RequestPresent(s, cart, TaxAmt) && RequestValue(s, cart, TaxAmt) == Decimal(cart.tax)
      && !RequestPresent(s, cart, MaxAmt) && !RequestPresent(s, cart, BillingType)
    ensures |cart.recurringItems| > 0 ==>
      && RequestValue(s, cart, Amt) == Text("0.00")
      && RequestPresent(s, cart, MaxAmt) && RequestValue(s, cart, MaxAmt) == Decimal(cart.total)
      && RequestPresent(s, cart, BillingType) && RequestValue(s, cart, BillingType) == Text("RecurringPayments")
      && RequestPresent(s, cart, BillingAgreementDescription)
      && RequestValue(s, cart, BillingAgreementDescription) == Text(cart.recurringItems[0].description)
      && !RequestPresent(s, cart, ItemAmt) && !RequestPresent(s, cart, ShippingAmt)
      && !RequestPresent(s, cart, TaxAmt)
  {
  }

  /** Shipping is shown unless the store sets NO_SHIPPING, and notes are
      always allowed. */
  lemma RequestDefaults(s: Settings, cart: Cart)
    ensures RequestPresent(s, cart, NoShipping) && RequestPresent(s, cart, AllowNote)
    ensures !Truthy(s.noShipping) ==> RequestValue(s, cart, NoShipping) == Text("0")
    ensures Truthy(s.noShipping) ==> RequestValue(s, cart, NoShipping) == Text(s.noShipping.value)
    ensures RequestValue(s, cart, AllowNote) == Text("1")
    ensures RequestPresent(s, cart, ReturnTo) <==> Truthy(s.returnUrl)
    ensures RequestPresent(s, cart, CancelTo) <==> Truthy(s.cancelUrl)
  {
  }

  // ----- CreateRecurringPaymentsProfile -----

  /** A parameter of the recurring profile request. */
  datatype RecurringField =
    | ProfileCurrency | ProfileAmt | ProfileDesc | ProfileShippingAmt | ProfileReference | ProfileStartDate
    | BillingPeriod | BillingFrequency
    | TrialBillingPeriod | TrialBillingFrequency | TrialTotalBillingCycles | TrialAmt
    | ProfileEmail

  /** The name a profile parameter is sent under. */
  function RecurringKey(f: RecurringField): (r: string)
  {
    match f
    case ProfileCurrency => "currencycode"
    case ProfileAmt => "amt"
    case ProfileDesc => "desc"
    case ProfileShippingAmt => "shippingamt"
    case ProfileReference => "profilereference"
    case ProfileStartDate => "profilestartdate"
    case BillingPeriod => "billingperiod"
    case BillingFrequency => "billingfrequency"
    case TrialBillingPeriod => "trialbillingperiod"
    case TrialBillingFrequency => "trialbillingfrequency"
    case TrialTotalBillingCycles => "trialtotalbillingcycles"
    case TrialAmt => "trialamt"
    case ProfileEmail => "email"
  }

  predicate IsTrialField(f: RecurringField)
  {
    f.TrialBillingPeriod? || f.TrialBillingFrequency? || f.TrialTotalBillingCycles? || f.TrialAmt?
  }

  /** The value of a profile parameter for the first recurring item. The
      profile starts at the item's start, or now when it has none. */
  function RecurringValue(s: Settings, cart: Cart, item: RecurringItem, now: int, isoformat: int -> string,
                          f: RecurringField): Value
  {
    match f
    case ProfileCurrency => Text(s.currencyCode)
    case ProfileAmt => Decimal(item.recurringPrice)
    case ProfileDesc => Text(item.description)
    case ProfileShippingAmt => Decimal(item.recurringShipping)
    case ProfileReference => Text(cart.uuid)
    case ProfileStartDate =>
      Text(isoformat(if item.recurringStart.Some? then item.recurringStart.value else now))
    case BillingPeriod => Text(item.durationUnit)
    case BillingFrequency => Integer(item.duration)
    case TrialBillingPeriod => Text(item.durationUnit)
    case TrialBillingFrequency => Integer(item.duration)
    case TrialTotalBillingCycles => Integer(item.trialLength)
    case TrialAmt => Decimal(item.trialPrice)
    case ProfileEmail => Text(cart.billEmail)
  }

  /** `_get_recurring_data`: the profile of the first recurring item (any
      further ones are only logged). A cart without one raises
      GatewayError. A billing street makes the code use the name `pre`,
      which is not defined there: such a cart raises NameError, so no
      ship-to field is ever sent. */
  function RecurringData(s: Settings, cart: Cart, now: int, isoformat: int -> string)
    : (r: Result<map<RecurringField, Value>>)
    ensures r.Err? <==> |cart.recurringItems| == 0 || cart.bill.street1 != ""
    ensures |cart.recurringItems| == 0 ==> r == Err(GatewayError(NoRecurringItemMessage))
    ensures |cart.recurringItems| > 0 && cart.bill.street1 != "" ==> r == Err(NameError("pre"))
    ensures r.Ok? ==> forall f :: f in r.value <==> (IsTrialField(f) ==> cart.recurringItems[0].trial)
    ensures r.Ok? ==> forall f | f in r.value ::
      r.value[f] == RecurringValue(s, cart, cart.recurringItems[0], now, isoformat, f)
  {
    if |cart.recurringItems| == 0 then Err(GatewayError(NoRecurringItemMessage))
    else
      var item := cart.recurringItems[0];
      if cart.bill.street1 != "" then Err(NameError("pre"))
      else
        Ok(map f: RecurringField | IsTrialField(f) ==> item.trial :: f := RecurringValue(s, cart, item, now, isoformat, f))
  }

  /** The trial repeats the regular period and frequency: a trial profile
      bills at the same rhythm, only at the trial price and for the trial
      length. */
  lemma RecurringDataTrial(s: Settings, cart: Cart, now: int, isoformat: int -> string)
    requires RecurringData(s, cart, now, isoformat).Ok?
    requires cart.recurringItems[0].trial
    ensures var r := RecurringData(s, cart, now, isoformat).value;
      && r[TrialBillingPeriod] == r[BillingPeriod]
      && r[TrialBillingFrequency] == r[BillingFrequency]
      && r[TrialAmt] == Decimal(cart.recurringItems[0].trialPrice)
      && r[TrialTotalBillingCycles] == Integer(cart.recurringItems[0].trialLength)
  {
    var r := RecurringData(s, cart, now, isoformat).value;
    assert TrialBillingPeriod in r && BillingPeriod in r && TrialBillingFrequency in r;
    assert BillingFrequency in r && TrialAmt in r && TrialTotalBillingCycles in r;
  }

  // ----- The round trips -----

  /** `submit`: SetExpressCheckout with the checkout parameters; PayPal's
      token goes into the redirect and into the session. */
  function Submit(s: Settings, cart: Cart, reply: map<string, string>)
    : (r: Result<(NvpCall<CheckoutField>, SubmitResult)>)
    ensures r.Ok? <==> && cart.bill.street1 == ""
                       && "ACK" in reply && reply["ACK"] == "Success" && "TOKEN" in reply
    ensures r.Ok? ==> r.value.0.apiMethod == "SetExpressCheckout"
                      && r.value.0.params == CheckoutData(s, cart).value
    ensures r.Ok? ==> r.value.1 == Url(RedirectUrl(s.live, reply["TOKEN"]), map[TokenSessionKey := reply["TOKEN"]])
  {
    var params :- CheckoutData(s, cart);
    var call := NvpRequest(s, "SetExpressCheckout", params);
    var response :- CheckAck("SetExpressCheckout", reply);
    var token :- Lookup(response, "TOKEN");
    Ok((call, Url(RedirectUrl(s.live, token), map[TokenSessionKey := token])))
  }

  /** The token the submit puts in the session is the one the redirect
      carries. */
  lemma SubmitTokenRoundTrip(s: Settings, cart: Cart, reply: map<string, string>)
    requires Submit(s, cart, reply).Ok?
    ensures var u := Submit(s, cart, reply).value.1;
      && TokenSessionKey in u.sessionArgs
      && u.url == RedirectUrl(s.live, u.sessionArgs[TokenSessionKey])
      && u.url[|if s.live then RedirectBase else RedirectTestBase|..] == u.sessionArgs[TokenSessionKey]
  {
    RedirectUrlReadsBack(s.live, reply["TOKEN"], reply["TOKEN"]);
  }

  /** The parameter of GetExpressCheckoutDetails. */
  datatype DetailsParam = DetailsToken

  /** `get_details`: GetExpressCheckoutDetails for the token; the shopper
      goes on to the confirmation page when one is set and straight to the
      finalize page otherwise, with the token and the payer in the session. */
  function GetDetails(s: Settings, token: string, reply: map<string, string>)
    : (r: Result<(NvpCall<DetailsParam>, SubmitResult)>)
    ensures r.Ok? <==> && "ACK" in reply && reply["ACK"] == "Success" && "PAYERID" in reply
                       && (Truthy(s.confirmUrl) || s.finalizeUrl.Some?)
    ensures (&& "ACK" in reply && reply["ACK"] == "Success" && "PAYERID" in reply
             && !Truthy(s.confirmUrl) && s.finalizeUrl.None?) ==> r == Err(KeyError("FINALIZE_URL"))
    ensures r.Ok? ==> r.value.0 == NvpRequest(s, "GetExpressCheckoutDetails", map[DetailsToken := Text(token)])
    ensures r.Ok? ==> r.value.1.Url?
                      && r.value.1.url == (if Truthy(s.confirmUrl) then s.confirmUrl.value else s.finalizeUrl.value)
                      && r.value.1.sessionArgs == map[TokenSessionKey := token, PayerIdSessionKey := reply["PAYERID"]]
  {
    var call := NvpRequest(s, "GetExpressCheckoutDetails", map[DetailsToken := Text(token)]);
    var response :- CheckAck("GetExpressCheckoutDetails", reply);
    var payerId :- Lookup(response, "PAYERID");
    var url :- if Truthy(s.confirmUrl) then Ok(s.confirmUrl.value) else Required(s.finalizeUrl, "FINALIZE_URL");
    Ok((call, Url(url, map[TokenSessionKey := token, PayerIdSessionKey := payerId])))
  }

  /** A parameter of the final call: the token and payer, then either the
      profile's parameters or the checkout's. */
  datatype FinalizeParam = Token | PayerId | Profile(profile: RecurringField) | Purchase(purchase: CheckoutField)

  /** What `finalize` leaves behind: the call made (None when the
      parameters could not be built), the cart as saved, and the outcome. */
  datatype Finalized = Finalized(call: Option<NvpCall<FinalizeParam>>, cart: Cart, outcome: Result<SubmitResult>)

  /** The recurring item after CreateRecurringPaymentsProfile: it holds the
      profile id and is active iff the profile is. */
  function Activate(item: RecurringItem, profileId: string, status: string): (r: RecurringItem)
    ensures r.paymentToken == profileId
    ensures r.isActive <==> status == "ActiveProfile"
    ensures r.(paymentToken := item.paymentToken, isActive := item.isActive) == item
  {
    item.(paymentToken := profileId, isActive := status == "ActiveProfile")
  }

  /** The token and payer under the parameters of the final call, for the
      recurring profile. */
  function ProfileParams(token: string, payerId: string, profile: map<RecurringField, Value>)
    : (m: map<FinalizeParam, Value>)
    ensures Token in m && m[Token] == Text(token) && PayerId in m && m[PayerId] == Text(payerId)
    ensures forall f :: Profile(f) in m <==> f in profile
    ensures forall f | f in profile :: m[Profile(f)] == profile[f]
    ensures forall p | p in m :: p.Token? || p.PayerId? || p.Profile?
  {
    (map f | f in profile :: Profile(f) := profile[f]) + map[Token := Text(token), PayerId := Text(payerId)]
  }

  /** The token and payer under the parameters of the final call, for an
      immediate payment. */
  function PurchaseParams(token: string, payerId: string, purchase: Checkout): (m: map<FinalizeParam, Value>)
    ensures Token in m && m[Token] == Text(token) && PayerId in m && m[PayerId] == Text(payerId)
    ensures forall f :: Purchase(f) in m <==> f in purchase
    ensures forall f | f in purchase :: m[Purchase(f)] == purchase[f]
    ensures forall p | p in m :: p.Token? || p.PayerId? || p.Purchase?
  {
    (map f | f in purchase :: Purchase(f) := purchase[f]) + map[Token := Text(token), PayerId := Text(payerId)]
  }

  /** `finalize`. A cart with a recurring item creates the recurring
      profile and saves the item with the profile id and whether it is
      active; any other cart is charged with DoExpressCheckoutPayment. Either
      way the shopper is then sent to the completion page. */
  function Finalize(s: Settings, cart: Cart, token: string, payerId: string, now: int,
                    isoformat: int -> string, reply: map<string, string>): (r: Finalized)
    ensures r.call.Some? <==> cart.bill.street1 == ""
    ensures r.call.Some? ==> && Token in r.call.value.params && r.call.value.params[Token] == Text(token)
                             && PayerId in r.call.value.params && r.call.value.params[PayerId] == Text(payerId)
    ensures r.call.Some? ==> r.call.value.apiMethod == (if |cart.recurringItems| > 0
                                                        then "CreateRecurringPaymentsProfile"
                                                        else "DoExpressCheckoutPayment")
    ensures r.outcome.Ok? <==> && cart.bill.street1 == "" && "ACK" in reply && reply["ACK"] == "Success"
                               && (|cart.recurringItems| > 0 ==> "PROFILEID" in reply && "STATUS" in reply)
                               && s.completeUrl.Some?
    ensures r.outcome.Ok? ==> r.outcome.value == Url(s.completeUrl.value, map[])
    ensures r.call.Some? && |cart.recurringItems| > 0 ==>
      && RecurringData(s, cart, now, isoformat).Ok?
      && r.call.value.params == ProfileParams(token, payerId, RecurringData(s, cart, now, isoformat).value)
    ensures r.call.Some? && |cart.recurringItems| == 0 ==>
      && CheckoutData(s, cart).Ok?
      && r.call.value.params == PurchaseParams(token, payerId, CheckoutData(s, cart).value)
    ensures |cart.recurringItems| == 0 ==> r.cart == cart
  {
    if |cart.recurringItems| > 0 then
      match RecurringData(s, cart, now, isoformat)
      case Err(e) => Finalized(None, cart, Err(e))
      case Ok(profile) =>
        var call := NvpRequest(s, "CreateRecurringPaymentsProfile", ProfileParams(token, payerId, profile));
        FinalizeRecurring(s, cart, call, reply)
    else
      match CheckoutData(s, cart)
      case Err(e) => Finalized(None, cart, Err(e))
      case Ok(purchase) =>
        var call := NvpRequest(s, "DoExpressCheckoutPayment", PurchaseParams(token, payerId, purchase));
        match CheckAck("DoExpressCheckoutPayment", reply)
        case Err(e) => Finalized(Some(call), cart, Err(e))
        case Ok(_) => Finalized(Some(call), cart, Complete(s))
  }

  /** The end of `finalize`: the completion page, which the store must set. */
  function Complete(s: Settings): (r: Result<SubmitResult>)
    ensures r.Ok? <==> s.completeUrl.Some?
    ensures r.Ok? ==> r.value == Url(s.completeUrl.value, map[])
    ensures r.Err? ==> r.error == KeyError("COMPLETE_URL")
  {
    var url :- Required(s.completeUrl, "COMPLETE_URL");
    Ok(Url(url, map[]))
  }

  /** True when PayPal created the profile: acknowledged, with its id and
      status. */
  predicate ProfileCreated(reply: map<string, string>)
  {
    "ACK" in reply && reply["ACK"] == "Success" && "PROFILEID" in reply && "STATUS" in reply
  }

  /** The recurring branch of `finalize` once the profile request is built.
      The first recurring item is saved with the profile as soon as PayPal
      has created it, before the completion page is looked up, so a missing
      completion page still leaves the item saved. */
  function FinalizeRecurring(s: Settings, cart: Cart, call: NvpCall<FinalizeParam>, reply: map<string, string>)
    : (r: Finalized)
    requires |cart.recurringItems| > 0
    ensures r.call == Some(call)
    ensures r.outcome.Ok? <==> ProfileCreated(reply) && s.completeUrl.Some?
    ensures !ProfileCreated(reply) ==> r.cart == cart
    ensures ProfileCreated(reply) ==>
      && |r.cart.recurringItems| == |cart.recurringItems|
      && r.cart.recurringItems[0] == Activate(cart.recurringItems[0], reply["PROFILEID"], reply["STATUS"])
      && (forall j | 0 < j < |cart.recurringItems| :: r.cart.recurringItems[j] == cart.recurringItems[j])
      && r.cart.(recurringItems := cart.recurringItems) == cart
  {
    match CheckAck("CreateRecurringPaymentsProfile", reply)
    case Err(e) => Finalized(Some(call), cart, Err(e))
    case Ok(response) =>
      match Lookup(response, "PROFILEID")
      case Err(e) => Finalized(Some(call), cart, Err(e))
      case Ok(profileId) =>
        match Lookup(response, "STATUS")
        case Err(e) => Finalized(Some(call), cart, Err(e))
        case Ok(status) =>
          var item := Activate(cart.recurringItems[0], profileId, status);
          var saved := cart.(recurringItems := cart.recurringItems[0 := item]);
          Finalized(Some(call), saved, Complete(s))
  }

  /** After finalizing a recurring cart, its first recurring item is active
      exactly when PayPal reports the profile active, and it holds the
      profile id; nothing else in the cart changes. */
  lemma FinalizeActivation(s: Settings, cart: Cart, token: string, payerId: string, now: int,
                           isoformat: int -> string, reply: map<string, string>)
    requires |cart.recurringItems| > 0 && cart.bill.street1 == "" && ProfileCreated(reply)
    ensures var c := Finalize(s, cart, token, payerId, now, isoformat, reply).cart;
      && |c.recurringItems| == |cart.recurringItems|
      && (c.recurringItems[0].isActive <==> reply["STATUS"] == "ActiveProfile")
      && c.recurringItems[0].paymentToken == reply["PROFILEID"]
      && c.recurringItems[0].(paymentToken := cart.recurringItems[0].paymentToken,
                              isActive := cart.recurringItems[0].isActive) == cart.recurringItems[0]
      && c.(recurringItems := cart.recurringItems) == cart
  {
  }

  /** A finalize that fails before PayPal creates the profile saves nothing. */
  lemma FinalizeFailureSavesNothing(s: Settings, cart: Cart, token: string, payerId: string, now: int,
                                    isoformat: int -> string, reply: map<string, string>)
    requires cart.bill.street1 != "" || !ProfileCreated(reply)
    ensures Finalize(s, cart, token, payerId, now, isoformat, reply).cart == cart
  {
  }
}

=== FILE: paypal_gateway.dfy ===
/** The PayPal Website Payments Standard gateway: the form posted to PayPal
    (a subscription for a cart with one recurring item, an itemised cart
    upload otherwise), the unsubscribe link, and the parameters of a refund
    sent through the NVP API. Settings are the gateway's settings dictionary
    plus its three boolean switches; the clock and the form encryption are
    parameters. The order in which the sorted dictionary lists its keys is
    not modelled: a form is a map. */
module PaypalGateway {
  import opened Base
  import opened Text
  import opened Money
  import opened Carts
  import opened PaypalCommon

  const PostUrl: string := "https://www.paypal.com/cgi-bin/webscr"
  const PostTestUrl: string := "https://www.sandbox.paypal.com/cgi-bin/webscr"
  /** PAYMENT_CMD */
  const SubscriptionCmd: string := "_xclick-subscriptions"
  const CartCmd: string := "_cart"
  const UnsubscribeCmd: string := "_subscr-find"

  const TrialAndDelayMessage: string := "PayPal can't have trial and delayed start"
  const DelayTooLongMessage: string := "PayPal doesn't support a delayed start of more than 90 days."
  const MaxDelayDays: int := 90
  const SecondsPerDay: int := 86400

  /** The settings the gateway reads; an absent entry is None. */
  datatype Settings = Settings(
    business: Option<string>,
    currencyCode: Option<string>,
    ipnUrl: Option<string>,
    locale: Option<string>,
    charset: Option<string>,
    returnAddress: Option<string>,
    rm: Option<string>,
    shoppingUrl: Option<string>,
    cancelReturn: Option<string>,
    cbt: Option<string>,
    noShipping: Option<string>,
    apiUsername: Option<string>,
    apiPassword: Option<string>,
    apiSignature: Option<string>,
    apiVersion: Option<string>,
    live: bool,
    reattempt: bool,
    encrypt: bool)

  /** `submit_url`: the production endpoint iff LIVE. */
  function SubmitUrl(live: bool): (url: string)
    ensures url == PostUrl <==> live
    ensures url == PostTestUrl <==> !live
  {
    if live then PostUrl else PostTestUrl
  }

  /** The fields every form starts with. */
  datatype HeadField =
    | Business | CurrencyCode | NotifyUrl | Charset | ReturnAddress | Rm | ShoppingUrl | CancelReturn
    | Cbt | NoShipping | HandlingCart | TaxCart | DiscountAmountCart | Lc | Invoice

  /** The fields a subscription adds besides cmd. */
  datatype SubscriptionField =
    | Src | ItemName | ItemNumber | NoNote | Bn | DiscountAmount
    | A1 | P1 | T1 | Modify | A3 | P3 | T3 | Srt | Sra

  /** The five fields each item of a cart upload adds, under its number. */
  datatype ItemAttr = Name | Amount | Quantity | OptionName | OptionValue

  /** The fields a billing address adds. */
  datatype BillingField =
    | FirstName | LastName | Address1 | Address2 | City | Country | Zip | Email | AddressOverride | State

  /** A field of the form posted to PayPal. */
  datatype Field =
    | Head(head: HeadField)
    | Cmd
    | Upload
    | Subscription(sub: SubscriptionField)
    | Item(attr: ItemAttr, ix: nat)
    | Billing(billing: BillingField)
    | Encrypted

  type Form = map<Field, Value>

  /** The name each item field is posted under, before the item's number. */
  function ItemPrefix(a: ItemAttr): (r: string)
  {
    match a
    case Name => "item_name_"
    case Amount => "amount_"
    case Quantity => "quantity_"
    case OptionName => "on0_"
    case OptionValue => "os0_"
  }

  /** The name a head field is posted under. */
  function HeadKey(h: HeadField): (r: string)
  {
    match h
    case Business => "business"
    case CurrencyCode => "currency_code"
    case NotifyUrl => "notify_url"
    case Charset => "charset"
    case ReturnAddress => "return"
    case Rm => "rm"
    case ShoppingUrl => "shopping_url"
    case CancelReturn => "cancel_return"
    case Cbt => "cbt"
    case NoShipping => "no_shipping"
    case HandlingCart => "handling_cart"
    case TaxCart => "tax_cart"
    case DiscountAmountCart => "discount_amount_cart"
    case Lc => "lc"
    case Invoice => "invoice"
  }

  /** The name a subscription field is posted under. */
  function SubscriptionKey(p: SubscriptionField): (r: string)
  {
    match p
    case Src => "src"
    case ItemName => "item_name"
    case ItemNumber => "item_number"
    case NoNote => "no_note"
    case Bn => "bn"
    case DiscountAmount => "discount_amount"
    case A1 => "a1"
    case P1 => "p1"
    case T1 => "t1"
    case Modify => "modify"
    case A3 => "a3"
    case P3 => "p3"
    case T3 => "t3"
    case Srt => "srt"
    case Sra => "sra"
  }

  /** The name a billing field is posted under. */
  function BillingKey(b: BillingField): (r: string)
  {
    match b
    case FirstName => "first_name"
    case LastName => "last_name"
    case Address1 => "address1"
    case Address2 => "address2"
    case City => "city"
    case Country => "country"
    case Zip => "zip"
    case Email => "email"
    case AddressOverride => "address_override"
    case State => "state"
  }

  /** The name a field is posted under. */
  function Key(f: Field): (r: string)
  {
    match f
    case Head(h) => HeadKey(h)
    case Cmd => "cmd"
    case Upload => "upload"
    case Subscription(p) => SubscriptionKey(p)
    case Item(a, ix) => ItemPrefix(a) + NatToString(ix)
    case Billing(b) => BillingKey(b)
    case Encrypted => "encrypted"
  }

  /** The name of an item field is its prefix followed by the item's number. */
  lemma ItemKeySplit(a: ItemAttr, n: nat)
    ensures var k := Key(Item(a, n));
      && |ItemPrefix(a)| <= |k| && k[..|ItemPrefix(a)|] == ItemPrefix(a) && k[|ItemPrefix(a)|..] == NatToString(n)
      && |ItemPrefix(a)| >= 4 && k[0] == ItemPrefix(a)[0] && k[1] == ItemPrefix(a)[1]
  {
  }

  /** Two item fields are posted under the same name only when they are the
      same field of the same item: the numbers keep the items apart. */
  lemma ItemKeysDistinct(a: ItemAttr, n: nat, b: ItemAttr, m: nat)
    requires Key(Item(a, n)) == Key(Item(b, m))
    ensures a == b && n == m
  {
    ItemKeySplit(a, n);
    ItemKeySplit(b, m);
    assert ItemPrefix(a)[0] == ItemPrefix(b)[0] && ItemPrefix(a)[1] == ItemPrefix(b)[1];
    assert a == b;
    ParseNatToString(n);
    ParseNatToString(m);
  }

  /** The four settings every form needs. */
  predicate HasFormSettings(s: Settings)
  {
    s.business.Some? && s.currencyCode.Some? && s.ipnUrl.Some? && s.locale.Some?
  }

  /** Whether the head of the form carries the field: the optional settings
      only when truthy, tax and discount only when non-zero. */
  predicate HeadPresent(s: Settings, cart: Cart, h: HeadField)
  {
    match h
    case Charset => Truthy(s.charset)
    case ReturnAddress => Truthy(s.returnAddress)
    case Rm => Truthy(s.rm)
    case ShoppingUrl => Truthy(s.shoppingUrl)
    case CancelReturn => Truthy(s.cancelReturn)
    case Cbt => Truthy(s.cbt)
    case TaxCart => cart.tax != 0
    case DiscountAmountCart => cart.discount != 0
    case _ => true
  }

  /** The value of a head field: shipping is charged as handling, and
      no_shipping defaults to "0". */
  function HeadValue(s: Settings, cart: Cart, h: HeadField): (r: Value)
    requires HasFormSettings(s) && HeadPresent(s, cart, h)
  {
    match h
    case Business => Text(s.business.value)
    case CurrencyCode => Text(s.currencyCode.value)
    case NotifyUrl => Text(s.ipnUrl.value)
    case Charset => Text(s.charset.value)
    case ReturnAddress => Text(s.returnAddress.value)
    case Rm => Text(s.rm.value)
    case ShoppingUrl => Text(s.shoppingUrl.value)
    case CancelReturn => Text(s.cancelReturn.value)
    case Cbt => Text(s.cbt.value)
    case NoShipping => Text(if Truthy(s.noShipping) then s.noShipping.value else "0")
    case HandlingCart => Decimal(cart.shipping)
    case TaxCart => Decimal(cart.tax)
    case DiscountAmountCart => Decimal(cart.discount)
    case Lc => Text(s.locale.value)
    case Invoice => Text(cart.uuid)
  }

  /** The fields every form starts with. A missing required setting raises
      KeyError, for the first one the code reads. */
  function HeadFields(s: Settings, cart: Cart): (r: Result<Form>)
    ensures r.Err? <==> !HasFormSettings(s)
    ensures s.business.None? ==> r == Err(KeyError("BUSINESS"))
    ensures r.Ok? ==> forall f | f in r.value :: f.Head?
    ensures r.Ok? ==> forall h :: Head(h) in r.value <==> HeadPresent(s, cart, h)
    ensures r.Ok? ==> forall h | Head(h) in r.value :: r.value[Head(h)] == HeadValue(s, cart, h)
  {
    var _ :- Required(s.business, "BUSINESS");
    var _ :- Required(s.currencyCode, "CURRENCY_CODE");
    var _ :- Required(s.ipnUrl, "IPN_URL");
    var _ :- Required(s.locale, "LOCALE");
    Ok(map h: HeadField | HeadPresent(s, cart, h) :: Head(h) := HeadValue(s, cart, h))
  }

  /** `delay.days` for `recurring_start - now + 1 day`, both in seconds:
      timedelta days round toward negative infinity. */
  function DelayDays(start: int, now: int): (days: int)
    ensures days * SecondsPerDay <= start - now + SecondsPerDay < (days + 1) * SecondsPerDay
  {
    (start - now + SecondsPerDay) / SecondsPerDay
  }

  /** Whether a subscription carries the field: the discount only for a
      discounted item, the free first period only for a delayed start, and
      modify only when modifying an existing subscription. */
  predicate SubscriptionPresent(item: RecurringItem, delay: Option<int>, modifyExisting: bool, p: SubscriptionField)
  {
    match p
    case DiscountAmount => item.discount != 0
    case A1 => delay.Some?
    case P1 => delay.Some?
    case T1 => delay.Some?
    case Modify => modifyExisting
    case _ => true
  }

  /** The value of a subscription field; `delay` is the delayed start in
      days. */
  function SubscriptionValue(s: Settings, cart: Cart, item: RecurringItem, delay: Option<int>, p: SubscriptionField): (r: Value)
    requires p == P1 ==> delay.Some?
  {
    match p
    case Src => Text("1")
    case ItemName => Text(item.name)
    case ItemNumber => Text(item.sku)
    case NoNote => Text("0")
    case Bn => Text("PP-SubscriptionsBF")
    case DiscountAmount => Decimal(cart.discount)
    case A1 => Text("0")
    case P1 => Integer(delay.value)
    case T1 => Text("D")
    case Modify => Text("1")
    case A3 => Decimal(item.recurringPrice)
    case P3 => Integer(item.duration)
    case T3 => Text(item.durationUnit)
    case Srt => Integer(item.recurringTimes)
    case Sra => Text(if s.reattempt then "1" else "0")
  }

  /** The fields of a subscription to the one recurring item. A delayed
      start of at most 90 days becomes a free first period of that many
      days; a delayed start with a trial is refused; a trial without a
      delayed start refers to an undefined name and raises. */
  function SubscriptionFields(s: Settings, cart: Cart, item: RecurringItem, modifyExisting: bool, now: int)
    : (r: Result<Form>)
    ensures r.Err? <==> (item.trial || (item.recurringStart.Some? && DelayDays(item.recurringStart.value, now) > MaxDelayDays))
    ensures item.trial && item.recurringStart.Some? ==> r == Err(GatewayError(TrialAndDelayMessage))
    ensures item.trial && item.recurringStart.None? ==> r == Err(NameError("recur"))
    ensures !item.trial && item.recurringStart.Some? && DelayDays(item.recurringStart.value, now) > MaxDelayDays ==>
      r == Err(GatewayError(DelayTooLongMessage))
    ensures r.Ok? ==> forall f | f in r.value :: f == Cmd || f.Subscription?
    ensures r.Ok? ==> Cmd in r.value && r.value[Cmd] == Text(SubscriptionCmd)
    ensures r.Ok? ==> var delay := if item.recurringStart.Some? then Some(DelayDays(item.recurringStart.value, now)) else None;
      forall p :: Subscription(p) in r.value <==> SubscriptionPresent(item, delay, modifyExisting, p)
    ensures r.Ok? ==> var delay := if item.recurringStart.Some? then Some(DelayDays(item.recurringStart.value, now)) else None;
      forall p | Subscription(p) in r.value :: r.value[Subscription(p)] == SubscriptionValue(s, cart, item, delay, p)
  {
    if item.trial && item.recurringStart.Some? then Err(GatewayError(TrialAndDelayMessage))
    else
      var delay :- match item.recurringStart
        case Some(start) =>
          var days := DelayDays(start, now);
          if days > MaxDelayDays then Err(GatewayError(DelayTooLongMessage)) else Ok(Some(days))
        case None =>
          if item.trial then Err(NameError("recur")) else Ok(None);
      Ok(map[Cmd := Text(SubscriptionCmd)]
        + map p: SubscriptionField | SubscriptionPresent(item, delay, modifyExisting, p)
            :: Subscription(p) := SubscriptionValue(s, cart, item, delay, p))
  }

  /** The value of an item field. */
  function ItemValue(item: OneTimeItem, a: ItemAttr): (r: Value)
  {
    match a
    case Name => Text(item.name)
    case Amount => Decimal(item.unitPrice)
    case Quantity => Integer(item.quantity)
    case OptionName => Text("SKU")
    case OptionValue => Text(item.sku)
  }

  /** The five fields of item number `ix`. */
  function ItemEntry(item: OneTimeItem, ix: nat): (m: Form)
    ensures forall f | f in m :: f.Item? && f.ix == ix
    ensures forall f | f in m :: m[f] == ItemValue(item, f.attr)
  {
    map[Item(Name, ix) := ItemValue(item, Name),
        Item(Amount, ix) := ItemValue(item, Amount),
        Item(Quantity, ix) := ItemValue(item, Quantity),
        Item(OptionName, ix) := ItemValue(item, OptionName),
        Item(OptionValue, ix) := ItemValue(item, OptionValue)]
  }

  /** Item number `ix` has all five fields. */
  lemma ItemEntryComplete(item: OneTimeItem, ix: nat, a: ItemAttr)
    ensures Item(a, ix) in ItemEntry(item, ix)
  {
    match a {
      case Name =>
      case Amount =>
      case Quantity =>
      case OptionName =>
      case OptionValue =>
    }
  }

  /** The item loop of the cart upload from position `from` on; the item at
      position j is number j + 1. An item with a discount adds a string to
      an int and raises. */
  function ItemFields(items: seq<OneTimeItem>, from: nat): (r: Result<Form>)
    requires from <= |items|
    ensures r.Err? <==> exists j | from <= j < |items| :: items[j].discount != 0
    ensures r.Err? ==> r.error == TypeError("cannot concatenate 'str' and 'int' objects")
    ensures r.Ok? ==> forall f | f in r.value :: f.Item? && from < f.ix <= |items|
    decreases |items| - from
  {
    if from == |items| then Ok(map[])
    else if items[from].discount != 0 then Err(TypeError("cannot concatenate 'str' and 'int' objects"))
    else
      var rest :- ItemFields(items, from + 1);
      Ok(ItemEntry(items[from], from + 1) + rest)
  }

  /** Every item from position `from` on is in the upload under its number,
      with each of its five fields holding its value. */
  lemma {:induction false} ItemFieldsContents(items: seq<OneTimeItem>, from: nat, i: nat, a: ItemAttr)
    requires from <= i < |items| && ItemFields(items, from).Ok?
    ensures Item(a, i + 1) in ItemFields(items, from).value
    ensures ItemFields(items, from).value[Item(a, i + 1)] == ItemValue(items[i], a)
    decreases |items| - from
  {
    var m := ItemFields(items, from).value;
    var rest := ItemFields(items, from + 1);
    assert rest.Ok? && m == ItemEntry(items[from], from + 1) + rest.value;
    if i == from {
      ItemEntryComplete(items[from], from + 1, a);
      assert Item(a, i + 1) !in rest.value;
    } else {
      ItemFieldsContents(items, from + 1, i, a);
    }
  }

  /** The fields of an itemised cart upload. */
  function CartFields(items: seq<OneTimeItem>): (r: Result<Form>)
    ensures r.Err? <==> exists j | 0 <= j < |items| :: items[j].discount != 0
    ensures r.Ok? ==> forall f | f in r.value :: f == Cmd || f == Upload || (f.Item? && 1 <= f.ix <= |items|)
    ensures r.Ok? ==> Cmd in r.value && r.value[Cmd] == Text(CartCmd)
    ensures r.Ok? ==> Upload in r.value && r.value[Upload] == Text("1")
  {
    var itemFields :- ItemFields(items, 0);
    Ok(map[Cmd := Text(CartCmd), Upload := Text("1")] + itemFields)
  }

  /** Whether the billing address carries the field: all of them when the
      cart has a first street line, and the state only for a two-letter
      state in the US, the country compared in any case. */
  predicate BillingPresent(cart: Cart, b: BillingField)
  {
    cart.bill.street1 != "" && (b == State ==> Lower(cart.bill.country) == "us" && |cart.bill.state| == 2)
  }

  /** The value of a billing field. */
  function BillingValue(cart: Cart, b: BillingField): (r: Value)
  {
    match b
    case FirstName => Text(cart.bill.firstName)
    case LastName => Text(cart.bill.lastName)
    case Address1 => Text(cart.bill.street1)
    case Address2 => Text(cart.bill.street2)
    case City => Text(cart.bill.city)
    case Country => Text(cart.bill.country)
    case Zip => Text(cart.bill.postalCode)
    case Email => Text(cart.billEmail)
    case AddressOverride => Text("0")
    case State => Text(cart.bill.state)
  }

  /** The billing address fields. */
  function BillingFields(cart: Cart): (m: Form)
    ensures forall f | f in m :: f.Billing?
    ensures forall b :: Billing(b) in m <==> BillingPresent(cart, b)
    ensures forall b | Billing(b) in m :: m[Billing(b)] == BillingValue(cart, b)
  {
    map b: BillingField | BillingPresent(cart, b) :: Billing(b) := BillingValue(cart, b)
  }

  /** The middle of the form: the subscription for a cart with one
      recurring item, the cart upload for a cart with none. */
  function BodyFields(s: Settings, cart: Cart, modifyExisting: bool, now: int): (r: Result<Form>)
    requires |cart.recurringItems| <= 1
    ensures r.Ok? ==> forall f | f in r.value :: !f.Head? && !f.Billing?
  {
    if |cart.recurringItems| == 1
    then SubscriptionFields(s, cart, cart.recurringItems[0], modifyExisting, now)
    else CartFields(cart.oneTimeItems)
  }

  /** `_get_form_data`: None for a cart with more than one recurring item;
      otherwise the head fields, the subscription or the cart upload, and
      the billing address. Exceptions propagate in that order. */
  function GetFormData(s: Settings, cart: Cart, modifyExisting: bool, now: int)
    : (r: Result<Option<Form>>)
    ensures HeadFields(s, cart).Err? ==> r == Err(HeadFields(s, cart).error)
    ensures HeadFields(s, cart).Ok? && |cart.recurringItems| > 1 ==> r == Ok(None)
    ensures HeadFields(s, cart).Ok? && |cart.recurringItems| == 1 ==>
      (r.Err? <==> SubscriptionFields(s, cart, cart.recurringItems[0], modifyExisting, now).Err?)
    ensures HeadFields(s, cart).Ok? && |cart.recurringItems| == 0 ==>
      (r.Err? <==> exists j | 0 <= j < |cart.oneTimeItems| :: cart.oneTimeItems[j].discount != 0)
    ensures r.Ok? && r.value.None? ==> |cart.recurringItems| > 1
  {
    var head :- HeadFields(s, cart);
    if |cart.recurringItems| > 1 then Ok(None)
    else
      var body :- BodyFields(s, cart, modifyExisting, now);
      Ok(Some(head + body + BillingFields(cart)))
  }

  /** A form GetFormData builds: the head, the body and the billing
      address, whose fields are of different kinds. */
  predicate IsFormOf(s: Settings, cart: Cart, modifyExisting: bool, now: int, head: Form, body: Form, bill: Form)
  {
    && HeadFields(s, cart) == Ok(head)
    && |cart.recurringItems| <= 1
    && BodyFields(s, cart, modifyExisting, now) == Ok(body)
    && bill == BillingFields(cart)
    && (forall f | f in head :: f.Head?)
    && (forall f | f in body :: !f.Head? && !f.Billing?)
    && (forall f | f in bill :: f.Billing?)
  }

  /** The form GetFormData builds, as the union of its three parts. */
  lemma FormDataParts(s: Settings, cart: Cart, modifyExisting: bool, now: int)
    returns (head: Form, body: Form, bill: Form)
    requires GetFormData(s, cart, modifyExisting, now).Ok? && GetFormData(s, cart, modifyExisting, now).value.Some?
    ensures IsFormOf(s, cart, modifyExisting, now, head, body, bill)
    ensures GetFormData(s, cart, modifyExisting, now).value.value == head + body + bill
  {
    head := HeadFields(s, cart).value;
    body := BodyFields(s, cart, modifyExisting, now).value;
    bill := BillingFields(cart);
  }

  /** Looking a key up in a union of three maps that only the first has. */
  lemma UnionFirst(a: Form, b: Form, c: Form, k: Field)
    requires k !in b && k !in c
    ensures k in a + b + c <==> k in a
    ensures k in a ==> (a + b + c)[k] == a[k]
  {
  }

  /** Looking a key up in a union of three maps that only the second has. */
  lemma UnionSecond(a: Form, b: Form, c: Form, k: Field)
    requires k !in a && k !in c
    ensures k in a + b + c <==> k in b
    ensures k in b ==> (a + b + c)[k] == b[k]
  {
  }

  /** Looking a key up in a union of three maps that only the third has. */
  lemma UnionThird(a: Form, b: Form, c: Form, k: Field)
    requires k !in a && k !in b
    ensures k in a + b + c <==> k in c
    ensures k in c ==> (a + b + c)[k] == c[k]
  {
  }

  /** The head of every form: each head field is present exactly when the
      head calls for it, with the head's value. */
  lemma FormDataHead(s: Settings, cart: Cart, modifyExisting: bool, now: int, h: HeadField)
    requires GetFormData(s, cart, modifyExisting, now).Ok? && GetFormData(s, cart, modifyExisting, now).value.Some?
    ensures var data := GetFormData(s, cart, modifyExisting, now).value.value;
      && (Head(h) in data <==> HeadPresent(s, cart, h))
      && (Head(h) in data ==> data[Head(h)] == HeadValue(s, cart, h))
  {
    var head, body, bill := FormDataParts(s, cart, modifyExisting, now);
    UnionFirst(head, body, bill, Head(h));
  }

  /** Every form says which command it is: a subscription iff the cart has
      a recurring item, a cart upload, with upload set, otherwise. */
  lemma FormDataCommand(s: Settings, cart: Cart, modifyExisting: bool, now: int)
    requires GetFormData(s, cart, modifyExisting, now).Ok? && GetFormData(s, cart, modifyExisting, now).value.Some?
    ensures var data := GetFormData(s, cart, modifyExisting, now).value.value;
      && Cmd in data
      && data[Cmd] == Text(if |cart.recurringItems| == 1 then SubscriptionCmd else CartCmd)
      && (Upload in data <==> |cart.recurringItems| == 0)
  {
    var head, body, bill := FormDataParts(s, cart, modifyExisting, now);
    UnionSecond(head, body, bill, Cmd);
    UnionSecond(head, body, bill, Upload);
  }

  /** A subscription form carries the subscription fields of the one
      recurring item, with the delayed start in days; a cart upload carries
      none. */
  lemma FormDataSubscription(s: Settings, cart: Cart, modifyExisting: bool, now: int, p: SubscriptionField)
    requires GetFormData(s, cart, modifyExisting, now).Ok? && GetFormData(s, cart, modifyExisting, now).value.Some?
    ensures var data := GetFormData(s, cart, modifyExisting, now).value.value;
      && (|cart.recurringItems| == 0 ==> Subscription(p) !in data)
      && (|cart.recurringItems| == 1 ==>
            var item := cart.recurringItems[0];
            var delay := if item.recurringStart.Some? then Some(DelayDays(item.recurringStart.value, now)) else None;
            && (Subscription(p) in data <==> SubscriptionPresent(item, delay, modifyExisting, p))
            && (Subscription(p) in data ==> data[Subscription(p)] == SubscriptionValue(s, cart, item, delay, p)))
  {
    var head, body, bill := FormDataParts(s, cart, modifyExisting, now);
    UnionSecond(head, body, bill, Subscription(p));
  }

  /** A subscription to an item with a delayed start begins with a free
      period as long as the delay in days, which is at most 90, and the item
      has no trial. */
  lemma FormDataDelayedStart(s: Settings, cart: Cart, modifyExisting: bool, now: int)
    requires GetFormData(s, cart, modifyExisting, now).Ok? && GetFormData(s, cart, modifyExisting, now).value.Some?
    requires |cart.recurringItems| == 1 && cart.recurringItems[0].recurringStart.Some?
    ensures var data := GetFormData(s, cart, modifyExisting, now).value.value;
      var days := DelayDays(cart.recurringItems[0].recurringStart.value, now);
      && !cart.recurringItems[0].trial
      && days <= MaxDelayDays
      && Subscription(A1) in data && data[Subscription(A1)] == Text("0")
      && Subscription(P1) in data && data[Subscription(P1)] == Integer(days)
  {
    FormDataSubscription(s, cart, modifyExisting, now, A1);
    FormDataSubscription(s, cart, modifyExisting, now, P1);
  }

  /** A cart upload numbers its items from 1: item i is number i + 1 and
      carries all five of its fields; no other numbers occur. */
  lemma FormDataItems(s: Settings, cart: Cart, modifyExisting: bool, now: int, i: nat, a: ItemAttr)
    requires GetFormData(s, cart, modifyExisting, now).Ok? && GetFormData(s, cart, modifyExisting, now).value.Some?
    requires |cart.recurringItems| == 0 && i < |cart.oneTimeItems|
    ensures var data := GetFormData(s, cart, modifyExisting, now).value.value;
      && Item(a, i + 1) in data && data[Item(a, i + 1)] == ItemValue(cart.oneTimeItems[i], a)
      && (forall f | f in data && f.Item? :: 1 <= f.ix <= |cart.oneTimeItems|)
  {
    var head, body, bill := FormDataParts(s, cart, modifyExisting, now);
    ItemFieldsContents(cart.oneTimeItems, 0, i, a);
    UnionSecond(head, body, bill, Item(a, i + 1));
  }

  /** The billing address of every form: each address field is present
      exactly when the address calls for it, with the cart's value. */
  lemma FormDataBilling(s: Settings, cart: Cart, modifyExisting: bool, now: int, b: BillingField)
    requires GetFormData(s, cart, modifyExisting, now).Ok? && GetFormData(s, cart, modifyExisting, now).value.Some?
    ensures var data := GetFormData(s, cart, modifyExisting, now).value.value;
      && (Billing(b) in data <==> BillingPresent(cart, b))
      && (Billing(b) in data ==> data[Billing(b)] == BillingValue(cart, b))
  {
    var head, body, bill := FormDataParts(s, cart, modifyExisting, now);
    UnionThird(head, body, bill, Billing(b));
  }

  /** What `submit` hands the front end: a form to post. */
  datatype FormPost = FormPost(action: string, fields: Option<Form>)

  /** `submit`: a form posted to the submit URL. With ENCRYPT the fields are
      replaced by the one encrypted field; a cart with several recurring
      items has no fields, which the encryption cannot read. */
  function Submit(s: Settings, cart: Cart, modifyExisting: bool, now: int, encrypt: Form -> string)
    : (r: Result<FormPost>)
    ensures GetFormData(s, cart, modifyExisting, now).Err? ==> r.Err?
    ensures r.Ok? <==> GetFormData(s, cart, modifyExisting, now).Ok?
                       && (s.encrypt ==> GetFormData(s, cart, modifyExisting, now).value.Some?)
    ensures r.Err? && GetFormData(s, cart, modifyExisting, now).Err? ==>
      r.error == GetFormData(s, cart, modifyExisting, now).error
    ensures r.Ok? ==> r.value.action == SubmitUrl(s.live)
    ensures r.Ok? && !s.encrypt ==> r.value.fields == GetFormData(s, cart, modifyExisting, now).value
    ensures r.Ok? && s.encrypt ==> r.value.fields.Some? && r.value.fields.value.Keys == {Encrypted}
    ensures r.Ok? && s.encrypt ==>
      r.value.fields == Some(map[Encrypted := Text(encrypt(GetFormData(s, cart, modifyExisting, now).value.value))])
    ensures s.encrypt && GetFormData(s, cart, modifyExisting, now) == Ok(None) ==> r == Err(AttributeError("items"))
  {
    var data :- GetFormData(s, cart, modifyExisting, now);
    if s.encrypt then
      match data
      case None => Err(AttributeError("items"))
      case Some(d) => Ok(FormPost(SubmitUrl(s.live), Some(map[Encrypted := Text(encrypt(d))])))
    else Ok(FormPost(SubmitUrl(s.live), data))
  }

  /** `cancel_recurring`: send the customer to PayPal's unsubscribe page for
      the merchant. */
  function CancelRecurring(s: Settings): (r: Result<CancelResult>)
    ensures r.Err? <==> s.business.None?
    ensures r.Ok? ==> StartsWith(r.value.url, SubmitUrl(s.live))
    ensures r.Ok? ==> r.value.url[|SubmitUrl(s.live)|..] == "?cmd=" + UnsubscribeCmd + "&alias=" + s.business.value
  {
    var business :- Required(s.business, "BUSINESS");
    var query := "?cmd=" + UnsubscribeCmd + "&alias=" + business;
    StartsWithAppend(SubmitUrl(s.live), query);
    assert (SubmitUrl(s.live) + query)[|SubmitUrl(s.live)|..] == query;
    Ok(CancelUrl(SubmitUrl(s.live) + query))
  }

  /** Read back as a URL, the unsubscribe link is the submit URL, then
      '?', then a query that, split at '&', is the unsubscribe command and
      the merchant's alias. An alias holding '&' would be split as well,
      since the source does not escape it. */
  lemma CancelRecurringReadsBack(s: Settings)
    requires s.business.Some? && '&' !in s.business.value
    ensures var url := CancelRecurring(s).value.url; var n := |SubmitUrl(s.live)|;
      && n < |url| && url[..n] == SubmitUrl(s.live) && url[n] == '?'
      && Split(url[n + 1..], '&') == ["cmd=" + UnsubscribeCmd, "alias=" + s.business.value]
  {
    UnsubscribeQuery(SubmitUrl(s.live), s.business.value);
  }

  /** The query of an unsubscribe link splits into the command and the alias. */
  lemma UnsubscribeQuery(base: string, business: string)
    requires '&' !in business
    ensures var url := base + ("?cmd=" + UnsubscribeCmd + "&alias=" + business); var n := |base|;
      && n < |url| && url[..n] == base && url[n] == '?'
      && Split(url[n + 1..], '&') == ["cmd=" + UnsubscribeCmd, "alias=" + business]
  {
    var cmd := "cmd=" + UnsubscribeCmd;
    var alias := "alias=" + business;
    var url := base + ("?cmd=" + UnsubscribeCmd + "&alias=" + business);
    assert url == base + ['?'] + (cmd + ['&'] + alias);
    assert url[|base| + 1..] == cmd + ['&'] + alias;
    SplitPair(cmd, '&', alias);
  }

  /** The unsubscribe link tells the two environments and every two
      merchants apart. */
  lemma CancelRecurringInjective(s: Settings, t: Settings)
    requires s.business.Some? && t.business.Some?
    requires CancelRecurring(s) == CancelRecurring(t)
    ensures s.live == t.live && s.business == t.business
  {
    var u := CancelRecurring(s).value.url;
    assert u[12] == SubmitUrl(s.live)[12] && u[12] == SubmitUrl(t.live)[12];
    assert |SubmitUrl(s.live)| != |SubmitUrl(t.live)| || s.live == t.live;
    var tail := "?cmd=" + UnsubscribeCmd + "&alias=";
    assert u[|SubmitUrl(s.live)|..] == tail + s.business.value;
    assert s.live == t.live;
    assert (tail + s.business.value)[|tail|..] == s.business.value;
    assert (tail + t.business.value)[|tail|..] == t.business.value;
  }

  /** True when the settings hold the API credentials a call needs. */
  predicate HasApiCredentials(s: Settings)
  {
    Truthy(s.apiUsername) && s.apiPassword.Some? && s.apiSignature.Some? && s.apiVersion.Some?
  }

  /** `_do_nvp` up to the network: the call needs an API user name (a
      missing one raises KeyError, an empty one GatewayError) and sends the
      method and the credentials along with the call's parameters. */
  function NvpRequest<P>(s: Settings, call: string, params: map<P, Value>): (r: Result<NvpCall<P>>)
    ensures s.apiUsername.None? ==> r == Err(KeyError("API_USERNAME"))
    ensures s.apiUsername == Some("") ==>
      r == Err(GatewayError("You must have NVP API credentials to do API operations (" + call + ") with Paypal"))
    ensures r.Ok? <==> HasApiCredentials(s)
    ensures r.Ok? ==> r.value.apiMethod == call && r.value.params == params
    ensures r.Ok? ==> && r.value.user == s.apiUsername.value && r.value.pwd == s.apiPassword.value
                      && r.value.signature == s.apiSignature.value && r.value.version == s.apiVersion.value
  {
    var user :- Required(s.apiUsername, "API_USERNAME");
    if user == "" then
      Err(GatewayError("You must have NVP API credentials to do API operations (" + call + ") with Paypal"))
    else
      var pwd :- Required(s.apiPassword, "API_PASSWORD");
      var signature :- Required(s.apiSignature, "API_SIGNATURE");
      var version :- Required(s.apiVersion, "API_VERSION");
      Ok(NvpCall(call, user, pwd, signature, version, params))
  }

  /** The parameters of a refund. */
  datatype RefundParam = TransactionId | RefundType | RefundAmount | RefundCurrency | RefundNote

  /** The parameters of `refund`: a partial refund of the amount when one
      is given (any non-zero amount), a full refund otherwise, and a note
      only when there is a reason. */
  function RefundParams(s: Settings, transactionId: string, amount: Option<int>, reason: Option<string>)
    : (r: Result<map<RefundParam, Value>>)
    ensures r.Err? <==> s.currencyCode.None?
    ensures r.Err? ==> r.error == KeyError("CURRENCY_CODE")
    ensures r.Ok? ==> RefundType in r.value
                      && r.value[RefundType] == Text(if amount.Some? && amount.value != 0 then "Partial" else "Full")
    ensures r.Ok? ==> (RefundAmount in r.value <==> amount.Some? && amount.value != 0)
    ensures r.Ok? && RefundAmount in r.value ==> r.value[RefundAmount] == Decimal(amount.value)
    ensures r.Ok? ==> (RefundNote in r.value <==> Truthy(reason))
    ensures r.Ok? && RefundNote in r.value ==> r.value[RefundNote] == Text(reason.value)
    ensures r.Ok? ==> TransactionId in r.value && r.value[TransactionId] == Text(transactionId)
    ensures r.Ok? ==> RefundCurrency in r.value && r.value[RefundCurrency] == Text(s.currencyCode.value)
  {
    var currency :- Required(s.currencyCode, "CURRENCY_CODE");
    var given := amount.Some? && amount.value != 0;
    var base := map[TransactionId := Text(transactionId), RefundType := Text(if given then "Partial" else "Full"),
                    RefundCurrency := Text(currency)];
    var withAmount := if given then base[RefundAmount := Decimal(amount.value)] else base;
    Ok(if Truthy(reason) then withAmount[RefundNote := Text(reason.value)] else withAmount)
  }

  /** `refund`: the RefundTransaction call with the refund's parameters and
      PayPal's reply. What goes through gives the request sent and an
      untyped result. */
  function Refund(s: Settings, transactionId: string, amount: Option<int>, reason: Option<string>,
                  reply: map<string, string>): (r: Result<(NvpCall<RefundParam>, SubmitResult)>)
    ensures r.Ok? ==> r.value.1 == Untyped
    ensures r.Ok? ==> && RefundParams(s, transactionId, amount, reason).Ok?
                      && NvpRequest(s, "RefundTransaction", RefundParams(s, transactionId, amount, reason).value)
                         == Ok(r.value.0)
  {
    var params :- RefundParams(s, transactionId, amount, reason);
    var request :- NvpRequest(s, "RefundTransaction", params);
    var _ :- CheckAck("RefundTransaction", reply);
    Ok((request, Untyped))
  }

  /** A refund that goes through sent RefundTransaction with the API
      credentials, the transaction id, the currency, the type and amount of
      the refund and the note. */
  lemma RefundRequest(s: Settings, transactionId: string, amount: Option<int>, reason: Option<string>,
                      reply: map<string, string>)
    requires Refund(s, transactionId, amount, reason, reply).Ok?
    ensures var call := Refund(s, transactionId, amount, reason, reply).value.0;
      var p := call.params;
      && call.apiMethod == "RefundTransaction"
      && call.user == s.apiUsername.value && call.pwd == s.apiPassword.value
      && call.signature == s.apiSignature.value && call.version == s.apiVersion.value
      && TransactionId in p && p[TransactionId] == Text(transactionId)
      && RefundCurrency in p && p[RefundCurrency] == Text(s.currencyCode.value)
      && RefundType in p && p[RefundType] == Text(if amount.Some? && amount.value != 0 then "Partial" else "Full")
      && (RefundAmount in p <==> amount.Some? && amount.value != 0)
      && (RefundAmount in p ==> p[RefundAmount] == Decimal(amount.value))
      && (RefundNote in p <==> Truthy(reason))
      && (RefundNote in p ==> p[RefundNote] == Text(reason.value))
  {
  }

  /** A refund goes through iff the currency is set, the API credentials
      are there and PayPal acknowledges; the currency is read first, then
      the credentials. */
  lemma RefundOutcome(s: Settings, transactionId: string, amount: Option<int>, reason: Option<string>,
                      reply: map<string, string>)
    ensures var r := Refund(s, transactionId, amount, reason, reply);
      && (r.Ok? <==> s.currencyCode.Some? && HasApiCredentials(s) && "ACK" in reply && reply["ACK"] == "Success")
      && (s.currencyCode.None? ==> r == Err(KeyError("CURRENCY_CODE")))
      && (s.currencyCode.Some? && s.apiUsername.None? ==> r == Err(KeyError("API_USERNAME")))
  {
  }

  /** `refund_payment`: a full refund of the payment, which gives nothing
      back; it fails exactly as a refund without an amount does. */
  function RefundPayment(s: Settings, transactionId: string, reason: Option<string>, reply: map<string, string>)
    : (r: Result<()>)
    ensures r.Ok? <==> Refund(s, transactionId, None, reason, reply).Ok?
    ensures r.Err? ==> r.error == Refund(s, transactionId, None, reason, reply).error
  {
    var _ :- Refund(s, transactionId, None, reason, reply);
    Ok(())
  }

  /** A full refund sends no amount and asks for the full type. */
  lemma RefundPaymentIsFull(s: Settings, transactionId: string, reason: Option<string>)
    requires s.currencyCode.Some?
    ensures var p := RefundParams(s, transactionId, None, reason);
      p.Ok? && RefundAmount !in p.value && p.value[RefundType] == Text("Full")
  {
  }
}

=== FILE: registry.dfy ===
/** The gateway registry of `validate_gateway`: six names, each for one
    gateway class, and the translation of a constructed gateway's validity
    check into True or an error message. Constructing and checking the
    gateways whose sources are not part of this model is a parameter; the
    PayPal Standard and Express Checkout gateways are constructed as
    written, and their constructors require a cart. */
module Registry {
  import opened Base

  datatype GatewayClass = Amazon | Google | Paypal | Paypal2 | PaypalAdaptive | PaypalExpress

  /** The name each class is registered under. */
  function KeyOf(c: GatewayClass): (r: string)
  {
    match c
    case Amazon => "amazon"
    case Google => "google"
    case Paypal => "paypal"
    case Paypal2 => "paypal2"
    case PaypalAdaptive => "paypal_adaptive"
    case PaypalExpress => "paypal_express"
  }

  /** The registry lookup; a name it does not hold has no class. */
  function ClassFor(key: string): (c: Option<GatewayClass>)
  {
    if key == KeyOf(Amazon) then Some(Amazon)
    else if key == KeyOf(Google) then Some(Google)
    else if key == KeyOf(Paypal) then Some(Paypal)
    else if key == KeyOf(Paypal2) then Some(Paypal2)
    else if key == KeyOf(PaypalAdaptive) then Some(PaypalAdaptive)
    else if key == KeyOf(PaypalExpress) then Some(PaypalExpress)
    else None
  }

  /** Each class is found under its own name. */
  lemma ClassForKeyOf(c: GatewayClass)
    ensures ClassFor(KeyOf(c)) == Some(c)
  {
    match c
    case Amazon =>
    case Google =>
    case Paypal =>
    case Paypal2 =>
    case PaypalAdaptive =>
    case PaypalExpress =>
  }

  /** The registry holds exactly the six names, one class each, and a name
      finds a class only when it is that class's name. */
  lemma RegistryExactlySix(key: string, c: GatewayClass)
    ensures ClassFor(key) == Some(c) <==> key == KeyOf(c)
    ensures ClassFor(key).Some? <==>
      key in {"amazon", "google", "paypal", "paypal2", "paypal_adaptive", "paypal_express"}
  {
    ClassForKeyOf(c);
    assert ClassFor(key).Some? ==> key == KeyOf(ClassFor(key).value);
  }

  /** What constructing a gateway and calling its `_is_valid` gives: the
      exception raised, or the validity. */
  datatype Probe = Raises(error: Error) | Checked(valid: bool)

  /** `validate_gateway` returns True or a message. */
  datatype Validation = Valid | Invalid(message: string)

  const AuthenticationErrorMessage: string := "Authentication Error"

  /** Python's complaint about a constructor called without its cart. */
  const MissingCartMessage: string := "__init__() takes exactly 2 arguments (1 given)"

  /** True for the classes whose constructor requires a cart. */
  predicate NeedsCart(c: GatewayClass)
  {
    c == Paypal || c == PaypalExpress
  }

  /** `cls()` followed by `_is_valid()`: a class whose constructor requires a
      cart raises TypeError, since none is passed; the others do what
      `probe` says. */
  function Construct(c: GatewayClass, probe: GatewayClass -> Probe): (p: Probe)
    ensures NeedsCart(c) ==> p == Raises(TypeError(MissingCartMessage))
    ensures !NeedsCart(c) ==> p == probe(c)
  {
    if NeedsCart(c) then Raises(TypeError(MissingCartMessage)) else probe(c)
  }

  /** `validate_gateway`. An unknown name raises KeyError, which is not
      caught; a GatewayError becomes its message; any other exception
      propagates; a failed check gives "Authentication Error". */
  function ValidateGateway(key: string, probe: GatewayClass -> Probe): (r: Result<Validation>)
    ensures ClassFor(key).None? ==> r == Err(KeyError(key))
    ensures r.Ok? ==> ClassFor(key).Some?
  {
    var c :- match ClassFor(key)
      case None => Err(KeyError(key))
      case Some(c) => Ok(c);
    match Construct(c, probe)
    case Raises(GatewayError(message)) => Ok(Invalid(message))
    case Raises(e) => Err(e)
    case Checked(valid) => Ok(if valid then Valid else Invalid(AuthenticationErrorMessage))
  }

  /** The outcome for a registered name: valid exactly when the gateway's
      check passes, "Authentication Error" when it fails, the message of a
      GatewayError, and every other exception raised again. */
  lemma ValidateGatewayOutcome(c: GatewayClass, probe: GatewayClass -> Probe)
    ensures var r := ValidateGateway(KeyOf(c), probe);
      var p := Construct(c, probe);
      && (r == Ok(Valid) <==> p == Checked(true))
      && (r == Ok(Invalid(AuthenticationErrorMessage)) <==>
            p == Checked(false) || p == Raises(GatewayError(AuthenticationErrorMessage)))
      && (p.Raises? && p.error.GatewayError? ==> r == Ok(Invalid(p.error.message)))
      && (r.Err? <==> p.Raises? && !p.error.GatewayError?)
      && (r.Err? ==> r.error == p.error)
  {
    ClassForKeyOf(c);
  }

  /** As written, the two PayPal gateways can never be validated: their
      constructors are called without the cart they require, and the
      TypeError that raises is not caught. */
  lemma ValidatePaypalRaises(probe: GatewayClass -> Probe)
    ensures ValidateGateway("paypal", probe) == Err(TypeError(MissingCartMessage))
    ensures ValidateGateway("paypal_express", probe) == Err(TypeError(MissingCartMessage))
  {
    ClassForKeyOf(Paypal);
    ClassForKeyOf(PaypalExpress);
  }
}

=== FILE: text.dfy ===
/** The Python string operations the gateways rely on, restated over
    `string`: truthiness (`a or b`), prefix/suffix/substring tests,
    ASCII lower-casing, `strip`, `split` and the decimal rendering of
    integers (`"%i" % n`, `"%02d" % n`). */
module Text {
  import opened Base

  /** Python's `incoming or fallback` on strings: the empty string is falsy. */
  function Or(incoming: string, fallback: string): (r: string)
  {
    if incoming != "" then incoming else fallback
  }

  /** `s.startswith(p)`; also what `s[:len(p)] == p` computes for any `s`. */
  predicate StartsWith(s: string, p: string)
  {
    |p| <= |s| && s[..|p|] == p
  }

  /** `s.endswith(suffix)`. */
  predicate EndsWith(s: string, suffix: string)
  {
    |suffix| <= |s| && s[|s| - |suffix|..] == suffix
  }

  /** Python's substring test `sub in s`. */
  predicate Contains(s: string, sub: string)
    decreases |s|
  {
    StartsWith(s, sub) || (|s| > 0 && Contains(s[1..], sub))
  }

  /** A string that lacks one of the characters of `sub` cannot contain it. */
  lemma {:induction false} NotContainsMissingChar(s: string, sub: string, k: nat)
    requires k < |sub| && sub[k] !in s
    ensures !Contains(s, sub)
    decreases |s|
  {
    if |sub| <= |s| {
      assert s[k] in s;
      assert s[..|sub|][k] != sub[k];
    }
    if |s| > 0 {
      assert forall c | c in s[1..] :: c in s;
      NotContainsMissingChar(s[1..], sub, k);
    }
  }

  /** A string contains every one of its prefixes. */
  lemma ContainsPrefix(s: string, p: string)
    requires StartsWith(s, p)
    ensures Contains(s, p)
  {
  }

  /** Every piece of a text is a substring of it; the empty string is one
      of every text. */
  lemma {:induction false} ContainsInfix(a: string, t: string, b: string)
    ensures Contains(a + t + b, t)
    decreases |a|
  {
    if a == [] {
      assert a + t + b == t + b;
      StartsWithAppend(t, b);
    } else {
      assert (a + t + b)[1..] == a[1..] + t + b;
      ContainsInfix(a[1..], t, b);
    }
  }

  /** A text starts with itself followed by anything. */
  lemma StartsWithAppend(p: string, s: string)
    ensures StartsWith(p + s, p)
  {
    assert (p + s)[..|p|] == p;
  }

  /** Concatenation is associative. */
  lemma ConcatAssoc(a: string, b: string, c: string)
    ensures a + (b + c) == (a + b) + c
  {
  }

  /** A prefix of a prefix is a prefix. */
  lemma StartsWithTransitive(s: string, p: string, q: string)
    requires StartsWith(s, p) && StartsWith(p, q)
    ensures StartsWith(s, q)
  {
    assert s[..|q|] == s[..|p|][..|q|];
  }

  /** ASCII lower-casing of one character. */
  function LowerChar(c: char): (r: char)
  {
    if 'A' <= c <= 'Z' then (c as int + 32) as char else c
  }

  /** `s.lower()` for ASCII text. */
  function Lower(s: string): (r: string)
    ensures |r| == |s|
    ensures forall i | 0 <= i < |s| :: r[i] == LowerChar(s[i])
  {
    seq(|s|, i requires 0 <= i < |s| => LowerChar(s[i]))
  }

  /** The characters Python 2's `unicode.strip()` removes: the unicode
      whitespace of Python 2.7's character database (Unicode 5.2), that is
      tab to carriage return, the four information separators, space, NEL,
      no-break space, the Ogham and Mongolian separators, the en quad to
      hair space range, the line and paragraph separators, the narrow
      no-break space, the medium mathematical space and the ideographic
      space. Request values are unicode, so this is what they are stripped
      of. */
  predicate IsSpace(c: char)
  {
    || '\t' <= c <= '\r'
    || '\U{1C}' <= c <= ' '
    || c == '\U{85}' || c == '\U{A0}' || c == '\U{1680}' || c == '\U{180E}'
    || '\U{2000}' <= c <= '\U{200A}'
    || c == '\U{2028}' || c == '\U{2029}' || c == '\U{202F}' || c == '\U{205F}' || c == '\U{3000}'
  }

  /** A text that starts with whitespace, whichever of the unicode spaces
      it is, strips to what the rest of it strips to. */
  lemma StripLeadingChar(s: string)
    requires |s| > 0 && IsSpace(s[0])
    ensures Strip(s) == Strip(s[1..])
  {
    var i := LeadingSpace(s[1..]);
    assert s[1..][i..] == s[1 + i..];
  }

  /** A text that ends with whitespace, whichever of the unicode spaces it
      is, strips to what the rest of it strips to. */
  lemma StripTrailingChar(s: string)
    requires |s| > 0 && IsSpace(s[|s| - 1])
    ensures Strip(s) == Strip(s[..|s| - 1])
  {
    var t, c := s[..|s| - 1], s[|s| - 1];
    assert s == t + [c];
    LeadingSpaceAppend(t, c);
    var i := LeadingSpace(t);
    if i < |t| {
      assert s[i..] == t[i..] + [c];
      TrimEndSpace(t[i..], c);
    } else {
      assert s[|s|..] == t[|t|..];
    }
  }

  /** Trimming the end of a text ignores one more whitespace character. */
  lemma TrimEndSpace(u: string, c: char)
    requires IsSpace(c)
    ensures TrimEnd(u + [c]) == TrimEnd(u)
  {
    assert (u + [c])[..|u|] == u;
    var n := |u| - TrailingSpace(u);
    assert (u + [c])[..n] == u[..n];
  }

  /** Appending a whitespace character extends the leading whitespace only
      of a text that is all whitespace. */
  lemma {:induction false} LeadingSpaceAppend(t: string, c: char)
    requires IsSpace(c)
    ensures LeadingSpace(t + [c]) == if LeadingSpace(t) < |t| then LeadingSpace(t) else |t| + 1
    decreases |t|
  {
    if |t| == 0 {
      assert ([c] + [])[1..] == [];
    } else {
      assert (t + [c])[1..] == t[1..] + [c];
      LeadingSpaceAppend(t[1..], c);
    }
  }

  /** Number of leading whitespace characters of `s`. */
  function LeadingSpace(s: string): (n: nat)
    ensures n <= |s|
    ensures forall i | 0 <= i < n :: IsSpace(s[i])
    ensures n < |s| ==> !IsSpace(s[n])
    decreases |s|
  {
    if |s| > 0 && IsSpace(s[0]) then 1 + LeadingSpace(s[1..]) else 0
  }

  /** Number of trailing whitespace characters of `s`. */
  function TrailingSpace(s: string): (n: nat)
    ensures n <= |s|
    ensures forall i | |s| - n <= i < |s| :: IsSpace(s[i])
    ensures n < |s| ==> !IsSpace(s[|s| - n - 1])
    decreases |s|
  {
    if |s| > 0 && IsSpace(s[|s| - 1]) then 1 + TrailingSpace(s[..|s| - 1]) else 0
  }

  /** `s.strip()`: the longest slice of `s` that neither starts nor ends with
      whitespace, all of whose surroundings in `s` are whitespace. */
  function Strip(s: string): (r: string)
    ensures exists i, j | 0 <= i <= j <= |s| :: && r == s[i..j]
                                                && (forall k | 0 <= k < i :: IsSpace(s[k]))
                                                && (forall k | j <= k < |s| :: IsSpace(s[k]))
    ensures r != [] ==> !IsSpace(r[0]) && !IsSpace(r[|r| - 1])
  {
    var i := LeadingSpace(s);
    TrailingSpaceAfter(s, i);
    assert TrimEnd(s[i..]) == s[i..|s| - TrailingSpace(s[i..])];
    TrimEnd(s[i..])
  }

  /** `u.rstrip()`: `u` without its trailing whitespace. */
  function TrimEnd(u: string): (r: string)
  {
    u[..|u| - TrailingSpace(u)]
  }

  /** The trailing whitespace of a suffix, counted from the end of the whole
      text: it lies in `s`, and the character before it is not whitespace. */
  lemma TrailingSpaceAfter(s: string, i: nat)
    requires i <= |s|
    ensures var j := |s| - TrailingSpace(s[i..]);
      && i <= j
      && (forall k | j <= k < |s| :: IsSpace(s[k]))
      && (i < j ==> !IsSpace(s[j - 1]))
  {
    var t := s[i..];
    assert forall k | i <= k < |s| :: s[k] == t[k - i];
  }

  /** Stripping text that has no surrounding whitespace leaves it unchanged. */
  lemma StripTrimmed(s: string)
    requires s != [] ==> !IsSpace(s[0]) && !IsSpace(s[|s| - 1])
    ensures Strip(s) == s
  {
    assert LeadingSpace(s) == 0;
    assert s[0..] == s;
    assert TrailingSpace(s) == 0;
  }

  /** Index of the first occurrence of `c` in `s`. */
  function IndexOf(s: string, c: char): (r: Option<nat>)
    ensures r.None? <==> c !in s
    ensures r.Some? ==> r.value < |s| && s[r.value] == c && c !in s[..r.value]
    decreases |s|
  {
    if |s| == 0 then None
    else if s[0] == c then Some(0)
    else match IndexOf(s[1..], c)
      case None => None
      case Some(i) => assert s[1..][..i] == s[1..i + 1]; Some(i + 1)
  }

  /** Python's `s.split(sep)` for a one-character separator: the pieces
      between separators, empty pieces included. */
  function Split(s: string, sep: char): (parts: seq<string>)
    ensures |parts| >= 1
    ensures forall i | 0 <= i < |parts| :: sep !in parts[i]
    decreases |s|
  {
    match IndexOf(s, sep)
    case None => [s]
    case Some(i) => [s[..i]] + Split(s[i + 1..], sep)
  }

  /** `sep.join(parts)`, the inverse of Split. */
  function Join(parts: seq<string>, sep: char): (r: string)
    requires |parts| >= 1
    decreases |parts|
  {
    if |parts| == 1 then parts[0] else parts[0] + [sep] + Join(parts[1..], sep)
  }

  /** Joining the pieces of a split gives back the original text. */
  lemma {:induction false} JoinSplit(s: string, sep: char)
    ensures Join(Split(s, sep), sep) == s
    decreases |s|
  {
    match IndexOf(s, sep)
    case None =>
    case Some(i) =>
      var rest := Split(s[i + 1..], sep);
      var parts := Split(s, sep);
      assert parts == [s[..i]] + rest;
      assert parts[0] == s[..i] && parts[1..] == rest;
      JoinSplit(s[i + 1..], sep);
      assert Join(parts, sep) == s[..i] + [sep] + Join(rest, sep);
      assert s == s[..i] + [sep] + s[i + 1..];
  }

  /** Splitting a join of separator-free pieces gives back the pieces. */
  lemma {:induction false} SplitJoin(parts: seq<string>, sep: char)
    requires |parts| >= 1
    requires forall i | 0 <= i < |parts| :: sep !in parts[i]
    ensures Split(Join(parts, sep), sep) == parts
    decreases |parts|
  {
    if |parts| > 1 {
      var s := Join(parts, sep);
      var rest := Join(parts[1..], sep);
      assert s == parts[0] + [sep] + rest;
      assert s[|parts[0]|] == sep;
      assert s[..|parts[0]|] == parts[0];
      assert IndexOf(s, sep) == Some(|parts[0]|);
      assert s[|parts[0]| + 1..] == rest;
      SplitJoin(parts[1..], sep);
      assert parts == [parts[0]] + parts[1..];
    }
  }

  /** Two pieces joined by a separator neither holds split back into the
      two pieces. */
  lemma SplitPair(a: string, sep: char, b: string)
    requires sep !in a && sep !in b
    ensures Split(a + [sep] + b, sep) == [a, b]
  {
    SplitJoin([a, b], sep);
    assert Join([a, b], sep) == a + [sep] + Join([b], sep);
  }

  /** The character of a decimal digit. */
  function DigitChar(d: nat): (c: char)
    requires d < 10
    ensures IsDigit(c) && DigitValue(c) == d
  {
    ('0' as int + d) as char
  }

  predicate IsDigit(c: char)
  {
    '0' <= c <= '9'
  }

  function DigitValue(c: char): (r: nat)
    requires IsDigit(c)
  {
    c as int - '0' as int
  }

  predicate AllDigits(s: string)
  {
    forall i | 0 <= i < |s| :: IsDigit(s[i])
  }

  /** `"%i" % n` for a natural number: decimal, no leading zeros. */
  function NatToString(n: nat): (s: string)
    ensures |s| >= 1 && AllDigits(s)
    ensures |s| > 1 ==> s[0] != '0'
    decreases n
  {
    if n < 10 then [DigitChar(n)] else NatToString(n / 10) + [DigitChar(n % 10)]
  }

  /** `"%i" % i` for any integer. */
  function IntToString(i: int): (r: string)
  {
    if i < 0 then "-" + NatToString(-i) else NatToString(i)
  }

  /** `"%02d" % n` for 0 <= n < 100. */
  function Pad2(n: nat): (s: string)
    requires n < 100
    ensures |s| == 2 && AllDigits(s)
  {
    [DigitChar(n / 10), DigitChar(n % 10)]
  }

  /** The value of a non-empty string of decimal digits. */
  function DigitsValue(s: string): (r: nat)
    requires |s| >= 1 && AllDigits(s)
    decreases |s|
  {
    if |s| == 1 then DigitValue(s[0])
    else DigitsValue(s[..|s| - 1]) * 10 + DigitValue(s[|s| - 1])
  }

  /** `int(s)` restricted to plain decimal digits: None for anything else. */
  function ParseNat(s: string): (r: Option<nat>)
    ensures r.Some? <==> |s| >= 1 && AllDigits(s)
  {
    if |s| >= 1 && AllDigits(s) then Some(DigitsValue(s)) else None
  }

  /** Reading back a rendered natural number gives the number. */
  lemma {:induction false} ParseNatToString(n: nat)
    ensures ParseNat(NatToString(n)) == Some(n)
    decreases n
  {
    if n >= 10 {
      var s := NatToString(n);
      var h := NatToString(n / 10);
      ParseNatToString(n / 10);
      assert s == h + [DigitChar(n % 10)];
      assert s[..|s| - 1] == h;
      assert DigitsValue(h) == n / 10;
      assert DigitsValue(s) == (n / 10) * 10 + n % 10;
    }
  }

  /** Reading back a two-digit rendering gives the number. */
  lemma ParsePad2(n: nat)
    requires n < 100
    ensures ParseNat(Pad2(n)) == Some(n)
  {
    var s := Pad2(n);
    assert s[..1] == [DigitChar(n / 10)];
    assert DigitsValue(s[..1]) == n / 10;
    assert DigitsValue(s) == (n / 10) * 10 + n % 10;
  }

  /** Distinct numbers render differently. */
  lemma NatToStringInjective(a: nat, b: nat)
    requires a != b
    ensures NatToString(a) != NatToString(b)
  {
    ParseNatToString(a);
    ParseNatToString(b);
  }

  /** Two keys built on the same prefix differ when their suffixes do. */
  lemma SamePrefixKeys(p: string, a: string, b: string)
    requires a != b
    ensures p + a != p + b
  {
    assert (p + a)[|p|..] == a;
    assert (p + b)[|p|..] == b;
  }

  /** Two keys built on prefixes of the same length but different text differ. */
  lemma OtherPrefixKeys(p: string, q: string, a: string, b: string)
    requires |p| == |q| && p != q
    ensures p + a != q + b
  {
    assert (p + a)[..|p|] == p;
    assert (q + b)[..|q|] == q;
  }
}
